=== FILE: README.md ===
# AlphaNex trading ledger: a verified Dafny model

AlphaNex is a set of Python trading scripts around the LongPort brokerage API. This
project models their bookkeeping core in Dafny and proves properties of the model.
The core has these parts:

- **The position and realized-profit ledger.** The two monitor scripts
  (`stock_monitor.py`, `stock_monitor_ollama_only.py`) keep a transaction history and a
  per-symbol list of open buy lots. They match every sell against the lots
  first-in-first-out, rebuild the open lots from the history on reload, and clamp buys
  by a fund limit and a per-symbol position limit. `trade.py` recomputes the profit from
  the whole history instead.
- **The simulated position aggregate** (share count, cost, average cost) of
  `stock_monitor_ollama_only.py`.
- **The small classifiers and parsers around the ledger:**
  - the overnight trading window;
  - the parse of the AI decision text;
  - the bounded decision memory;
  - the last-buy advice bands;
  - the profit report;
  - the order side, type and status labels of `order.py`;
  - the daily-performance and risk-level labels of `account.py` and
    `webapp/account.py`.

## Modelling choices

- **Open lots.** In the monitor scripts an open lot and its history record are the same
  Python dictionary. `Ledger.Book` makes that sharing explicit: the open table holds
  indices into the history.
- **Three matchers.** `Fifo.CalculateProfit` takes a `SyncMode` that picks one of them:
  - `MonitorSync` is `stock_monitor.py` as written;
  - `OllamaSync` is `stock_monitor_ollama_only.py` as written;
  - `NoSync` is the matcher both scripts intend, and the rest of the model uses it.
- **Numbers.** Quantities are `int` and prices are `real`. Python's `int()` on a float is
  modelled as truncation toward zero (`RiskClamps.Trunc`). `Decimal` and float arithmetic
  are modelled as exact reals.
- **Timestamps** are natural numbers. The scripts write them in one ISO format, so they
  sort the same way.
- **Parameters instead of calls.** Everything the code gets from the outside is a
  parameter:
  - the broker's answer (`OrderBook.Broker`);
  - the funds the broker positions use;
  - the live quote;
  - the clock;
  - the positions manager of `trade.py`.
- **Exceptions** are modelled where they pick a path:
  - a zero price in a clamp;
  - an unsupported action;
  - a non-positive quantity;
  - a zero baseline;
  - a log row without a 时间戳 cell, or a newest row whose 净资产 does not parse
    (`AccountPerformance.Baseline` then gives the default);
  - `update_position` raising in `trade.py` (`TradeOrders.UpdateOutcome`).
- **The max-position clamp never refuses.** The code buys at least one share through
  `max(1, ...)`, even when the limit is already passed
  (`RiskClamps.MaxPositionClampSound`, `RiskClamps.MaxPositionOverrunExample`).
- **`trade.py`'s lock.** `TradeOrders.PlaceOrder` describes an order as if
  `transaction_lock` were reentrant. `TradeOrders.PlaceOrderLocked` models the plain lock
  the code creates, under which an order that passes the checks never returns (see
  "## Findings").

## Model

| member | source | states |
|---|---|---|
| LotMatching.TakeConserves | stock_monitor.py:169-196 | The matched quantities plus what is left over always add up to the sell quantity. |
| LotMatching.TakeTotals | stock_monitor.py:169-221 | With non-negative lots, a sell matches `min(sell, open)` and leaves `max(0, sell - open)` unmatched. No lot gives more than it holds. Every lot but the last one touched is emptied, and a leftover means every lot was reached. |
| LotMatching.TakeMatchesExpected | stock_monitor.py:169-174 | Lot `k`, taken oldest first, gives exactly the closed-form FIFO share: what the earlier lots left of the sell, capped at the lot's size. Lots the match never reached would have given nothing. |
| Recency.Latest | stock_monitor.py:599-608 | "Sort by timestamp descending and take the first" returns a record that passes the filter. No passing record is newer, every earlier passing record is strictly older, and the result is `None` exactly when no record passes. |
| Recency.LatestUnique | stock_monitor.py:606-608 | The stable descending sort pins the index down: the newest record, and among equally new ones the first recorded. |
| Recency.LatestIgnoresRejected | stock_monitor.py:599-600 | Appending a record the filter rejects does not change the answer. |
| Ledger.Rebuild | stock_monitor.py:126-130 | The rebuilt table lists, for every symbol, exactly the indices of its buy records not marked closed, each once and oldest first. |
| Ledger.Reload | stock_monitor.py:116-136 | A reload keeps the history and gives each symbol exactly its open buys, oldest first. |
| Ledger.RebuildPrefixSpec | stock_monitor.py:126-130 | The rebuild lists, per symbol, exactly the buy records not marked closed, each once and in history order. |
| Ledger.IncreasingSameMembersEqual | stock_monitor.py:126-130 | Two strictly increasing index lists with the same members are equal, so the rebuilt lists are fixed by which records are open buys. |
| Ledger.RebuildDependsOnOpenFlags | stock_monitor.py:128-130 | The rebuild only depends on each record's symbol and whether it is an open buy. |
| Ledger.ReloadIdempotent | stock_monitor.py:116-136 | A reloaded ledger is consistent, and reloading twice equals reloading once. On a consistent ledger, reloading changes no symbol's open lots. |
| Ledger.ConsistentFacts | stock_monitor.py:126-130 | In a consistent ledger, every open lot points at an open buy of its own symbol, each at most once, oldest first. |
| Ledger.Record | stock_monitor.py:965-974 | Recording an order appends it to the history. Only its own symbol's lot list can change, and it grows by the new record exactly when the order becomes a lot. |
| Ledger.RecordKeepsConsistent | stock_monitor.py:965-974 | Recording keeps the ledger equal to its rebuild if and only if the record joins the lots exactly when it is an open buy. |
| Fifo.FirstWithId | stock_monitor.py:204-207 | The history search finds the first record with the lot's order id. |
| Fifo.Sync | stock_monitor.py:203-216 | The write through the history list changes no record count, in all three modes. |
| Fifo.MatchOf | stock_monitor.py:176-189 | A `matched_buys` entry names the lot and its buy price. Its profit is `(sell price - buy price) * matched`, and its percent is that profit over the lot's matched cost, or 0 for a cost that is not positive. |
| Fifo.MatchLoop | stock_monitor.py:169-216 | The loop keeps the history length, matches at most one entry per lot, and leaves the lots of every other symbol alone. |
| Fifo.PercentRulesAgree | stock_monitor.py:225-229 | The two scripts' rules for `total_profit_percent` never disagree: `stock_monitor.py` skips a zero profit, which gives 0 either way. |
| Fifo.CalculateProfit | stock_monitor.py:138-231 | A sell leaves the history length unchanged in every mode. What it computes is stated by `FifoProperties.MatchConserves`, `FifoProperties.MatchPercent` and `FifoProperties.MatchKeepsLedger`. |
| FifoProperties.MatchConserves | stock_monitor.py:162-229 | On a rebuildable ledger with no negative lot, the intended matcher conserves shares: matched plus unmatched is the sell. The match is `min(sell, open)`, and lot `k` gives the FIFO closed form. `total_profit` is matched revenue minus matched cost. With no open lot nothing is matched, the ledger is unchanged, and the whole sell is unmatched. |
| FifoProperties.MatchPercent | stock_monitor.py:223-229 | The matched buy cost is, lot by lot, the lot's price times the closed-form FIFO share. `total_profit_percent` is the total profit over that cost times 100 when the profit is not 0 and the cost is positive, and 0 otherwise. |
| FifoProperties.MatchKeepsLedger | stock_monitor.py:195-216 | After a sell the ledger is still equal to its rebuild and has no negative lot. The symbol's open quantity drops by exactly the matched quantity. Its remaining lots are a suffix of the old ones, so the oldest go first. Other symbols are untouched, and no record changes except in quantity and closed flag. |
| FifoProperties.LoopTakes | stock_monitor.py:169-196 | The loop's matched quantities are the FIFO rule applied to the lots' quantities, and its remainder is what that rule leaves. |
| FifoProperties.LoopInfos | stock_monitor.py:183-186 | Entry `k` of `matched_buys` names lot `k`, oldest first: its order id and its buy price. |
| FifoProperties.LoopHistory | stock_monitor.py:198-216 | Matching changes only the quantity and closed flag of the symbol's lots, and leaves every other record as it was. |
| FifoProperties.LoopSuffix | stock_monitor.py:199-201 | What stays open of the symbol is a suffix of the snapshot. |
| FifoProperties.LoopOpenQty | stock_monitor.py:199-210 | The symbol's open quantity falls by exactly the matched shares, and no lot becomes negative. |
| FifoProperties.LoopConsistent | stock_monitor.py:199-210 | Closing an emptied lot and shrinking a partly used one keep the open lots equal to their rebuild. |
| FifoProperties.LoopGain | stock_monitor.py:177-193 | The summed per-lot profit is sell price times matched shares minus the matched buy cost. |
| FifoProperties.CloseHeadKeepsConsistent | stock_monitor.py:199-201 | Closing the oldest lot and dropping it from the list keeps the ledger rebuildable. |
| FifoProperties.QuantityChangeKeepsConsistent | stock_monitor.py:208-210 | Changing a record's quantity does not change the rebuild. |
| FifoProperties.RecordKeepsNonNegative | stock_monitor.py:965-968 | Recording an order leaves no lot negative when the new lot is not negative. |
| SyncModes.OllamaIsIntended | stock_monitor_ollama_only.py:803-856 | With distinct order ids, `t.update(lot)` copies each lot onto itself. The script's `calculate_profit` then returns exactly what the intended matcher returns, ledger and details alike. |
| SyncModes.OllamaPercentIsIntended | stock_monitor_ollama_only.py:850-853 | With distinct order ids, the percent of `stock_monitor_ollama_only.py` is the same closed form: total profit over the FIFO buy cost times 100, or 0. |
| SyncModes.OllamaSyncIsNoOp | stock_monitor_ollama_only.py:840-844 | With distinct order ids, the history write of `stock_monitor_ollama_only.py` leaves the history unchanged. |
| SyncModes.OllamaLoopIsIntended | stock_monitor_ollama_only.py:803-843 | With distinct order ids, that script's matching loop equals the intended loop at every step. |
| SyncModes.MonitorDecrementsTwice | stock_monitor.py:208-216 | A sell that only dips into the oldest lot takes `2n` shares off it in `stock_monitor.py`, where the intended matcher takes `n`. The reported details and the open lists are the same. |
| SyncModes.MonitorDoubleDecrementExample | stock_monitor.py:208-216 | Take a lot of 100 and a sell of 60. `stock_monitor.py` leaves the lot at -20, where 40 should remain. A following sell of 40 then reports 60 shares unmatched instead of 0. |
| SyncModes.OllamaSharedIdExample | stock_monitor_ollama_only.py:840-844 | Two simulated buys placed in the same second share a `mock_order_<seconds>` id. Closing the later one overwrites the earlier one's record, so a reload loses a position that the intended matcher keeps. |
| RiskClamps.Trunc | stock_monitor.py:906 | `int(x)` truncates toward zero, from below for a positive argument and from above for a negative one. |
| RiskClamps.FundClamp | stock_monitor.py:882-912 | When the check raises (a zero price), the quantity is kept for the fallback. The cut itself is stated by `RiskClamps.FundClampSound`. |
| RiskClamps.FundClampSound | stock_monitor.py:887-912 | With a fund limit set and a positive price, a buy that fits passes unchanged. A buy that does not fit is cut to the largest whole quantity that fits, and it is refused exactly when not one share fits. |
| RiskClamps.MaxPositionClamp | stock_monitor.py:914-922 | The position limit never refuses a buy. |
| RiskClamps.MaxPositionClampSound | stock_monitor.py:918-922 | With a positive price, a buy within the limit passes unchanged. A larger buy is cut to the largest quantity that fits when one share fits, and to exactly one share when none does. |
| RiskClamps.MaxPositionOverrunExample | stock_monitor.py:918-922 | With 9990 of 10000 already used, a share at 50 still goes through and the position ends at 10040. |
| RiskClamps.BuyClamp | stock_monitor.py:882-922 | When the fund limit refuses or raises, the position limit is never reached. |
| RiskClamps.BuyClampRespectsFundLimit | stock_monitor.py:882-922 | With a fund limit and a positive price, a buy of at least one share that gets through both limits stays within the fund limit and never exceeds the request. It is refused exactly when neither it nor a single share fits. |
| RiskClamps.ZeroShareBuyOverrunsFundLimit | stock_monitor.py:899-922 | A request of zero shares passes the fund limit untouched, and `max(1, ...)` in the position limit then buys one share past the fund limit. |
| RiskClamps.FundClampNeverIncreases | stock_monitor.py:906-909 | The fund cut never increases the quantity. |
| RiskClamps.MaxPositionClampNeverIncreases | stock_monitor.py:921-922 | The position cut keeps a request of at least one share between one share and the request. |
| RiskClamps.AfterSell | stock_monitor.py:982-986 | The position value after a sell is never negative. |
| RiskClamps.PositionStaysNonNegative | stock_monitor.py:979-986 | A buy raises the position value. A sell lowers it but not below zero, and selling what was just bought restores it. |
| OrderBook.MockId | stock_monitor.py:995 | A simulated order's id is `mock_order_` followed by decimal digits that read back as the seconds. |
| OrderBook.MockIdInjective | stock_monitor.py:995 | Two simulated ids are equal exactly when they were made in the same second. |
| OrderBook.BookOrder | stock_monitor.py:955-974 | Booking appends exactly one record, the order with only its profit fields filled in. A non-sell joins the open lots of its symbol as a new lot, even when it is not a buy. |
| OrderBook.BookKeepsLedger | stock_monitor.py:955-974 | With the intended matcher, booking a buy or sell of a non-negative quantity keeps the ledger rebuildable and free of negative lots. |
| OrderBook.OtherActionBreaksReload | stock_monitor.py:965-968 | A record that is neither a buy nor a sell joins the open lots, where a rebuild would not put it. |
| MonitorOrders.PlaceOrder | stock_monitor.py:866-1040 | A dropped order leaves the state unchanged. A booked order carries the requested symbol, action and price. |
| MonitorOrders.Route | stock_monitor.py:880-1000 | Nothing is committed exactly when the buy is refused, or when the order is not submitted and the fallback is off. A committed record carries the requested symbol, action and price, the clamped quantity and the clock's time, and is open with no profit fields. It is `submitted` exactly when the broker accepted a buy or sell, under the broker's id; otherwise it is under `mock_order_<seconds>`. |
| MonitorOrders.PlaceOrderOutcome | stock_monitor.py:880-1040 | Nothing is booked exactly when the buy is refused, or when the order is not submitted and the fallback is off. A booked order is the new last record, with the clamped quantity. It is `submitted` under the broker's id (or `unknown`) when the broker accepted it, and `simulated` under `mock_order_<seconds>` otherwise. A sell is never cut. |
| MonitorOrders.SimulatedSameAccounting | stock_monitor.py:989-1038 | The fallback books exactly what the broker path books, except the record's id and status. |
| MonitorOrders.PlaceOrderKeepsLedger | stock_monitor.py:866-1038 | With the intended matcher, a buy or sell of a non-negative quantity keeps the ledger rebuildable and free of negative lots, on either path. |
| MonitorOrders.PlaceOrderPositions | stock_monitor.py:979-986 | Only the ordered symbol's position value moves: up by a buy's amount, down by a sell's but not below zero. A dropped order moves nothing. |
| MonitorOrders.OtherActionFallbackBreaksReload | stock_monitor.py:925-931 | An unsupported action raises, goes to the fallback, and is booked among the open lots, so the ledger no longer matches its rebuild. |
| MonitorOrders.DefaultConfigNeverRefuses | stock_monitor.py:883-922 | Without a configured fund limit, a buy of at least one share at a positive price always reaches the broker with between one share and the request. |
| PositionAggregate.AggBuy | stock_monitor_ollama_only.py:610-624 | A buy adds its shares and its cost. The new average values the new share count at the new cost, and it is 0 when no shares are held. |
| PositionAggregate.AggSell | stock_monitor_ollama_only.py:626-649 | The new share count is the old one minus the sold quantity, or 0 when that would be negative. So a sell of a non-negative quantity never raises a non-negative count, while a negative sell, which the fallback books (stock_monitor_ollama_only.py:556-562), raises it. The value shrinks in proportion to the shares. A closed-out position has no value and no average; an open one keeps its average. |
| PositionAggregate.BuyKeepsSound | stock_monitor_ollama_only.py:610-624 | A buy of a non-negative quantity keeps "cost = average * shares, no average when flat". The new average is the quantity-weighted mean of the old average and the price. |
| PositionAggregate.SellKeepsSound | stock_monitor_ollama_only.py:626-649 | A sell keeps the identity. The share count drops but not below zero, and the average is kept until the position is closed. |
| PositionAggregate.BuyThenSell | stock_monitor_ollama_only.py:610-649 | Selling what was just bought restores the share count, and from a flat position it restores the fresh aggregate. |
| PositionAggregate.NegativeBuyBreaksSound | stock_monitor_ollama_only.py:610-624 | A buy of -5 shares from flat leaves a negative share count. |
| OllamaOrders.UpdateUsedFunds | stock_monitor_ollama_only.py:518-520 | Replacing one symbol's aggregate changes the funds in use by exactly its change in value. No other symbol changes. |
| OllamaOrders.Route | stock_monitor_ollama_only.py:512-562 | A booked order carries the requested symbol, action and price. |
| OllamaOrders.Commit | stock_monitor_ollama_only.py:586-649 | Booking records the order with only its profit fields added, and updates the aggregates as the action says. |
| OllamaOrders.PlaceOrder | stock_monitor_ollama_only.py:497-742 | A dropped order leaves the state unchanged. |
| OllamaOrders.PlaceOrderOutcome | stock_monitor_ollama_only.py:512-742 | Only a buy or sell of a positive quantity reaches the broker. A refused buy, or a failure without fallback, books nothing. Everything else, a non-positive quantity included, is booked as simulated under `mock_order_<seconds>`. |
| OllamaOrders.NonPositiveQuantityBooked | stock_monitor_ollama_only.py:556-562 | The quantity guard's `ValueError` is caught, and the order is booked as simulated anyway. A buy of -5 drives the aggregate's share count negative. |
| OllamaOrders.RouteGuarded | stock_monitor_ollama_only.py:556-562 | With the guard enforced, only a positive quantity is booked, and otherwise the routing is unchanged. |
| OllamaOrders.PlaceOrderGuarded | stock_monitor_ollama_only.py:556-562 | With the guard in force, a dropped order changes nothing. A booked order has a positive quantity and the requested symbol, action and price, and the code as written books it too, with the same quantity, status and id. The aggregates move as that order says. |
| OllamaOrders.GuardedKeepsAggregates | stock_monitor_ollama_only.py:610-649 | With the guard, every order keeps each aggregate's identity, and a buy moves the funds in use by exactly its amount. |
| OllamaOrders.GuardedKeepsLedger | stock_monitor_ollama_only.py:586-604 | With the guard and the intended matcher, a buy or sell keeps the ledger rebuildable and free of negative lots. |
| OllamaOrders.SellStock | stock_monitor_ollama_only.py:900-951 | A refusal, or a missing quote, leaves the state unchanged. |
| OllamaOrders.SellStockGuard | stock_monitor_ollama_only.py:912-946 | There are two refusals: no broker position for the symbol, and a quantity above `available_quantity` (missing counts as 0). A sale is booked at the quoted price for exactly the requested quantity, and a non-positive quantity is sold as simulated. |
| TradingWindow.InWindow | stock_monitor_ollama_only.py:1020-1025 | A window whose start is after its end wraps past midnight. |
| TradingWindow.InWindowIsForwardDistance | stock_monitor_ollama_only.py:1020-1025 | Both branches are one rule: `now` is open exactly when, walking forward from the start around the clock, it comes before the end. |
| TradingWindow.EmptyWindowNeverOpen | stock_monitor_ollama_only.py:1024-1025 | A window whose start equals its end is never open. |
| TradingWindow.SwappedWindowIsComplement | stock_monitor_ollama_only.py:1020-1025 | Swapping the two ends gives exactly the complementary window. |
| TradingWindow.DefaultWindow | stock_monitor_ollama_only.py:1013-1014 | The default 22:00-05:00 window is open from 22:00 up to, but not including, 05:00, which is seven hours. |
| DecisionMemory.Save | stock_monitor.py:574-582 | The saved decision is the symbol's newest. A list under twenty grows by it, and no list exceeds twenty. |
| DecisionMemory.SaveKeepsOthers | stock_monitor.py:574-582 | A save touches only its own symbol. |
| DecisionMemory.SaveIsLast | stock_monitor.py:576-582 | A save keeps the last twenty of the old list plus the new decision. |
| DecisionMemory.SaveAll | stock_monitor.py:574-582 | Saving nothing changes nothing. After saving decisions, the symbol holds between one and twenty, the last one saved newest. No symbol is ever dropped. |
| DecisionMemory.SaveAllKeepsLastTwenty | stock_monitor.py:574-582 | However many decisions are saved, the memory holds exactly the last twenty of everything saved for the symbol, in order. |
| DecisionMemory.SaveAllKeepsOthers | stock_monitor.py:574-582 | Saving for one symbol never changes another symbol's memory. |
| LastBuy.BandOf | stock_monitor.py:619-630 | Each of the six advice bands is a half-open interval of the percent scale, closed at the top. |
| LastBuy.BandMonotone | stock_monitor.py:619-630 | A higher price never gives the advice of a lower band. |
| LastBuy.PercentFrom | stock_monitor.py:614-615 | The percent is the difference relative to a positive buy price, and 0 otherwise. |
| LastBuy.LastBuyInfoOf | stock_monitor.py:596-630 | There is no record exactly when the symbol has no buy. Otherwise the reported price and time are those of a buy of the symbol, no buy is newer, and the band is the band of the percent. |
| LastBuy.LastBuyIsNewestFirst | stock_monitor.py:606-610 | The reported buy is the newest, and among buys of that time the first recorded. |
| LastBuy.LastBuyIgnoresOthers | stock_monitor.py:599-600 | Recording a sell or another symbol's order does not change the answer. |
| DecisionParse.InstructionOf | stock_monitor_ollama_only.py:462-467 | `buy` exactly when the buy key occurs. `sell` exactly when the sell key occurs and the buy key does not. Otherwise `hold`. |
| DecisionParse.Search | stock_monitor_ollama_only.py:470-478 | The regular-expression search finds nothing exactly when no position matches. Otherwise its group is the longest run of allowed characters after the leftmost match of the key. |
| DecisionParse.ReasonOf | stock_monitor_ollama_only.py:470-475 | A reason line gives the rest of the first such line, non-empty. Without one, a non-empty reply gives its first hundred characters, and an empty reply gives the fixed "no reason". |
| DecisionParse.QuantityOf | stock_monitor_ollama_only.py:477-482 | The quantity is the number written in the digits after the leftmost `数量: ` followed by a digit, and 10 when there is none. |
| DecisionParse.Parse | stock_monitor_ollama_only.py:457-483 | The decision is `buy` exactly when the buy key occurs, and `sell` exactly when only the sell key does. Its quantity and reason are the leftmost matches' groups, or their defaults. |
| DecisionParse.ParseRender | stock_monitor_ollama_only.py:457-483 | Parsing inverts the reply layout for every instruction, every quantity, and every one-line reason without a colon. |
| DecisionParse.QuantityRoundTrip | stock_monitor_ollama_only.py:477-482 | The quantity written in a reply is the quantity read back. |
| DecisionParse.EmptyReplyDefaults | stock_monitor_ollama_only.py:457-460 | An empty reply gives hold, the fixed "no reason" text and quantity 10. |
| Text.Find | stock_monitor_ollama_only.py:462 | The substring search agrees with Python's `in`. |
| Text.DigitsRoundTrip | stock_monitor_ollama_only.py:480 | `int(str(n)) == n` for every natural number. |
| TradeProfit.Consume | trade.py:96-109 | A sell of a non-negative quantity leaves a non-negative remainder, a remainder means every lot was used up, and the queue never grows. |
| TradeProfit.ConsumeRemaining | trade.py:96-109 | `trade.py`'s sell loop follows the shared FIFO rule: what it leaves unmatched is what that rule leaves. |
| TradeProfit.ConsumeCost | trade.py:96-109 | A sell's cost is the matched shares of each lot at that lot's price. |
| TradeProfit.ConsumeOpenQty | trade.py:96-109 | The lot queue loses exactly the matched shares. |
| TradeProfit.ConsumeSuffix | trade.py:96-109 | What is left is the back of the queue, its first lot possibly reduced but at the same price. |
| TradeProfit.SellEntry | trade.py:111-125 | An entry is made exactly when the cost is positive. Its profit is the whole sell's revenue minus the cost, and its percent is that profit over the cost. |
| TradeProfit.Replay | trade.py:76-125 | Every entry of a symbol's replay belongs to that symbol, has a positive cost and is priced as above. There is at most one entry per sell. |
| TradeProfit.SortByTime | trade.py:72 | The sort gives a permutation of the trades in ascending timestamp order. |
| TradeProfit.Symbols | trade.py:59-64 | The groups are the history's symbols, each once. |
| TradeProfit.CalculateProfit | trade.py:54-134 | An empty history gives zero profit, zero trades and no details. `total_trades` counts the entries, and `total_profit` is their sum. |
| TradeProfit.SymbolsIndependent | trade.py:59-125 | Each symbol is settled on its own. The report's entries for a symbol are exactly the time-ordered replay of that symbol's trades. |
| TradeProfit.OtherSymbolTradeIrrelevant | trade.py:59-72 | Recording another symbol's trade never changes a symbol's entries. |
| TradeProfit.SellProfitGap | trade.py:91-113 | A sell's booked profit is the profit on its matched shares plus the revenue of the shares it could not match. |
| TradeOrders.LastBuyInfo | trade.py:145-174 | There is a position exactly when the symbol has a buy and a positive holding. Without a buy everything is zero. With a position, the difference is current price minus last buy price, and the percent is taken relative to a positive buy price. |
| TradeOrders.LastBuyIsNewestFirst | trade.py:147-156 | The reported buy price is that of the newest buy, and among buys of that time the first recorded. |
| TradeOrders.Refusal | trade.py:191-203 | A real buy is refused exactly when its amount exceeds the available funds, with 资金不足. Anything else is refused exactly when there is no position or it holds fewer shares than requested, with 持仓不足. |
| TradeOrders.PlaceOrder | trade.py:189-238 | A refused order leaves the history unchanged. A placed order is appended as the new last record, and it is placed exactly when nothing refuses it and the position update answers truthy. When the update answers falsy, the rolled-back history holds the same records as before, as a multiset. When the update raises, the order fails with the exception's text and its record stays appended. |
| TradeOrders.UpdateRaisedKeepsRecord | trade.py:217-238 | A simulated buy on an empty history whose position update raises is reported as failed, and the history still holds its record. |
| TradeOrders.PlaceOrderLocked | trade.py:189-219 | A refused order returns under either lock. Any other order returns only under a reentrant lock, and then with exactly the outcome of `TradeOrders.PlaceOrder`. |
| TradeOrders.PlainLockHangsExample | trade.py:27-35 | With the plain `threading.Lock` the code creates, a simulated buy on an empty history never returns. With a reentrant lock the same call places the order. |
| TradeOrders.RemoveFirstEqual | trade.py:231-232 | `list.remove` takes away exactly one copy of the value. |
| TradeOrders.RollbackRestores | trade.py:228-234 | When no earlier record equals the new one, a failed update restores the history exactly. |
| TradeOrders.RollbackMayReorder | trade.py:228-234 | An equal earlier record is removed instead, which reorders the history: a realized profit of 100 drops to 0. |
| TradeOrders.PlaceOrderIntended | trade.py:222-238 | Dropping the record just appended, after a falsy answer or an exception alike, gives the same replies, and every failed order leaves the history exactly as it was. |
| ProfitReport.Generate | stock_monitor.py:313-348 | The report counts every record and has one detail per record. Unrealized profit is always 0. |
| ProfitReport.GenerateShape | stock_monitor.py:326-343 | Detail `k` describes record `k`, with its profit or 0. There is a per-symbol entry exactly for the symbols that have a record carrying a profit. |
| ProfitReport.GenerateSums | stock_monitor.py:326-333 | The realized total adds up every record's profit, and each symbol's entry adds up that symbol's. |
| ProfitReport.SymbolsPartitionTotal | stock_monitor.py:326-333 | Summed over any list of distinct symbols that covers every profit-carrying record, the per-symbol profits give the realized total. |
| OrderFormat.TableHit | order.py:564-573 | The exact lookup hits exactly when the value, or the value with `<>[](){}` stripped, is a key. The value itself is tried first. |
| OrderFormat.SideOf | order.py:719-741 | A table hit wins. Otherwise "buy" in the lower-cased value, or exactly "B", gives 买入, then "sell" or "S" gives 卖出, and otherwise the value comes back. |
| OrderFormat.SideOfMeaning | order.py:719-741 | For every value: 买入 comes only from a buy entry of the table, a "buy" in the value, the letter "B" or the value 买入 itself, and likewise for 卖出. Any other answer is the value unchanged, which then hit no table entry and contains neither word. |
| OrderFormat.SideLetterCodes | order.py:735-737 | "B" and "S" are table keys, so the fallback's `== "B"` and `== "S"` tests never decide anything. |
| OrderFormat.FormatSide | order.py:716-741 | `None` gives 未知. Anything else gives a table label or the stripped input. |
| OrderFormat.TypeKeyword | order.py:677-698 | A keyword rule applies exactly when one of its words occurs. A value containing "limit" always gets one of the three limit labels. |
| OrderFormat.OrderTypeOf | order.py:659-698 | A table hit wins. A value without any keyword comes back unchanged. The answer is a table label, a keyword label or the input. |
| OrderFormat.FormatOrderType | order.py:656-698 | `None` gives 未知. Anything else gives a table label, a keyword label or the stripped input. |
| OrderFormat.CloseRuleUnreachable | order.py:681-686 | "close" contains "lo", so the limit rule always fires first: the keyword rules never answer 收盘市价单. |
| OrderFormat.MarketOnCloseReadAsLimit | order.py:663-686 | "MARKET_ON_CLOSE" misses the table and is labelled a limit order. |
| OrderFormat.TypeKeywordIntended | order.py:677-698 | With "lo" and "mo" read as whole-value abbreviations, a value that mentions market and close but not limit is labelled 收盘市价单. Values without those letter pairs get the same labels as before. |
| OrderFormat.OrderTypeOfIntended | order.py:659-698 | The corrected classifier keeps every table hit. |
| OrderFormat.MarketOnCloseIntended | order.py:683-686 | The corrected classifier labels "MARKET_ON_CLOSE" 收盘市价单. |
| OrderFormat.StatusKeyword | order.py:586-627 | A keyword rule applies exactly when one of its words occurs, with a label from the rules' set. "fill" gives 部分成交 when "part" also occurs, and 已成交 otherwise. |
| OrderFormat.KeywordLoop | order.py:629-635 | The last-resort loop answers exactly when a basic status name occurs, with a table label or the value itself. |
| OrderFormat.StatusOf | order.py:561-638 | A table hit wins. The answer is a table label, a keyword label or the input. |
| OrderFormat.FormatStatus | order.py:558-638 | `None` gives 未知. Anything else gives a table label, a keyword label or the stripped input. |
| OrderFormat.StatusFuzzyFirst | order.py:576-579 | Without an exact hit, the first key in table order that occurs in the value decides, before any keyword rule. |
| OrderFormat.KeywordLoopUnreachable | order.py:586-635 | Every basic name of the last-resort loop contains a word of an earlier rule, so the loop never answers. |
| OrderFormat.PartiallyFilledReadAsFilled | order.py:576-579 | A value that contains "PartiallyFilled" but is not exactly a key is labelled 已成交, because "Filled" precedes "PartiallyFilled" in the table. This holds unless the value also contains "New", which comes earlier still. |
| OrderFormat.PartiallyFilledExample | order.py:576-579 | "Status.PartiallyFilled" is labelled 已成交. |
| OrderFormat.StatusOfIntended | order.py:564-579 | The longest-key scan keeps every exact hit. |
| OrderFormat.PartiallyFilledIntended | order.py:576-579 | With the longest-key scan, a value containing "PartiallyFilled" is labelled by a key at least that long, never by "Filled". |
| AccountPerformance.Baseline | account.py:39-77 | An empty log, or a row without a 时间戳 cell, gives 805000.0. Otherwise the baseline comes from a row no other row is newer than: its net assets when they parse, and 805000.0 when they do not. |
| AccountPerformance.BaselineIsNewestFirst | account.py:57-77 | The baseline comes from the newest row, and among equally new rows the first logged; an unparsable 净资产 there gives 805000.0. |
| AccountPerformance.MalformedNewestRowDefaults | account.py:67-77 | A newest row whose 净资产 does not parse gives 805000.0, even when an older row holds a usable value. |
| AccountPerformance.StatusOf | account.py:133 | 盈利 exactly for a profit, 亏损 exactly for a loss, 持平 exactly for zero. |
| AccountPerformance.LevelOf | account.py:136-143 | Each of the four levels is a half-open band of the absolute rate, open at the top. |
| AccountPerformance.LevelMonotone | webapp/account.py:183-190 | A larger swing never gets a calmer level. |
| AccountPerformance.LevelSymmetric | account.py:136-143 | A gain and a loss of the same size get the same level. |
| AccountPerformance.DailyPerformance | account.py:129-152 | A zero baseline raises. Otherwise the profit is today minus yesterday, and the rate is that profit over yesterday times 100. The status follows today against yesterday, and both inputs are echoed unchanged. |
| AccountPerformance.RateRecoversCurrent | webapp/account.py:176-180 | Applying the rate to a positive baseline gives back today's assets, and the rate's sign is the status. |
| AccountPerformance.RiskLabel | account.py:164-171 | "0" to "3" map to 安全, 正常, 预警, 危险, and any other code maps to `未知(code)`. |
| AccountPerformance.RiskLabelInjective | webapp/account.py:211-218 | Different codes never share a label. |

`webapp/account.py` repeats `calculate_daily_performance` and `format_risk_level` of
`account.py` unchanged (webapp/account.py:167-218), so one model serves both.

## Left out

- **LongPort SDK calls.** Order submission, positions, quotes and account balance are
  foreign calls. Their answers are parameters, and the scripts that only wrap them
  (`holder.py`, `watch.py`, `cash.py`, `market_temp.py`, `calc_index.py`) are not
  modelled.
- **The order list and detail fetching of `order.py`**, and `OrderFormatter.get_order_value`
  and `format_order_status`. They probe unknown SDK objects reflectively.
- **AI HTTP requests and prompt construction.** Only the reply's parse is modelled.
- **Clocks, random quotes and time-based ids.** `datetime.now()`, the random mock quotes
  and `int(time.time())` are parameters.
- **Persistence.** JSON, CSV and SQLite reads and writes, `webapp/import_csv_to_db.py`
  and the log read behind the baseline are left out. The history and the log rows are
  in-memory sequences.
- **The SQL baseline.** In `webapp/account.py` the baseline comes from
  `ORDER BY timestamp DESC LIMIT 1`, whose tie order SQLite leaves open.
  `AccountPerformance.Baseline` follows the CSV variant of `account.py`.
- **Threads and locks.** Thread pools, the scheduler and the monitors' locks are left out,
  and the model is sequential. The one lock that decides an outcome, `trade.py`'s
  `transaction_lock`, is modelled by `TradeOrders.PlaceOrderLocked`.
- **Exceptions in the formatters.** An exception in `str()` of an SDK object gives 未知 and
  is not modelled. The formatters take the already-rendered string or `None`.
- **Text.** `str.lower` and `str.strip` are modelled for ASCII letters and whitespace
  only. `\d` in the quantity pattern is taken as ASCII digits.
- **Presentation.** Text rendering, `:.2f` formatting, the last-buy advice sentences,
  `display_*`, `pretty_print` and the Flask and matplotlib front ends are left out.
- **Floating point.** Float rounding and `Decimal` precision are not modelled. Prices and
  amounts are exact reals.
- **Table keys.** `OrderFormat.Lookup` returns the first entry with a key. That the keys
  of each table are distinct is not proved.
- LoopInfos: states the order id and buy price of each entry. Quantities and profits are
  stated by `FifoProperties.LoopTakes` and `FifoProperties.LoopPriced`.
- InWindow: its contract states only the wrap-around case and a lower bound for the
  same-day case. The full rule is `TradingWindow.InWindowIsForwardDistance`.
- MatchLoop, CalculateProfit, Sync: their contracts state only shape (lengths, untouched
  symbols). What they compute is stated by `FifoProperties.MatchConserves`,
  `FifoProperties.MatchPercent`, `FifoProperties.MatchKeepsLedger` and the `SyncModes`
  lemmas named in the table.
- TradeOrders.PlaceOrder: describes the order as if `transaction_lock` were reentrant. As
  written, every order that passes the checks holds the plain lock and then waits for it
  again in `save_transactions` (trade.py:217-219 and trade.py:34), so it never returns.
  That outcome is `TradeOrders.PlaceOrderLocked`. The fund and position queries
  (trade.py:193 and trade.py:200) are taken as answers: their raising, which replies with
  the exception's text before anything is recorded, is not modelled.
- BuyClampRespectsFundLimit, DefaultConfigNeverRefuses: stated for requests of at least
  one share. The parsed quantity can be 0 (stock_monitor.py:841-844), and
  stock_monitor.py:1124 passes it on unchecked. With a position already past the limit,
  `max(1, ...)` then buys one share more than requested and past the fund limit
  (`RiskClamps.ZeroShareBuyOverrunsFundLimit`).
- SellStock: after a broker-accepted sale, `sell_stock` reloads the symbol's position value from the broker's positions (stock_monitor_ollama_only.py:933-943). That read is a foreign call and is not modelled: the returned state carries the aggregate that `place_order` left.
- **The `hasattr(order, 'order_id')` probe** is modelled as the broker answer carrying
  an optional id.

## Findings

| source | as written | input that shows it | evidently intended | confidence | as-written member | corrected member |
|---|---|---|---|---|---|---|
| stock_monitor.py:208-216 | A partial match decrements the lot, then decrements the same record again through the history lookup, because the lot is that record. | One open lot of 100 shares, then a sell of 60: the lot is left at -20 shares. | The lot keeps 40 shares. | high (not executed) | SyncModes.MonitorDoubleDecrementExample | FifoProperties.MatchKeepsLedger |
| stock_monitor_ollama_only.py:840-844 | `t.update(lot)` writes into the first record with the lot's order id. Fallback orders placed in the same second share `mock_order_<seconds>`. | Simulated AAPL and MSFT buys in the same second, then selling the MSFT lot overwrites the AAPL record. | The closed lot's own record is updated. | medium (not executed) | SyncModes.OllamaSharedIdExample | SyncModes.OllamaIsIntended |
| stock_monitor_ollama_only.py:556-562 | The `ValueError` for a non-positive quantity is caught by the method's own `except`, which books the order as simulated. | A buy of -5 shares with the fallback on is booked, and the share count goes negative. | A non-positive quantity is never booked. | high (not executed) | OllamaOrders.NonPositiveQuantityBooked | OllamaOrders.PlaceOrderGuarded |
| order.py:576-579 | The fuzzy scan returns the first key in table order that occurs in the value, and "Filled" precedes "PartiallyFilled". | "Status.PartiallyFilled" gives 已成交. | 部分成交 | high (not executed) | OrderFormat.PartiallyFilledExample | OrderFormat.PartiallyFilledIntended |
| order.py:681-686 | The limit rule tests for "lo", which "close" contains, so the market-on-close branch after it is unreachable. | "MARKET_ON_CLOSE" gives 限价单. | 收盘市价单 | high (not executed) | OrderFormat.MarketOnCloseReadAsLimit | OrderFormat.MarketOnCloseIntended |
| trade.py:228-234 | The rollback uses `list.remove`, which drops the first record equal to the new order, not the one just appended. | A buy and a covering sell in the same second, then an identical buy whose position update fails: the history becomes sell, buy, and the profit of 100 drops to 0. | The record just appended is removed, and the history is restored. | medium (not executed); reachable only once the lock is reentrant | TradeOrders.RollbackMayReorder | TradeOrders.PlaceOrderIntended |
| trade.py:217-219 | `place_order` holds `transaction_lock`, a plain `threading.Lock` (trade.py:27), and calls `save_transactions`, which acquires it again (trade.py:34). | Any order that passes the fund and position checks, such as a simulated buy of 10 shares on an empty history. | The history is saved and the order is placed, as `PlaceOrderLocked` gives with `ReentrantLock`. | high (not executed) | TradeOrders.PlainLockHangsExample | TradeOrders.PlaceOrderLocked |
| trade.py:222, 236-238 | When `update_position` raises, the `except` replies with failure, but the record appended and saved before the call stays in the history. | A simulated buy on an empty history whose position update raises: the reply fails and the history holds the buy. | A failed order leaves no record, as the rollback for a falsy answer tries to ensure. | medium (not executed); reachable only once the lock is reentrant | TradeOrders.UpdateRaisedKeepsRecord | TradeOrders.PlaceOrderIntended |

=== FILE: account_performance.dfy ===
/** `AccountInfoFormatter` of account.py (repeated unchanged in webapp/account.py): the
    day's performance against yesterday's net assets and the risk-level label. The
    baseline comes from the newest logged row; reading the log is outside the model and
    the rows are a parameter. */
module AccountPerformance {
  import opened Wrappers
  import opened Recency

  /** Yesterday's net assets when nothing has been logged. */
  const DefaultBaseline: real := 805000.0

  /** The 时间戳 cell of a logged row: absent (the sort key then raises), present but
      matching neither format, or parsed. */
  datatype Stamp = Missing | Unparsed | At(t: nat)

  /** One logged row: its timestamp cell, and its 净资产 cell when `float()` accepts it. */
  datatype LogRow = LogRow(stamp: Stamp, netAssets: Option<real>)

  /** Sort key of a row: an unparsable timestamp counts as `datetime.min`, older than
      every parsed one. A missing cell never gets this far. */
  function SortKey(row: LogRow): nat {
    match row.stamp
    case At(t) => t + 1
    case _ => 0
  }

  predicate AnyRow(row: LogRow) { true }

  /** A row whose sort key raises, which sends the whole read to the default. */
  predicate StampMissing(row: LogRow) { row.stamp.Missing? }

  /** `_get_yesterday_net_assets`: the net assets of the newest row (the first in log
      order among rows of the same time). The default stands for an empty log, a row
      without a 时间戳 cell anywhere in the log, and a newest row whose 净资产 does not
      parse: each of those ends in the `except` that returns it. */
  function Baseline(rows: seq<LogRow>): (b: real)
    ensures |rows| == 0 ==> b == DefaultBaseline
    ensures (exists k :: 0 <= k < |rows| && StampMissing(rows[k])) ==> b == DefaultBaseline
    ensures |rows| > 0 && (forall k :: 0 <= k < |rows| ==> !StampMissing(rows[k])) ==>
      exists j :: 0 <= j < |rows|
                  && (forall k :: 0 <= k < |rows| ==> SortKey(rows[k]) <= SortKey(rows[j]))
                  && b == (if rows[j].netAssets.Some? then rows[j].netAssets.value else DefaultBaseline)
  {
    if exists k :: 0 <= k < |rows| && StampMissing(rows[k]) then DefaultBaseline
    else
      match Latest(rows, AnyRow, SortKey)
      case None => DefaultBaseline
      case Some(j) => rows[j].netAssets.GetOr(DefaultBaseline)
  }

  /** Which row supplies the baseline: the newest one, and among equally new rows the
      earliest logged, since the descending sort keeps ties in log order. */
  lemma BaselineIsNewestFirst(rows: seq<LogRow>, j: nat)
    requires j < |rows| && forall k :: 0 <= k < |rows| ==> !StampMissing(rows[k])
    requires forall k :: 0 <= k < |rows| ==> SortKey(rows[k]) <= SortKey(rows[j])
    requires forall k :: 0 <= k < j ==> SortKey(rows[k]) < SortKey(rows[j])
    ensures Baseline(rows) == (if rows[j].netAssets.Some? then rows[j].netAssets.value else DefaultBaseline)
  {
    LatestUnique(rows, AnyRow, SortKey, j);
  }

  /** A newest row whose 净资产 does not parse gives the default, even when an older
      row holds a usable value. */
  lemma MalformedNewestRowDefaults()
    ensures Baseline([LogRow(At(1), Some(900000.0)), LogRow(At(2), None)]) == DefaultBaseline
  {
    var rows := [LogRow(At(1), Some(900000.0)), LogRow(At(2), None)];
    BaselineIsNewestFirst(rows, 1);
  }

  /** 盈利, 亏损, 持平 */
  datatype ProfitStatus = Gain | Loss | Flat

  /** 轻微波动, 小幅波动, 中幅波动, 大幅波动 */
  datatype Level = Slight | Small | Medium | Large

  function Rank(l: Level): nat {
    match l
    case Slight => 0
    case Small => 1
    case Medium => 2
    case Large => 3
  }

  function Abs(x: real): (a: real)
    ensures a >= 0.0 && (a == x || a == -x)
  {
    if x < 0.0 then -x else x
  }

  function StatusOf(profit: real): (s: ProfitStatus)
    ensures s == Gain <==> profit > 0.0
    ensures s == Loss <==> profit < 0.0
    ensures s == Flat <==> profit == 0.0
  {
    if profit > 0.0 then Gain else if profit < 0.0 then Loss else Flat
  }

  /** The cascade `< 0.5`, `< 1.0`, `< 3.0`, else, on the absolute return rate: each
      level is a half-open band of the absolute rate, open at the top. */
  function LevelOf(rate: real): (l: Level)
    ensures l == Slight <==> -0.5 < rate < 0.5
    ensures l == Small <==> 0.5 <= Abs(rate) < 1.0
    ensures l == Medium <==> 1.0 <= Abs(rate) < 3.0
    ensures l == Large <==> 3.0 <= Abs(rate)
  {
    var a := Abs(rate);
    if a < 0.5 then Slight else if a < 1.0 then Small else if a < 3.0 then Medium else Large
  }

  /** A larger swing, up or down, never gets a calmer level. */
  lemma LevelMonotone(p: real, q: real)
    requires Abs(p) <= Abs(q)
    ensures Rank(LevelOf(p)) <= Rank(LevelOf(q))
  {
  }

  /** A gain and a loss of the same size get the same level. */
  lemma LevelSymmetric(rate: real)
    ensures LevelOf(-rate) == LevelOf(rate)
  {
  }

  datatype Performance = Performance(dailyProfit: real, dailyReturnRate: real, yesterday: real,
                                     current: real, status: ProfitStatus, level: Level)

  /** `calculate_daily_performance`; a zero baseline raises ZeroDivisionError. */
  function DailyPerformance(yesterday: real, current: real): (r: Result<Performance, string>)
    ensures r.Err? <==> yesterday == 0.0
    ensures r.Ok? ==> r.value.yesterday == yesterday && r.value.current == current
    ensures r.Ok? ==> yesterday + r.value.dailyProfit == current
    ensures r.Ok? ==> r.value.dailyReturnRate * yesterday == r.value.dailyProfit * 100.0
    ensures r.Ok? ==> (r.value.status == Gain <==> current > yesterday)
    ensures r.Ok? ==> (r.value.status == Loss <==> current < yesterday)
    ensures r.Ok? ==> r.value.level == LevelOf(r.value.dailyReturnRate)
  {
    if yesterday == 0.0 then Err("division by zero")
    else
      var profit := current - yesterday;
      var rate := profit / yesterday * 100.0;
      Ok(Performance(profit, rate, yesterday, current, StatusOf(profit), LevelOf(rate)))
  }

  /** The rate is a percentage of the baseline: applying it to a positive baseline
      gives back today's assets, and its sign is the sign of the profit. */
  lemma RateRecoversCurrent(yesterday: real, current: real)
    requires yesterday > 0.0
    ensures var p := DailyPerformance(yesterday, current).value;
      yesterday * (1.0 + p.dailyReturnRate / 100.0) == current
      && (p.dailyReturnRate > 0.0 <==> p.status == Gain)
      && (p.dailyReturnRate < 0.0 <==> p.status == Loss)
  {
    var p := DailyPerformance(yesterday, current).value;
    assert p.dailyReturnRate == (current - yesterday) / yesterday * 100.0;
  }

  /** `format_risk_level` on `str(risk_level)`. */
  function RiskLabel(code: string): (name: string)
    ensures code == "0" ==> name == "安全"
    ensures code == "1" ==> name == "正常"
    ensures code == "2" ==> name == "预警"
    ensures code == "3" ==> name == "危险"
    ensures code !in {"0", "1", "2", "3"} ==> name == "未知(" + code + ")"
  {
    if code == "0" then "安全"
    else if code == "1" then "正常"
    else if code == "2" then "预警"
    else if code == "3" then "危险"
    else "未知(" + code + ")"
  }

  /** Different codes never share a label, so the code can be read back from it. */
  lemma RiskLabelInjective(a: string, b: string)
    requires RiskLabel(a) == RiskLabel(b)
    ensures a == b
  {
    UnknownShape(a);
    UnknownShape(b);
  }

  /** An unknown code's label is the code wrapped in `未知(` and `)`, longer than and
      different from every known label. */
  lemma UnknownShape(code: string)
    ensures code !in {"0", "1", "2", "3"} ==>
      |RiskLabel(code)| == |code| + 4 && RiskLabel(code)[..3] == "未知("
      && RiskLabel(code)[3..|code| + 3] == code
  {
  }
}

=== FILE: decision_memory.dfy ===
/** `save_decision_memory` of the two monitor scripts: each symbol keeps its most recent
    AI decisions, at most twenty, oldest first. */
module DecisionMemory {

  const Capacity: nat := 20

  /** One remembered decision; the timestamp is the caller's clock reading. */
  datatype Decision = Decision(timestamp: nat, instruction: string, reason: string, price: real)

  type Memory = map<string, seq<Decision>>

  function Recall(mem: Memory, sym: string): seq<Decision> {
    if sym in mem then mem[sym] else []
  }

  /** The last `n` entries of `s` (all of them when there are fewer). */
  function Last(s: seq<Decision>, n: nat): (r: seq<Decision>)
    ensures |r| == if |s| < n then |s| else n
  {
    if |s| <= n then s else s[|s| - n..]
  }

  /** `Last` keeps a suffix: entry `k` of the result is the matching entry of `s`. */
  lemma LastIsSuffix(s: seq<Decision>, n: nat)
    ensures forall k :: 0 <= k < |Last(s, n)| ==> Last(s, n)[k] == s[|s| - |Last(s, n)| + k]
  {
  }

  /** Append the decision, creating the list for a new symbol, and cut the list back to
      its last twenty entries when it grows past them. */
  function Save(mem: Memory, sym: string, d: Decision): (r: Memory)
    ensures sym in r && |r[sym]| > 0 && r[sym][|r[sym]| - 1] == d
    ensures |Recall(mem, sym)| < Capacity ==> r[sym] == Recall(mem, sym) + [d]
    ensures |r[sym]| <= Capacity
  {
    var appended := Recall(mem, sym) + [d];
    mem[sym := if |appended| > Capacity then appended[|appended| - Capacity..] else appended]
  }

  /** Saving `ds` one after another. */
  function SaveAll(mem: Memory, sym: string, ds: seq<Decision>): (r: Memory)
    ensures |ds| == 0 ==> r == mem
    ensures |ds| > 0 ==> sym in r && 0 < |r[sym]| <= Capacity && r[sym][|r[sym]| - 1] == ds[|ds| - 1]
    ensures forall s :: s in mem ==> s in r
    decreases |ds|
  {
    if |ds| == 0 then mem else SaveAll(Save(mem, sym, ds[0]), sym, ds[1..])
  }

  /** A save touches only its own symbol. */
  lemma SaveKeepsOthers(mem: Memory, sym: string, d: Decision, other: string)
    requires other != sym
    ensures Recall(Save(mem, sym, d), other) == Recall(mem, other)
  {
  }

  lemma SaveIsLast(mem: Memory, sym: string, d: Decision)
    ensures Recall(Save(mem, sym, d), sym) == Last(Recall(mem, sym) + [d], Capacity)
  {
  }

  /** Dropping entries that the cut would drop anyway changes nothing. */
  lemma LastOfSuffix(x: seq<Decision>, j: nat)
    requires j <= |x| && |x| - j >= Capacity
    ensures Last(x[j..], Capacity) == Last(x, Capacity)
  {
    assert x[j..][|x| - j - Capacity..] == x[|x| - Capacity..];
  }

  /** Cutting before or after appending more entries keeps the same tail. */
  lemma LastOfLast(s: seq<Decision>, t: seq<Decision>)
    ensures Last(Last(s, Capacity) + t, Capacity) == Last(s + t, Capacity)
  {
    if |s| > Capacity {
      var j := |s| - Capacity;
      assert Last(s, Capacity) + t == (s + t)[j..];
      LastOfSuffix(s + t, j);
    }
  }

  /** However many decisions are saved, the memory holds exactly the last twenty of
      everything saved for the symbol, in order. */
  lemma {:induction false} SaveAllKeepsLastTwenty(mem: Memory, sym: string, ds: seq<Decision>)
    requires |Recall(mem, sym)| <= Capacity
    ensures Recall(SaveAll(mem, sym, ds), sym) == Last(Recall(mem, sym) + ds, Capacity)
    decreases |ds|
  {
    var r := Recall(mem, sym);
    if |ds| == 0 {
      assert r + ds == r;
      assert Last(r, Capacity) == r;
    } else {
      var mem1 := Save(mem, sym, ds[0]);
      assert SaveAll(mem, sym, ds) == SaveAll(mem1, sym, ds[1..]);
      SaveAllKeepsLastTwenty(mem1, sym, ds[1..]);
      SaveThenLast(mem, sym, ds);
    }
  }

  /** One save followed by the cut of the rest is the cut of everything. */
  lemma SaveThenLast(mem: Memory, sym: string, ds: seq<Decision>)
    requires |ds| > 0
    ensures Last(Recall(Save(mem, sym, ds[0]), sym) + ds[1..], Capacity) == Last(Recall(mem, sym) + ds, Capacity)
  {
    var r := Recall(mem, sym);
    SaveIsLast(mem, sym, ds[0]);
    LastOfLast(r + [ds[0]], ds[1..]);
    assert r + [ds[0]] + ds[1..] == r + ds;
  }

  /** Saving decisions for one symbol leaves every other symbol's memory as it was. */
  lemma {:induction false} SaveAllKeepsOthers(mem: Memory, sym: string, ds: seq<Decision>, other: string)
    requires other != sym
    ensures Recall(SaveAll(mem, sym, ds), other) == Recall(mem, other)
    decreases |ds|
  {
    if |ds| > 0 {
      SaveKeepsOthers(mem, sym, ds[0], other);
      SaveAllKeepsOthers(Save(mem, sym, ds[0]), sym, ds[1..], other);
    }
  }
}

=== FILE: decision_parse.dfy ===
/** The decision-text parsing of `analyze_with_ollama` in stock_monitor_ollama_only.py:
    the model's reply is scanned for an instruction line, a reason and a quantity, each
    with a default when the reply does not carry it. */
module DecisionParse {
  import opened Wrappers
  import opened Text

  datatype Instruction = Buy | Sell | Hold

  datatype Decision = Decision(instruction: Instruction, reason: string, quantity: nat)

  const BuyKey: string := "指令: 买入"
  const SellKey: string := "指令: 卖出"
  const HoldKey: string := "指令: 持有"
  const ReasonKey: string := "理由: "
  const QuantityKey: string := "数量: "
  const NoReason: string := "未提供理由"
  const DefaultQuantity: nat := 10
  /** A reply without a reason line is kept as the reason, cut to this many characters. */
  const FallbackReasonLength: nat := 100

  /** Buy wins over sell, and anything else is hold; the `指令: 持有` test only
      re-assigns the default. */
  function InstructionOf(text: string): (i: Instruction)
    ensures i == Buy <==> Contains(text, BuyKey)
    ensures i == Sell <==> !Contains(text, BuyKey) && Contains(text, SellKey)
    ensures i == Hold <==> !Contains(text, BuyKey) && !Contains(text, SellKey)
  {
    if Find(text, BuyKey) then Buy else if Find(text, SellKey) then Sell else Hold
  }

  /** The regular-expression dot: anything but a line feed. */
  predicate NotNewline(c: char) { c != '\n' }

  /** `key` occurs at `i` followed by a character `ok` accepts: a place where the
      pattern `key(X+)` can match, X being the class `ok` describes. */
  predicate KeyThen(text: string, key: string, ok: char -> bool, i: int) {
    OccursAt(text, key, i) && i + |key| < |text| && ok(text[i + |key|])
  }

  /** Leftmost match position at or after `from`. */
  function SearchFrom(text: string, key: string, ok: char -> bool, from: nat): (r: Option<nat>)
    requires from <= |text|
    ensures r.Some? ==> from <= r.value && KeyThen(text, key, ok, r.value)
    ensures forall j :: from <= j && (r.None? || j < r.value) ==> !KeyThen(text, key, ok, j)
    decreases |text| - from
  {
    if from + |key| >= |text| then None
    else if KeyThen(text, key, ok, from) then Some(from)
    else SearchFrom(text, key, ok, from + 1)
  }

  /** `i` is the leftmost place where `key(X+)` can match. */
  predicate FirstMatch(text: string, key: string, ok: char -> bool, i: int) {
    KeyThen(text, key, ok, i) && forall j :: 0 <= j < i ==> !KeyThen(text, key, ok, j)
  }

  /** `g` is the longest run of `ok` characters right after the key at `i`: what the
      greedy group `(X+)` captures there. */
  predicate GroupAfter(text: string, key: string, ok: char -> bool, i: int, g: string) {
    var start := i + |key|;
    0 <= start && start + |g| <= |text| && text[start..start + |g|] == g
    && (forall k :: 0 <= k < |g| ==> ok(g[k]))
    && (start + |g| == |text| || !ok(text[start + |g|]))
  }

  /** The greedy group after a given key position is unique. */
  lemma GroupAfterUnique(text: string, key: string, ok: char -> bool, i: int, g: string, g': string)
    requires GroupAfter(text, key, ok, i, g) && GroupAfter(text, key, ok, i, g')
    ensures g == g'
  {
    var start := i + |key|;
    forall k | start <= k < start + |g| ensures ok(text[k]) {
      assert text[k] == g[k - start];
    }
    forall k | start <= k < start + |g'| ensures ok(text[k]) {
      assert text[k] == g'[k - start];
    }
    RunStopsAt(text, start, |g|, ok);
    RunStopsAt(text, start, |g'|, ok);
  }

  lemma GroupAfterUniqueAll(text: string, key: string, ok: char -> bool)
    ensures forall i, g, g' :: GroupAfter(text, key, ok, i, g) && GroupAfter(text, key, ok, i, g') ==> g == g'
  {
    forall i, g, g' | GroupAfter(text, key, ok, i, g) && GroupAfter(text, key, ok, i, g') ensures g == g' {
      GroupAfterUnique(text, key, ok, i, g, g');
    }
  }

  /** `re.search(key + '(X+)', text).group(1)`: the leftmost match, extended greedily. */
  function Search(text: string, key: string, ok: char -> bool): (r: Option<string>)
    ensures r.None? <==> forall j :: !KeyThen(text, key, ok, j)
    ensures r.Some? ==> |r.value| > 0 && forall k :: 0 <= k < |r.value| ==> ok(r.value[k])
    ensures forall i :: FirstMatch(text, key, ok, i) ==> r.Some? && GroupAfter(text, key, ok, i, r.value)
  {
    match SearchFrom(text, key, ok, 0)
    case None => None
    case Some(i) =>
      var start := i + |key|;
      Some(text[start..start + Run(text, start, ok)])
  }

  /** `理由: (.+)`; failing that the first hundred characters of a non-empty reply;
      failing that the fixed "no reason given". */
  function ReasonOf(text: string): (r: string)
    ensures (exists j :: KeyThen(text, ReasonKey, NotNewline, j)) ==>
      |r| > 0 && forall k :: 0 <= k < |r| ==> r[k] != '\n'
    ensures (forall j :: !KeyThen(text, ReasonKey, NotNewline, j)) && |text| > 0 ==>
      |r| == (if |text| < FallbackReasonLength then |text| else FallbackReasonLength) && StartsWith(text, r)
    ensures |text| == 0 ==> r == NoReason
    ensures forall i, g :: FirstMatch(text, ReasonKey, NotNewline, i) && GroupAfter(text, ReasonKey, NotNewline, i, g) ==> r == g
  {
    GroupAfterUniqueAll(text, ReasonKey, NotNewline);
    match Search(text, ReasonKey, NotNewline)
    case Some(g) => g
    case None =>
      if |text| > 0 then text[..if |text| < FallbackReasonLength then |text| else FallbackReasonLength]
      else NoReason
  }

  /** `数量: (\d+)` read as a number, or 10. */
  function QuantityOf(text: string): (q: nat)
    ensures (forall j :: !KeyThen(text, QuantityKey, IsDigit, j)) ==> q == DefaultQuantity
    ensures forall i, g :: FirstMatch(text, QuantityKey, IsDigit, i) && GroupAfter(text, QuantityKey, IsDigit, i, g) ==>
      q == DigitsValue(g)
  {
    GroupAfterUniqueAll(text, QuantityKey, IsDigit);
    match Search(text, QuantityKey, IsDigit)
    case Some(g) => DigitsValue(g)
    case None => DefaultQuantity
  }

  /** The whole decision: each field is what its pattern captures at its leftmost
      match, or that field's default. */
  function Parse(text: string): (d: Decision)
    ensures d.instruction == Buy <==> Contains(text, BuyKey)
    ensures d.instruction == Sell <==> !Contains(text, BuyKey) && Contains(text, SellKey)
    ensures forall i, g :: FirstMatch(text, QuantityKey, IsDigit, i) && GroupAfter(text, QuantityKey, IsDigit, i, g) ==>
      d.quantity == DigitsValue(g)
    ensures (forall j :: !KeyThen(text, QuantityKey, IsDigit, j)) ==> d.quantity == DefaultQuantity
    ensures forall i, g :: FirstMatch(text, ReasonKey, NotNewline, i) && GroupAfter(text, ReasonKey, NotNewline, i, g) ==>
      d.reason == g
    ensures |text| == 0 ==> d.reason == NoReason
  {
    Decision(InstructionOf(text), ReasonOf(text), QuantityOf(text))
  }

  function Line(i: Instruction): string {
    match i
    case Buy => BuyKey
    case Sell => SellKey
    case Hold => HoldKey
  }

  /** The reply layout the prompt asks for: instruction, quantity and reason lines. */
  function Render(d: Decision): (text: string) {
    Line(d.instruction) + "\n" + QuantityKey + NatToDigits(d.quantity) + "\n" + ReasonKey + d.reason
  }

  /** A reason the layout can carry: one non-empty line without a colon. */
  predicate PlainReason(reason: string) {
    |reason| > 0 && forall k :: 0 <= k < |reason| ==> reason[k] != '\n' && reason[k] != ':'
  }

  /** Where each piece of a rendered reply sits. */
  lemma RenderLayout(d: Decision)
    ensures var text := Render(d); var n := |NatToDigits(d.quantity)|;
      |text| == 16 + n + |d.reason|
      && text[..6] == Line(d.instruction)
      && text[6] == '\n' && text[7..11] == QuantityKey
      && text[11..11 + n] == NatToDigits(d.quantity)
      && text[11 + n] == '\n' && text[12 + n..16 + n] == ReasonKey
      && text[16 + n..] == d.reason
  {
  }

  /** The only colons of a rendered reply are the three key colons. */
  lemma RenderColons(d: Decision, j: int)
    requires PlainReason(d.reason)
    requires 0 <= j < |Render(d)|
    ensures Render(d)[j] == ':' ==> j == 2 || j == 9 || j == 14 + |NatToDigits(d.quantity)|
  {
    var text := Render(d);
    var dg := NatToDigits(d.quantity);
    var n := |dg|;
    RenderLayout(d);
    if j < 6 {
      assert text[j] == Line(d.instruction)[j];
    } else if 11 <= j < 11 + n {
      assert text[j] == dg[j - 11];
    } else if 16 + n <= j {
      assert text[j] == d.reason[j - 16 - n];
    } else if 7 <= j < 11 {
      assert text[j] == text[7..11][j - 7];
    } else if 12 + n <= j < 16 + n {
      assert text[j] == text[12 + n..16 + n][j - 12 - n];
    }
  }

  /** Each key has its colon third, so in a rendered reply a key can only start two
      characters before one of the three key colons. */
  lemma KeyStarts(d: Decision, key: string, i: int)
    requires PlainReason(d.reason)
    requires |key| >= 3 && key[2] == ':'
    ensures OccursAt(Render(d), key, i) ==>
      (i == 0 || i == 7 || i == 12 + |NatToDigits(d.quantity)|) && Render(d)[i] == key[0]
  {
    var text := Render(d);
    if OccursAt(text, key, i) {
      assert text[i..i + |key|][2] == key[2];
      RenderColons(d, i + 2);
      assert text[i..i + |key|][0] == key[0];
    }
  }

  lemma {:induction false} InstructionRoundTrip(d: Decision)
    requires PlainReason(d.reason)
    ensures InstructionOf(Render(d)) == d.instruction
  {
    var text := Render(d);
    var n := |NatToDigits(d.quantity)|;
    RenderLayout(d);
    assert OccursAt(text, Line(d.instruction), 0);
    assert text[7] == text[7..11][0] == '数';
    assert text[12 + n] == text[12 + n..16 + n][0] == '理';
    forall key, i | key in {BuyKey, SellKey} && OccursAt(text, key, i)
      ensures key == Line(d.instruction)
    {
      KeyStarts(d, key, i);
      assert text[i..i + |key|] == text[..6];
    }
  }

  lemma {:induction false} QuantityRoundTrip(d: Decision)
    requires PlainReason(d.reason)
    ensures QuantityOf(Render(d)) == d.quantity
  {
    var text := Render(d);
    var dg := NatToDigits(d.quantity);
    var n := |dg|;
    RenderLayout(d);
    assert text[11] == dg[0];
    assert KeyThen(text, QuantityKey, IsDigit, 7);
    assert text[0] == text[..6][0] == '指';
    forall i | 0 <= i < 7 ensures !KeyThen(text, QuantityKey, IsDigit, i) {
      KeyStarts(d, QuantityKey, i);
    }
    assert SearchFrom(text, QuantityKey, IsDigit, 0) == Some(7);
    assert text[11 + n] == '\n';
    assert Run(text, 11, IsDigit) == n by {
      RunStopsAt(text, 11, n, IsDigit);
    }
    assert Search(text, QuantityKey, IsDigit) == Some(dg);
    DigitsRoundTrip(d.quantity);
  }

  /** A run over characters `ok` accepts, ended by one it rejects or by the end of the
      text, has exactly that length. */
  lemma {:induction false} RunStopsAt(s: string, from: nat, n: nat, ok: char -> bool)
    requires from + n <= |s|
    requires forall k :: from <= k < from + n ==> ok(s[k])
    requires from + n == |s| || !ok(s[from + n])
    ensures Run(s, from, ok) == n
    decreases n
  {
    if n > 0 {
      RunStopsAt(s, from + 1, n - 1, ok);
    }
  }

  lemma {:induction false} ReasonRoundTrip(d: Decision)
    requires PlainReason(d.reason)
    ensures ReasonOf(Render(d)) == d.reason
  {
    var text := Render(d);
    var n := |NatToDigits(d.quantity)|;
    var at := 12 + n;
    ReasonFirst(d);
    RenderLayout(d);
    RunStopsAt(text, at + 4, |d.reason|, NotNewline);
    assert text[at + 4..at + 4 + |d.reason|] == d.reason;
  }

  /** The reason key is found where the layout puts it. */
  lemma ReasonFirst(d: Decision)
    requires PlainReason(d.reason)
    ensures SearchFrom(Render(d), ReasonKey, NotNewline, 0) == Some(12 + |NatToDigits(d.quantity)|)
  {
    var text := Render(d);
    var n := |NatToDigits(d.quantity)|;
    RenderLayout(d);
    var at := 12 + n;
    assert text[at + 4] == d.reason[0];
    assert KeyThen(text, ReasonKey, NotNewline, at);
    assert text[0] == text[..6][0] == '指';
    assert text[7] == text[7..11][0] == '数';
    forall i | 0 <= i < at ensures !KeyThen(text, ReasonKey, NotNewline, i) {
      KeyStarts(d, ReasonKey, i);
    }
  }

  /** Parsing inverts rendering for every instruction, every quantity and every
      one-line reason without a colon. */
  lemma ParseRender(d: Decision)
    requires PlainReason(d.reason)
    ensures Parse(Render(d)) == d
  {
    InstructionRoundTrip(d);
    ReasonRoundTrip(d);
    QuantityRoundTrip(d);
  }

  /** A reply with no usable line falls back on every default. */
  lemma EmptyReplyDefaults()
    ensures Parse("") == Decision(Hold, NoReason, DefaultQuantity)
  {
    assert !Contains("", BuyKey) && !Contains("", SellKey);
  }
}

=== FILE: fifo.dfy ===
/** `calculate_profit` of the two monitor scripts: a sell walks the symbol's open lots
    oldest-first, takes `min(remaining, lot.quantity)` from each, closes and drops a
    lot it empties, shrinks a lot it only dips into, and reports what it could not
    match as `unmatched_quantity` instead of failing.

    The scripts differ in the write they make through the history list after updating
    the lot (which, in both, is the history record itself):
    - stock_monitor.py looks up the first record with the lot's `order_id` and closes
      it, or subtracts the matched quantity from it a second time (`MonitorSync`);
    - stock_monitor_ollama_only.py copies the lot into that record with
      `t.update(lot)` (`OllamaSync`);
    - `NoSync` is the matcher without the second write, the behaviour both scripts
      intend; the rest of the model uses it. */
module Fifo {
  import opened Wrappers
  import opened Ledger
  import opened LotMatching

  datatype SyncMode = MonitorSync | OllamaSync | NoSync

  /** What `calculate_profit` returns. */
  datatype ProfitDetails = ProfitDetails(totalProfit: real, totalProfitPercent: real,
                                         matchedBuys: seq<MatchInfo>, unmatchedQuantity: int)

  datatype MatchOutcome = MatchOutcome(book: Book, details: ProfitDetails)

  datatype LoopState = LoopState(book: Book, matched: seq<MatchInfo>, remaining: int)

  /** Index of the first history record carrying order id `id` (the `for t in
      self.transactions: if t['order_id'] == ...: break` search); record `i` has it. */
  function FirstWithId(h: seq<Tx>, id: string, i: nat): (j: nat)
    requires i < |h| && h[i].orderId == id
    ensures j <= i && h[j].orderId == id
    ensures forall k :: 0 <= k < j ==> h[k].orderId != id
  {
    FirstWithIdFrom(h, id, 0, i)
  }

  function FirstWithIdFrom(h: seq<Tx>, id: string, from: nat, i: nat): (j: nat)
    requires from <= i < |h| && h[i].orderId == id
    requires forall k :: 0 <= k < from ==> h[k].orderId != id
    ensures from <= j <= i && h[j].orderId == id
    ensures forall k :: 0 <= k < j ==> h[k].orderId != id
    decreases i - from
  {
    if h[from].orderId == id then from else FirstWithIdFrom(h, id, from + 1, i)
  }

  /** `t.update(lot)`: every field the lot has overwrites the record's; the
      realized-profit fields, which only sell records carry, survive when the lot
      lacks them. */
  function Overlay(t: Tx, lot: Tx): Tx {
    lot.(realized := if lot.realized.Some? then lot.realized else t.realized)
  }

  /** The write through the history list after lot `i` was closed (`full`) or reduced
      by `m`. */
  function Sync(h: seq<Tx>, i: nat, m: int, full: bool, mode: SyncMode): (h': seq<Tx>)
    requires i < |h|
    ensures |h'| == |h|
  {
    match mode
    case NoSync => h
    case MonitorSync =>
      var j := FirstWithId(h, h[i].orderId, i);
      if full then h[j := h[j].(closed := true)] else h[j := h[j].(quantity := h[j].quantity - m)]
    case OllamaSync =>
      var j := FirstWithId(h, h[i].orderId, i);
      h[j := Overlay(h[j], h[i])]
  }

  /** `list.remove(x)` on a list that holds `x`. */
  function RemoveFirst(s: seq<nat>, x: nat): (r: seq<nat>)
    requires x in s
    ensures |r| == |s| - 1
    ensures |s| > 0 && s[0] == x ==> r == s[1..]
  {
    if s[0] == x then s[1..] else [s[0]] + RemoveFirst(s[1..], x)
  }

  /** The per-lot `profit_percent`. */
  function LotPercent(profit: real, buyCost: real): real {
    if buyCost > 0.0 then profit / buyCost * 100.0 else 0.0
  }

  /** The `matched_buys` entry for `m` shares of the lot `buyOrderId` bought at
      `buyPrice` and sold at `sellPrice`. */
  function MatchOf(buyOrderId: string, buyPrice: real, m: int, sellPrice: real): (info: MatchInfo)
    ensures info.buyOrderId == buyOrderId && info.buyPrice == buyPrice && info.matchQuantity == m
    ensures info.profit == (sellPrice - buyPrice) * m as real
    ensures info.profitPercent == LotPercent(info.profit, buyPrice * m as real)
  {
    var buyCost := buyPrice * m as real;
    var profit := sellPrice * m as real - buyCost;
    MatchInfo(buyOrderId, buyPrice, m, profit, LotPercent(profit, buyCost))
  }

  /** The matching loop over the snapshot `lots` of the symbol's open list. The live
      list always equals the rest of the snapshot: an emptied lot is its head. */
  function MatchLoop(b: Book, sym: string, lots: seq<nat>, remaining: int, sellPrice: real,
                     mode: SyncMode): (r: LoopState)
    requires OpenOf(b, sym) == lots
    requires forall k :: 0 <= k < |lots| ==> lots[k] < |b.history|
    ensures |r.book.history| == |b.history|
    ensures |r.matched| <= |lots|
    ensures forall s :: s != sym ==> OpenOf(r.book, s) == OpenOf(b, s)
    decreases |lots|
  {
    if |lots| == 0 || remaining <= 0 then LoopState(b, [], remaining)
    else
      var i := lots[0];
      var lot := b.history[i];
      var m := Min(remaining, lot.quantity);
      var info := MatchOf(lot.orderId, lot.price, m, sellPrice);
      if m == lot.quantity then
        var h1 := b.history[i := lot.(closed := true)];
        var b1 := Book(Sync(h1, i, m, true, mode), b.open[sym := RemoveFirst(lots, i)]);
        var rest := MatchLoop(b1, sym, lots[1..], remaining - m, sellPrice, mode);
        LoopState(rest.book, [info] + rest.matched, rest.remaining)
      else
        // m is the whole remainder here, so the loop's next iteration stops at once
        var h1 := b.history[i := lot.(quantity := lot.quantity - m)];
        LoopState(Book(Sync(h1, i, m, false, mode), b.open), [info], remaining - m)
  }

  function SumProfit(ms: seq<MatchInfo>): real {
    if |ms| == 0 then 0.0 else ms[0].profit + SumProfit(ms[1..])
  }

  function SumBuyCost(ms: seq<MatchInfo>): real {
    if |ms| == 0 then 0.0 else ms[0].buyPrice * ms[0].matchQuantity as real + SumBuyCost(ms[1..])
  }

  function Quantities(ms: seq<MatchInfo>): (qs: seq<int>)
    ensures |qs| == |ms|
    ensures forall k :: 0 <= k < |ms| ==> qs[k] == ms[k].matchQuantity
  {
    if |ms| == 0 then [] else [ms[0].matchQuantity] + Quantities(ms[1..])
  }

  /** `total_profit_percent` in stock_monitor.py: only when there is a profit or loss. */
  function MonitorPercent(total: real, cost: real): real {
    if total != 0.0 && cost > 0.0 then total / cost * 100.0 else 0.0
  }

  /** `total_profit_percent` in stock_monitor_ollama_only.py. */
  function OllamaPercent(total: real, cost: real): real {
    if cost > 0.0 then total / cost * 100.0 else 0.0
  }

  /** The two percent rules never disagree: a zero profit gives zero either way. */
  lemma PercentRulesAgree(total: real, cost: real)
    ensures MonitorPercent(total, cost) == OllamaPercent(total, cost)
  {
  }

  /** `calculate_profit(sell_transaction)` for a sell of `sellQty` at `sellPrice`. */
  function CalculateProfit(b: Book, sym: string, sellQty: int, sellPrice: real, mode: SyncMode): (r: MatchOutcome)
    requires ValidIndices(b)
    ensures |r.book.history| == |b.history|
  {
    var lots := OpenOf(b, sym);
    if |lots| == 0 then MatchOutcome(b, ProfitDetails(0.0, 0.0, [], sellQty))
    else
      assert sym in b.open;
      var loop := MatchLoop(b, sym, lots, sellQty, sellPrice, mode);
      var total := SumProfit(loop.matched);
      var cost := SumBuyCost(loop.matched);
      var percent := if mode == OllamaSync then OllamaPercent(total, cost) else MonitorPercent(total, cost);
      MatchOutcome(loop.book, ProfitDetails(total, percent, loop.matched,
                                            if loop.remaining > 0 then loop.remaining else 0))
  }
}

=== FILE: fifo_properties.dfy ===
/** What the FIFO matcher guarantees: conservation of shares, profit as matched
    revenue minus matched cost, oldest-first consumption, and a ledger that a
    restart would rebuild identically. Also how the two scripts' history writes
    relate to the intended matcher. */
module FifoProperties {
  import opened Wrappers
  import opened Ledger
  import opened LotMatching
  import opened Fifo

  /** Quantities of the records the lots point at (0 for an index past the history). */
  function QtysOf(h: seq<Tx>, lots: seq<nat>): (qs: seq<int>)
    ensures |qs| == |lots|
    ensures forall k :: 0 <= k < |lots| && lots[k] < |h| ==> qs[k] == h[lots[k]].quantity
  {
    if |lots| == 0 then []
    else [if lots[0] < |h| then h[lots[0]].quantity else 0] + QtysOf(h, lots[1..])
  }

  /** `Σ lot.quantity` over a symbol's open lots. */
  function OpenQty(b: Book, s: string): int {
    Sum(QtysOf(b.history, OpenOf(b, s)))
  }

  ghost predicate NonNegativeLots(b: Book) {
    forall s :: NonNegative(QtysOf(b.history, OpenOf(b, s)))
  }

  predicate UniqueIds(h: seq<Tx>) {
    forall a, c :: 0 <= a < c < |h| ==> h[a].orderId != h[c].orderId
  }

  /** Only the quantity and closed flag of a record ever change. */
  predicate SameIdentity(h: seq<Tx>, h': seq<Tx>) {
    |h| == |h'| &&
    forall j :: 0 <= j < |h| ==>
      h'[j].symbol == h[j].symbol && h'[j].action == h[j].action && h'[j].price == h[j].price &&
      h'[j].orderId == h[j].orderId && h'[j].timestamp == h[j].timestamp &&
      h'[j].status == h[j].status && h'[j].realized == h[j].realized
  }

  /** Matched revenue minus matched cost. */
  function Gain(ms: seq<MatchInfo>, sellPrice: real): real {
    sellPrice * Sum(Quantities(ms)) as real - SumBuyCost(ms)
  }

  lemma {:induction false} QtysOfSame(h: seq<Tx>, h': seq<Tx>, lots: seq<nat>)
    requires |h| == |h'|
    requires forall k :: 0 <= k < |lots| && lots[k] < |h| ==> h'[lots[k]].quantity == h[lots[k]].quantity
    ensures QtysOf(h', lots) == QtysOf(h, lots)
  {
    if |lots| > 0 { QtysOfSame(h, h', lots[1..]); }
  }

  /** Closing the oldest lot of `sym` and dropping it from the list keeps the ledger
      rebuildable. */
  lemma CloseHeadKeepsConsistent(b: Book, sym: string, t: Tx)
    requires Consistent(b) && |OpenOf(b, sym)| > 0
    requires t.symbol == sym && !IsOpenBuy(t)
    ensures OpenOf(b, sym)[0] < |b.history|
    ensures Consistent(Book(b.history[OpenOf(b, sym)[0] := t], b.open[sym := OpenOf(b, sym)[1..]]))
  {
    var lots := OpenOf(b, sym);
    ConsistentFacts(b, sym);
    var h1 := b.history[lots[0] := t];
    var b1 := Book(h1, b.open[sym := lots[1..]]);
    forall s ensures OpenOf(b1, s) == Get(Rebuild(h1), s) {
      if s == sym {
        CloseHeadSameSymbol(b.history, lots, t);
      } else {
        CloseHeadOtherSymbol(b.history, lots[0], t, s);
      }
    }
  }

  lemma CloseHeadSameSymbol(h: seq<Tx>, lots: seq<nat>, t: Tx)
    requires |lots| > 0 && lots == Get(Rebuild(h), t.symbol) && !IsOpenBuy(t)
    ensures lots[0] < |h|
    ensures lots[1..] == Get(Rebuild(h[lots[0] := t]), t.symbol)
  {
    var s := t.symbol;
    RebuildPrefixSpec(h, |h|, s);
    assert lots[0] in lots;
    var h1 := h[lots[0] := t];
    RebuildPrefixSpec(h1, |h1|, s);
    var rest := lots[1..];
    forall x: nat ensures x in rest <==> x in Get(Rebuild(h1), s) {
      if x in rest {
        var k :| 1 <= k < |lots| && lots[k] == x;
        assert lots[0] < lots[k];
        assert x in lots;
      }
      if x in Get(Rebuild(h1), s) {
        assert x != lots[0];
        assert x in lots;
        var k :| 0 <= k < |lots| && lots[k] == x;
        assert rest[k - 1] == x;
      }
    }
    IncreasingSameMembersEqual(rest, Get(Rebuild(h1), s));
  }

  lemma CloseHeadOtherSymbol(h: seq<Tx>, i: nat, t: Tx, s: string)
    requires i < |h| && h[i].symbol == t.symbol && t.symbol != s
    ensures Get(Rebuild(h), s) == Get(Rebuild(h[i := t]), s)
  {
    var h1 := h[i := t];
    RebuildPrefixSpec(h, |h|, s);
    RebuildPrefixSpec(h1, |h1|, s);
    IncreasingSameMembersEqual(Get(Rebuild(h), s), Get(Rebuild(h1), s));
  }

  /** Changing a record's quantity leaves the rebuilt table as it was. */
  lemma QuantityChangeKeepsConsistent(b: Book, i: nat, q: int)
    requires Consistent(b) && i < |b.history|
    ensures Consistent(Book(b.history[i := b.history[i].(quantity := q)], b.open))
  {
    RebuildDependsOnOpenFlags(b.history, b.history[i := b.history[i].(quantity := q)]);
  }

  /** The snapshot a matching loop walks: the symbol's live open list, pointing into
      the history, oldest first, with no negative lot. */
  predicate LoopReady(b: Book, sym: string, lots: seq<nat>) {
    OpenOf(b, sym) == lots && StrictlyIncreasing(lots) &&
    (forall k :: 0 <= k < |lots| ==> lots[k] < |b.history|) &&
    NonNegative(QtysOf(b.history, lots))
  }

  /** The state after the intended matcher has emptied the oldest lot. */
  function CloseStep(b: Book, sym: string, lots: seq<nat>): Book
    requires |lots| > 0 && lots[0] < |b.history|
  {
    Book(b.history[lots[0] := b.history[lots[0]].(closed := true)], b.open[sym := lots[1..]])
  }

  /** One iteration of the intended matcher. */
  lemma NoSyncStep(b: Book, sym: string, lots: seq<nat>, rem: int, price: real)
    requires OpenOf(b, sym) == lots && |lots| > 0 && rem > 0
    requires forall k :: 0 <= k < |lots| ==> lots[k] < |b.history|
    ensures var lot := b.history[lots[0]];
      var m := Min(rem, lot.quantity);
      var r := MatchLoop(b, sym, lots, rem, price, NoSync);
      if m == lot.quantity then
        var rest := MatchLoop(CloseStep(b, sym, lots), sym, lots[1..], rem - m, price, NoSync);
        r == LoopState(rest.book, [MatchOf(lot.orderId, lot.price, m, price)] + rest.matched, rest.remaining)
      else
        r == LoopState(Book(b.history[lots[0] := lot.(quantity := lot.quantity - m)], b.open),
                       [MatchOf(lot.orderId, lot.price, m, price)], rem - m)
  {
  }

  /** The matches of one step of the intended matcher: the oldest lot's match, then,
      when that lot was emptied, the matches of the rest. */
  lemma NoSyncMatched(b: Book, sym: string, lots: seq<nat>, rem: int, price: real)
    requires OpenOf(b, sym) == lots && |lots| > 0 && rem > 0
    requires forall k :: 0 <= k < |lots| ==> lots[k] < |b.history|
    ensures var lot := b.history[lots[0]];
      var m := Min(rem, lot.quantity);
      MatchLoop(b, sym, lots, rem, price, NoSync).matched ==
        [MatchOf(lot.orderId, lot.price, m, price)] +
        (if m == lot.quantity then MatchLoop(CloseStep(b, sym, lots), sym, lots[1..], rem - m, price, NoSync).matched
         else [])
  {
    NoSyncStep(b, sym, lots, rem, price);
  }

  /** The ledger after one step of the intended matcher. */
  lemma NoSyncBook(b: Book, sym: string, lots: seq<nat>, rem: int, price: real)
    requires OpenOf(b, sym) == lots && |lots| > 0 && rem > 0
    requires forall k :: 0 <= k < |lots| ==> lots[k] < |b.history|
    ensures var lot := b.history[lots[0]];
      var m := Min(rem, lot.quantity);
      MatchLoop(b, sym, lots, rem, price, NoSync).book ==
        if m == lot.quantity then MatchLoop(CloseStep(b, sym, lots), sym, lots[1..], rem - m, price, NoSync).book
        else Book(b.history[lots[0] := lot.(quantity := lot.quantity - m)], b.open)
  {
    NoSyncStep(b, sym, lots, rem, price);
  }

  /** Closing a lot keeps every record's order id and price. */
  lemma CloseStepKeepsNames(b: Book, sym: string, lots: seq<nat>)
    requires |lots| > 0 && lots[0] < |b.history|
    ensures forall i :: 0 <= i < |b.history| ==>
      CloseStep(b, sym, lots).history[i].orderId == b.history[i].orderId &&
      CloseStep(b, sym, lots).history[i].price == b.history[i].price
  {
  }

  /** Emptying the oldest lot leaves the rest of the snapshot ready, with the same
      quantities. */
  lemma CloseStepReady(b: Book, sym: string, lots: seq<nat>)
    requires LoopReady(b, sym, lots) && |lots| > 0
    ensures LoopReady(CloseStep(b, sym, lots), sym, lots[1..])
    ensures QtysOf(CloseStep(b, sym, lots).history, lots[1..]) == QtysOf(b.history, lots[1..])
    ensures QtysOf(b.history, lots) == [b.history[lots[0]].quantity] + QtysOf(b.history, lots[1..])
  {
    var b1 := CloseStep(b, sym, lots);
    forall k | 1 <= k < |lots| ensures lots[k] != lots[0] { assert lots[0] < lots[k]; }
    QtysOfSame(b.history, b1.history, lots[1..]);
    assert QtysOf(b.history, lots)[1..] == QtysOf(b.history, lots[1..]);
    assert NonNegative(QtysOf(b.history, lots[1..]));
  }

  /** The intended matcher's quantities are `Take` and `Left` of the lots' quantities. */
  lemma {:induction false} LoopTakes(b: Book, sym: string, lots: seq<nat>, rem: int, price: real)
    requires LoopReady(b, sym, lots) && rem >= 0
    ensures var r := MatchLoop(b, sym, lots, rem, price, NoSync);
      Quantities(r.matched) == Take(QtysOf(b.history, lots), rem) &&
      r.remaining == Left(QtysOf(b.history, lots), rem)
    decreases |lots|
  {
    if |lots| > 0 && rem > 0 {
      var lot := b.history[lots[0]];
      var m := Min(rem, lot.quantity);
      CloseStepReady(b, sym, lots);
      var qs := QtysOf(b.history, lots);
      assert qs[0] == lot.quantity;
      if m == lot.quantity {
        var b1 := CloseStep(b, sym, lots);
        LoopTakes(b1, sym, lots[1..], rem - m, price);
        var rest := MatchLoop(b1, sym, lots[1..], rem - m, price, NoSync);
        var r := MatchLoop(b, sym, lots, rem, price, NoSync);
        assert r.matched == [r.matched[0]] + rest.matched;
      } else {
        assert Take(qs[1..], 0) == [];
      }
    }
  }

  /** Entry `k` of `matched_buys` names lot `k` of the snapshot: its order id and its
      buy price. */
  lemma {:induction false} LoopInfos(b: Book, sym: string, lots: seq<nat>, rem: int, price: real)
    requires OpenOf(b, sym) == lots
    requires forall k :: 0 <= k < |lots| ==> lots[k] < |b.history|
    ensures var ms := MatchLoop(b, sym, lots, rem, price, NoSync).matched;
      forall k :: 0 <= k < |ms| ==>
        ms[k].buyOrderId == b.history[lots[k]].orderId && ms[k].buyPrice == b.history[lots[k]].price
    decreases |lots|
  {
    if |lots| > 0 && rem > 0 {
      var lot := b.history[lots[0]];
      var m := Min(rem, lot.quantity);
      NoSyncMatched(b, sym, lots, rem, price);
      if m == lot.quantity {
        var b1 := CloseStep(b, sym, lots);
        assert OpenOf(b1, sym) == lots[1..];
        LoopInfos(b1, sym, lots[1..], rem - m, price);
        CloseStepKeepsNames(b, sym, lots);
        var rest := MatchLoop(b1, sym, lots[1..], rem - m, price, NoSync).matched;
        var ms := MatchLoop(b, sym, lots, rem, price, NoSync).matched;
        forall k | 1 <= k < |ms|
          ensures ms[k].buyOrderId == b.history[lots[k]].orderId && ms[k].buyPrice == b.history[lots[k]].price
        {
          assert ms[k] == rest[k - 1];
          assert lots[1..][k - 1] == lots[k];
        }
      }
    }
  }

  /** The intended matcher changes only the quantity and closed flag of the snapshot's
      records and leaves every other record as it was. */
  lemma LoopHistory(b: Book, sym: string, lots: seq<nat>, rem: int, price: real)
    requires OpenOf(b, sym) == lots
    requires forall k :: 0 <= k < |lots| ==> lots[k] < |b.history|
    ensures var h' := MatchLoop(b, sym, lots, rem, price, NoSync).book.history;
      && SameIdentity(b.history, h')
      && (forall j :: 0 <= j < |b.history| && j !in lots ==> h'[j] == b.history[j])
  {
    LoopIdentity(b, sym, lots, rem, price);
    LoopUntouched(b, sym, lots, rem, price);
  }

  lemma {:induction false} LoopIdentity(b: Book, sym: string, lots: seq<nat>, rem: int, price: real)
    requires OpenOf(b, sym) == lots
    requires forall k :: 0 <= k < |lots| ==> lots[k] < |b.history|
    ensures SameIdentity(b.history, MatchLoop(b, sym, lots, rem, price, NoSync).book.history)
    decreases |lots|
  {
    if |lots| > 0 && rem > 0 {
      var lot := b.history[lots[0]];
      var m := Min(rem, lot.quantity);
      var h' := MatchLoop(b, sym, lots, rem, price, NoSync).book.history;
      NoSyncBook(b, sym, lots, rem, price);
      if m == lot.quantity {
        var b1 := CloseStep(b, sym, lots);
        assert h' == MatchLoop(b1, sym, lots[1..], rem - m, price, NoSync).book.history;
        assert OpenOf(b1, sym) == lots[1..];
        UpdateKeepsIdentity(b.history, lots[0], lot.(closed := true));
        LoopIdentity(b1, sym, lots[1..], rem - m, price);
        SameIdentityTrans(b.history, b1.history, h');
      } else {
        assert h' == b.history[lots[0] := lot.(quantity := lot.quantity - m)];
        UpdateKeepsIdentity(b.history, lots[0], lot.(quantity := lot.quantity - m));
      }
    } else {
      assert MatchLoop(b, sym, lots, rem, price, NoSync).book == b;
      SameIdentityRefl(b.history);
    }
  }

  lemma SameIdentityRefl(h: seq<Tx>)
    ensures SameIdentity(h, h)
  {
  }

  /** Replacing a record by one that differs only in quantity or closed flag keeps
      every identity. */
  lemma UpdateKeepsIdentity(h: seq<Tx>, i: nat, t: Tx)
    requires i < |h|
    requires t.symbol == h[i].symbol && t.action == h[i].action && t.price == h[i].price
    requires t.orderId == h[i].orderId && t.timestamp == h[i].timestamp
    requires t.status == h[i].status && t.realized == h[i].realized
    ensures SameIdentity(h, h[i := t])
  {
  }

  lemma {:induction false} LoopUntouched(b: Book, sym: string, lots: seq<nat>, rem: int, price: real)
    requires OpenOf(b, sym) == lots
    requires forall k :: 0 <= k < |lots| ==> lots[k] < |b.history|
    ensures var h' := MatchLoop(b, sym, lots, rem, price, NoSync).book.history;
      forall j :: 0 <= j < |b.history| && j !in lots ==> h'[j] == b.history[j]
    decreases |lots|
  {
    if |lots| > 0 && rem > 0 {
      var lot := b.history[lots[0]];
      var m := Min(rem, lot.quantity);
      var h' := MatchLoop(b, sym, lots, rem, price, NoSync).book.history;
      NoSyncBook(b, sym, lots, rem, price);
      if m == lot.quantity {
        var b1 := CloseStep(b, sym, lots);
        assert h' == MatchLoop(b1, sym, lots[1..], rem - m, price, NoSync).book.history;
        LoopUntouched(b1, sym, lots[1..], rem - m, price);
        forall j | 0 <= j < |b.history| && j !in lots ensures h'[j] == b.history[j] {
          assert j !in lots[1..] && j != lots[0];
        }
      } else {
        assert h' == b.history[lots[0] := lot.(quantity := lot.quantity - m)];
      }
    }
  }

  lemma SameIdentityTrans(h: seq<Tx>, h1: seq<Tx>, h2: seq<Tx>)
    requires SameIdentity(h, h1) && SameIdentity(h1, h2)
    ensures SameIdentity(h, h2)
  {
  }

  /** What stays open of the symbol is a suffix of the snapshot: lots are consumed
      oldest first. */
  lemma {:induction false} LoopSuffix(b: Book, sym: string, lots: seq<nat>, rem: int, price: real)
    requires OpenOf(b, sym) == lots
    requires forall k :: 0 <= k < |lots| ==> lots[k] < |b.history|
    ensures exists d :: 0 <= d <= |lots| && OpenOf(MatchLoop(b, sym, lots, rem, price, NoSync).book, sym) == lots[d..]
    decreases |lots|
  {
    var r := MatchLoop(b, sym, lots, rem, price, NoSync);
    if |lots| > 0 && rem > 0 {
      var lot := b.history[lots[0]];
      var m := Min(rem, lot.quantity);
      NoSyncBook(b, sym, lots, rem, price);
      if m == lot.quantity {
        var b1 := CloseStep(b, sym, lots);
        LoopSuffix(b1, sym, lots[1..], rem - m, price);
        var d :| 0 <= d <= |lots[1..]| && OpenOf(MatchLoop(b1, sym, lots[1..], rem - m, price, NoSync).book, sym) == lots[1..][d..];
        assert OpenOf(r.book, sym) == lots[d + 1..];
      } else {
        assert OpenOf(r.book, sym) == lots[0..];
      }
    } else {
      assert OpenOf(r.book, sym) == lots[0..];
    }
  }

  /** The intended matcher takes exactly the matched shares out of the symbol's open
      quantity and leaves none of its lots negative. */
  lemma {:induction false} LoopOpenQty(b: Book, sym: string, lots: seq<nat>, rem: int, price: real)
    requires LoopReady(b, sym, lots) && rem >= 0
    ensures var r := MatchLoop(b, sym, lots, rem, price, NoSync);
      && NonNegative(QtysOf(r.book.history, OpenOf(r.book, sym)))
      && OpenQty(r.book, sym) == Sum(QtysOf(b.history, lots)) - Sum(Quantities(r.matched))
    decreases |lots|
  {
    var r := MatchLoop(b, sym, lots, rem, price, NoSync);
    if |lots| > 0 && rem > 0 {
      var i := lots[0];
      var lot := b.history[i];
      var m := Min(rem, lot.quantity);
      NoSyncBook(b, sym, lots, rem, price);
      NoSyncMatched(b, sym, lots, rem, price);
      CloseStepReady(b, sym, lots);
      if m == lot.quantity {
        var b1 := CloseStep(b, sym, lots);
        LoopOpenQty(b1, sym, lots[1..], rem - m, price);
        var rest := MatchLoop(b1, sym, lots[1..], rem - m, price, NoSync);
        assert r.book == rest.book;
        assert Quantities(r.matched) == [m] + Quantities(rest.matched);
      } else {
        var h1 := b.history[i := lot.(quantity := lot.quantity - m)];
        assert r.book == Book(h1, b.open);
        forall k | 1 <= k < |lots| ensures lots[k] != i { assert lots[0] < lots[k]; }
        QtysOfSame(b.history, h1, lots[1..]);
        assert QtysOf(h1, lots) == [lot.quantity - m] + QtysOf(h1, lots[1..]);
        assert Quantities(r.matched) == [m];
      }
    }
  }

  /** The intended matcher keeps the ledger rebuildable. */
  lemma {:induction false} LoopConsistent(b: Book, sym: string, lots: seq<nat>, rem: int, price: real)
    requires Consistent(b) && OpenOf(b, sym) == lots
    requires forall k :: 0 <= k < |lots| ==> lots[k] < |b.history|
    ensures Consistent(MatchLoop(b, sym, lots, rem, price, NoSync).book)
    decreases |lots|
  {
    if |lots| > 0 && rem > 0 {
      var lot := b.history[lots[0]];
      var m := Min(rem, lot.quantity);
      ConsistentFacts(b, sym);
      if m == lot.quantity {
        CloseHeadKeepsConsistent(b, sym, lot.(closed := true));
        LoopConsistent(CloseStep(b, sym, lots), sym, lots[1..], rem - m, price);
      } else {
        QuantityChangeKeepsConsistent(b, lots[0], lot.quantity - m);
      }
    }
  }

  /** A match priced at the sell price minus its lot's buy price. */
  predicate PricedAt(m: MatchInfo, price: real) {
    m.profit == (price - m.buyPrice) * m.matchQuantity as real
  }

  predicate AllPriced(ms: seq<MatchInfo>, price: real) {
    forall k :: 0 <= k < |ms| ==> PricedAt(ms[k], price)
  }

  /** Every entry the intended matcher produces is priced at the sell price. */
  lemma {:induction false} LoopPriced(b: Book, sym: string, lots: seq<nat>, rem: int, price: real)
    requires OpenOf(b, sym) == lots
    requires forall k :: 0 <= k < |lots| ==> lots[k] < |b.history|
    ensures AllPriced(MatchLoop(b, sym, lots, rem, price, NoSync).matched, price)
    decreases |lots|
  {
    if |lots| > 0 && rem > 0 {
      var lot := b.history[lots[0]];
      var m := Min(rem, lot.quantity);
      var head := MatchOf(lot.orderId, lot.price, m, price);
      assert PricedAt(head, price);
      NoSyncMatched(b, sym, lots, rem, price);
      if m == lot.quantity {
        var b1 := CloseStep(b, sym, lots);
        assert OpenOf(b1, sym) == lots[1..];
        LoopPriced(b1, sym, lots[1..], rem - m, price);
        var rest := MatchLoop(b1, sym, lots[1..], rem - m, price, NoSync).matched;
        var ms := MatchLoop(b, sym, lots, rem, price, NoSync).matched;
        assert ms == [head] + rest;
        forall k | 1 <= k < |ms| ensures PricedAt(ms[k], price) {
          assert ms[k] == rest[k - 1];
        }
      }
    }
  }

  lemma {:induction false} GainSplits(ms: seq<MatchInfo>, price: real)
    requires AllPriced(ms, price)
    ensures SumProfit(ms) == Gain(ms, price)
  {
    if |ms| > 0 {
      GainSplits(ms[1..], price);
      assert Quantities(ms) == [ms[0].matchQuantity] + Quantities(ms[1..]);
    }
  }

  /** Lots of other symbols point at records of other symbols, which a match on `sym`
      does not touch. */
  lemma OtherLotsDisjoint(b: Book, sym: string, s: string)
    requires Consistent(b) && s != sym
    ensures forall k :: 0 <= k < |OpenOf(b, s)| ==> OpenOf(b, s)[k] !in OpenOf(b, sym)
  {
    ConsistentFacts(b, s);
    ConsistentFacts(b, sym);
  }

  /** The snapshot of a consistent ledger with no negative lot is ready for the loop. */
  lemma ReadyOf(b: Book, sym: string)
    requires Consistent(b) && NonNegativeLots(b)
    ensures LoopReady(b, sym, OpenOf(b, sym))
  {
    ConsistentFacts(b, sym);
  }

  /** The intended matcher on a ledger a restart would rebuild, with no negative lot,
      for a sell of `sellQty >= 0` shares:
      - matched plus unmatched is the sell quantity; the match is `min(sell, open)`;
      - lot `k` (oldest first) gives exactly `Expected`, the FIFO closed form, and
        the lots the match never reached would have given nothing;
      - `total_profit` is matched revenue minus matched cost;
      - with no open lot nothing is matched and the whole sell is unmatched. */
  lemma MatchConserves(b: Book, sym: string, sellQty: int, price: real)
    requires Consistent(b) && NonNegativeLots(b) && sellQty >= 0
    ensures ValidIndices(b)
    ensures var r := CalculateProfit(b, sym, sellQty, price, NoSync);
      var qs := QtysOf(b.history, OpenOf(b, sym));
      var ms := r.details.matchedBuys;
      && Sum(Quantities(ms)) + r.details.unmatchedQuantity == sellQty
      && Sum(Quantities(ms)) == Min(sellQty, Sum(qs))
      && r.details.unmatchedQuantity == Max(0, sellQty - Sum(qs))
      && |ms| <= |qs|
      && (forall k :: 0 <= k < |ms| ==> ms[k].matchQuantity == Expected(qs, sellQty, k))
      && (forall k :: |ms| <= k < |qs| ==> Expected(qs, sellQty, k) == 0)
      && r.details.totalProfit == Gain(ms, price)
      && (|OpenOf(b, sym)| == 0 ==> r.book == b && ms == [] && r.details.unmatchedQuantity == sellQty)
  {
    ConsistentValid(b);
    ReadyOf(b, sym);
    var lots := OpenOf(b, sym);
    if |lots| > 0 {
      var loop := MatchLoop(b, sym, lots, sellQty, price, NoSync);
      var d := CalculateProfit(b, sym, sellQty, price, NoSync).details;
      assert d.matchedBuys == loop.matched;
      assert d.unmatchedQuantity == if loop.remaining > 0 then loop.remaining else 0;
      assert d.totalProfit == SumProfit(loop.matched);
      LoopQuantities(b, sym, lots, sellQty, price);
      LoopExpected(b, sym, lots, sellQty, price);
      LoopGain(b, sym, lots, sellQty, price);
    }
  }

  /** The loop's matched and unmatched quantities in closed form. */
  lemma LoopQuantities(b: Book, sym: string, lots: seq<nat>, sellQty: int, price: real)
    requires LoopReady(b, sym, lots) && sellQty >= 0
    ensures var loop := MatchLoop(b, sym, lots, sellQty, price, NoSync);
      var qs := QtysOf(b.history, lots);
      && Sum(Quantities(loop.matched)) + loop.remaining == sellQty
      && Sum(Quantities(loop.matched)) == Min(sellQty, Sum(qs))
      && loop.remaining == Max(0, sellQty - Sum(qs))
  {
    var qs := QtysOf(b.history, lots);
    LoopTakes(b, sym, lots, sellQty, price);
    TakeConserves(qs, sellQty);
    TakeTotals(qs, sellQty);
  }

  /** Lot `k` of the snapshot gives the FIFO closed form `Expected`. */
  lemma LoopExpected(b: Book, sym: string, lots: seq<nat>, sellQty: int, price: real)
    requires LoopReady(b, sym, lots) && sellQty >= 0
    ensures var loop := MatchLoop(b, sym, lots, sellQty, price, NoSync);
      var qs := QtysOf(b.history, lots);
      && (forall k :: 0 <= k < |loop.matched| ==> loop.matched[k].matchQuantity == Expected(qs, sellQty, k))
      && (forall k :: |loop.matched| <= k < |qs| ==> Expected(qs, sellQty, k) == 0)
  {
    var qs := QtysOf(b.history, lots);
    var loop := MatchLoop(b, sym, lots, sellQty, price, NoSync);
    LoopTakes(b, sym, lots, sellQty, price);
    assert |Quantities(loop.matched)| == |loop.matched|;
    forall k | 0 <= k < |qs|
      ensures k < |loop.matched| ==> loop.matched[k].matchQuantity == Expected(qs, sellQty, k)
      ensures k >= |loop.matched| ==> Expected(qs, sellQty, k) == 0
    {
      TakeMatchesExpected(qs, sellQty, k);
    }
  }

  /** The loop's summed profit is matched revenue minus matched cost. */
  lemma LoopGain(b: Book, sym: string, lots: seq<nat>, sellQty: int, price: real)
    requires OpenOf(b, sym) == lots
    requires forall k :: 0 <= k < |lots| ==> lots[k] < |b.history|
    ensures var loop := MatchLoop(b, sym, lots, sellQty, price, NoSync);
      SumProfit(loop.matched) == Gain(loop.matched, price)
  {
    var ms := MatchLoop(b, sym, lots, sellQty, price, NoSync).matched;
    LoopPriced(b, sym, lots, sellQty, price);
    GainSplits(ms, price);
  }

  /** Buy prices of the records the lots point at (0.0 for an index past the history). */
  function PricesOf(h: seq<Tx>, lots: seq<nat>): (ps: seq<real>)
    ensures |ps| == |lots|
    ensures forall k :: 0 <= k < |lots| && lots[k] < |h| ==> ps[k] == h[lots[k]].price
  {
    if |lots| == 0 then []
    else [if lots[0] < |h| then h[lots[0]].price else 0.0] + PricesOf(h, lots[1..])
  }

  /** The matched buy cost in closed form, from lot `from` on: each lot's buy price
      times its FIFO share of the sell. */
  function CostFrom(ps: seq<real>, qs: seq<int>, rem: int, from: nat): real
    requires |ps| == |qs| && from <= |qs|
    decreases |qs| - from
  {
    if from == |qs| then 0.0
    else ps[from] * Expected(qs, rem, from) as real + CostFrom(ps, qs, rem, from + 1)
  }

  lemma {:induction false} CostFromZero(ps: seq<real>, qs: seq<int>, rem: int, from: nat)
    requires |ps| == |qs| && from <= |qs|
    requires forall k :: from <= k < |qs| ==> Expected(qs, rem, k) == 0
    ensures CostFrom(ps, qs, rem, from) == 0.0
    decreases |qs| - from
  {
    if from < |qs| {
      CostFromZero(ps, qs, rem, from + 1);
    }
  }

  /** Entries priced at their lots and sized by the FIFO closed form cost exactly the
      closed-form amount. */
  lemma {:induction false} CostFromMatches(ms: seq<MatchInfo>, ps: seq<real>, qs: seq<int>, rem: int, from: nat)
    requires |ps| == |qs| && |ms| <= |qs| && from <= |ms|
    requires forall k :: from <= k < |ms| ==> ms[k].buyPrice == ps[k] && ms[k].matchQuantity == Expected(qs, rem, k)
    requires forall k :: |ms| <= k < |qs| ==> Expected(qs, rem, k) == 0
    ensures SumBuyCost(ms[from..]) == CostFrom(ps, qs, rem, from)
    decreases |qs| - from
  {
    if from < |ms| {
      CostFromMatches(ms, ps, qs, rem, from + 1);
      assert ms[from..][1..] == ms[from + 1..];
    } else {
      CostFromZero(ps, qs, rem, from);
    }
  }

  /** `total_profit_percent` of the intended matcher: the summed profit over the matched
      buy cost, times 100, and 0 when nothing was gained or lost or the cost is not
      positive. The cost is fixed by the lots: each lot's buy price times its FIFO
      share. */
  lemma MatchPercent(b: Book, sym: string, sellQty: int, price: real)
    requires Consistent(b) && NonNegativeLots(b) && sellQty >= 0
    ensures ValidIndices(b)
    ensures var r := CalculateProfit(b, sym, sellQty, price, NoSync);
      var lots := OpenOf(b, sym);
      var cost := CostFrom(PricesOf(b.history, lots), QtysOf(b.history, lots), sellQty, 0);
      && SumBuyCost(r.details.matchedBuys) == cost
      && r.details.totalProfitPercent ==
           (if r.details.totalProfit != 0.0 && cost > 0.0 then r.details.totalProfit / cost * 100.0 else 0.0)
  {
    ConsistentValid(b);
    ReadyOf(b, sym);
    var lots := OpenOf(b, sym);
    var ps := PricesOf(b.history, lots);
    var qs := QtysOf(b.history, lots);
    if |lots| > 0 {
      var ms := MatchLoop(b, sym, lots, sellQty, price, NoSync).matched;
      LoopInfos(b, sym, lots, sellQty, price);
      LoopExpected(b, sym, lots, sellQty, price);
      CostFromMatches(ms, ps, qs, sellQty, 0);
      assert ms[0..] == ms;
    }
  }

  /** The ledger after the intended matcher: still rebuildable, no lot negative, the
      symbol's open quantity down by exactly what was matched, its remaining lots a
      suffix of the old ones (oldest consumed first), other symbols untouched, and no
      record's identity changed. */
  lemma MatchKeepsLedger(b: Book, sym: string, sellQty: int, price: real)
    requires Consistent(b) && NonNegativeLots(b) && sellQty >= 0
    ensures ValidIndices(b)
    ensures var r := CalculateProfit(b, sym, sellQty, price, NoSync);
      && Consistent(r.book) && NonNegativeLots(r.book)
      && OpenQty(r.book, sym) == OpenQty(b, sym) - Sum(Quantities(r.details.matchedBuys))
      && (exists d :: 0 <= d <= |OpenOf(b, sym)| && OpenOf(r.book, sym) == OpenOf(b, sym)[d..])
      && (forall s :: s != sym ==> OpenOf(r.book, s) == OpenOf(b, s) && OpenQty(r.book, s) == OpenQty(b, s))
      && SameIdentity(b.history, r.book.history)
  {
    ConsistentValid(b);
    ReadyOf(b, sym);
    var lots := OpenOf(b, sym);
    var r := CalculateProfit(b, sym, sellQty, price, NoSync);
    if |lots| == 0 {
      assert OpenOf(r.book, sym) == lots[0..];
    } else {
      LoopHistory(b, sym, lots, sellQty, price);
      LoopSuffix(b, sym, lots, sellQty, price);
      LoopOpenQty(b, sym, lots, sellQty, price);
      LoopConsistent(b, sym, lots, sellQty, price);
      forall s | s != sym ensures QtysOf(r.book.history, OpenOf(r.book, s)) == QtysOf(b.history, OpenOf(b, s)) {
        OtherLotsDisjoint(b, sym, s);
        QtysOfSame(b.history, r.book.history, OpenOf(b, s));
      }
      forall s ensures NonNegative(QtysOf(r.book.history, OpenOf(r.book, s))) {
        if s != sym {
          assert NonNegative(QtysOf(b.history, OpenOf(b, s)));
        }
      }
    }
  }

  lemma {:induction false} QtysOfAppend(h: seq<Tx>, t: Tx, lots: seq<nat>)
    requires forall k :: 0 <= k < |lots| ==> lots[k] < |h|
    ensures QtysOf(h + [t], lots) == QtysOf(h, lots)
    ensures QtysOf(h + [t], lots + [|h|]) == QtysOf(h, lots) + [t.quantity]
  {
    if |lots| > 0 {
      QtysOfAppend(h, t, lots[1..]);
      assert (lots + [|h|])[1..] == lots[1..] + [|h|];
    }
  }

  /** Recording an order leaves no lot negative when a new lot is not negative. */
  lemma RecordKeepsNonNegative(b: Book, t: Tx, asLot: bool)
    requires Consistent(b) && NonNegativeLots(b) && (asLot ==> t.quantity >= 0)
    ensures NonNegativeLots(Record(b, t, asLot))
  {
    var r := Record(b, t, asLot);
    forall s ensures NonNegative(QtysOf(r.history, OpenOf(r, s))) {
      ConsistentFacts(b, s);
      QtysOfAppend(b.history, t, OpenOf(b, s));
      assert NonNegative(QtysOf(b.history, OpenOf(b, s)));
    }
  }
}

=== FILE: last_buy.dfy ===
/** `get_last_buy_price_info` of stock_monitor.py: the newest buy of a symbol (open or
    closed), how far the current price is from it, and which of six advice bands that
    distance falls in. The rendered text is left out; the model returns its parts. */
module LastBuy {
  import opened Wrappers
  import opened Ledger
  import opened Recency

  /** The six advice texts, from "far above the last buy" down to "far below". */
  datatype Band = FarAbove | Above | SlightlyAbove | SlightlyBelow | Below | FarBelow

  datatype LastBuyInfo =
    | NoRecord
    | Info(lastPrice: real, timestamp: nat, diff: real, percent: real, band: Band)

  /** The cascade `> 10`, `> 5`, `> 0`, `> -5`, `> -10`, else: each band is a
      half-open interval of the percent scale, closed at the top. */
  function BandOf(p: real): (b: Band)
    ensures b == FarAbove <==> 10.0 < p
    ensures b == Above <==> 5.0 < p <= 10.0
    ensures b == SlightlyAbove <==> 0.0 < p <= 5.0
    ensures b == SlightlyBelow <==> -5.0 < p <= 0.0
    ensures b == Below <==> -10.0 < p <= -5.0
    ensures b == FarBelow <==> p <= -10.0
  {
    if p > 10.0 then FarAbove
    else if p > 5.0 then Above
    else if p > 0.0 then SlightlyAbove
    else if p > -5.0 then SlightlyBelow
    else if p > -10.0 then Below
    else FarBelow
  }

  /** Position of a band on the price scale, lowest first. */
  function Rank(b: Band): nat {
    match b
    case FarBelow => 0
    case Below => 1
    case SlightlyBelow => 2
    case SlightlyAbove => 3
    case Above => 4
    case FarAbove => 5
  }

  /** A higher price never gives advice for a lower band. */
  lemma BandMonotone(p: real, q: real)
    requires p <= q
    ensures Rank(BandOf(p)) <= Rank(BandOf(q))
  {
  }

  predicate IsBuyOf(sym: string, t: Tx) {
    t.symbol == sym && t.action == Buy
  }

  /** The filter `t['symbol'] == symbol and t['action'] == 'buy'`. */
  function BuyOf(sym: string): Tx -> bool {
    (t: Tx) => IsBuyOf(sym, t)
  }

  function TxTime(t: Tx): nat { t.timestamp }

  /** `price_diff_percent`: relative distance, or 0 for a non-positive buy price. */
  function PercentFrom(lastPrice: real, diff: real): (p: real)
    ensures lastPrice > 0.0 ==> p * lastPrice == diff * 100.0
    ensures lastPrice <= 0.0 ==> p == 0.0
  {
    if lastPrice > 0.0 then diff / lastPrice * 100.0 else 0.0
  }

  function LastBuyInfoOf(h: seq<Tx>, sym: string, current: real): (r: LastBuyInfo)
    ensures r.NoRecord? <==> forall k :: 0 <= k < |h| ==> !IsBuyOf(sym, h[k])
    ensures r.Info? ==> r.diff == current - r.lastPrice && r.band == BandOf(r.percent)
    ensures r.Info? ==> exists j :: 0 <= j < |h| && IsBuyOf(sym, h[j]) && h[j].price == r.lastPrice && h[j].timestamp == r.timestamp
    ensures r.Info? ==> forall k :: 0 <= k < |h| && IsBuyOf(sym, h[k]) ==> h[k].timestamp <= r.timestamp
  {
    match Latest(h, BuyOf(sym), TxTime)
    case None => NoRecord
    case Some(j) =>
      var last := h[j];
      var diff := current - last.price;
      var percent := PercentFrom(last.price, diff);
      Info(last.price, last.timestamp, diff, percent, BandOf(percent))
  }

  /** The reported buy is the newest buy of the symbol and, among buys of that same
      timestamp, the first one recorded. */
  lemma LastBuyIsNewestFirst(h: seq<Tx>, sym: string, current: real, j: nat)
    requires j < |h| && IsBuyOf(sym, h[j])
    requires forall k :: 0 <= k < |h| && IsBuyOf(sym, h[k]) ==> h[k].timestamp <= h[j].timestamp
    requires forall k :: 0 <= k < j && IsBuyOf(sym, h[k]) ==> h[k].timestamp < h[j].timestamp
    ensures LastBuyInfoOf(h, sym, current).Info?
    ensures LastBuyInfoOf(h, sym, current).lastPrice == h[j].price
  {
    LatestUnique(h, BuyOf(sym), TxTime, j);
  }

  /** Recording an order of another symbol, or a sell, does not change the answer. */
  lemma LastBuyIgnoresOthers(h: seq<Tx>, t: Tx, sym: string, current: real)
    requires !IsBuyOf(sym, t)
    ensures LastBuyInfoOf(h + [t], sym, current) == LastBuyInfoOf(h, sym, current)
  {
    LatestIgnoresRejected(h, t, BuyOf(sym), TxTime);
  }
}

=== FILE: ledger.dfy ===
/** The transaction history and open-lot table of the two monitor scripts
    (stock_monitor.py and stock_monitor_ollama_only.py).

    In the scripts an open lot and its history record are the same dictionary:
    `place_order` appends one `order_info` to both lists, and `load_transactions`
    puts history dictionaries into `open_positions`. The model makes that sharing
    explicit: `open` holds, per symbol, indices into `history`, and a lot's
    quantity is the quantity of the record it points at. */
module Ledger {
  import opened Wrappers

  datatype Action = Buy | Sell | OtherAction(name: string)

  /** `status`: 'submitted' for broker-accepted orders, 'simulated' for the fallback. */
  datatype Status = Submitted | Simulated

  /** One entry of a sell's `matched_buys`. */
  datatype MatchInfo = MatchInfo(buyOrderId: string, buyPrice: real, matchQuantity: int,
                                 profit: real, profitPercent: real)

  /** The `profit`, `profit_percent` and `matched_buys` fields a sell record carries. */
  datatype Realized = Realized(profit: real, profitPercent: real, matchedBuys: seq<MatchInfo>)

  /** One `order_info` dictionary. `closed` stands for `transaction.get('closed', False)`. */
  datatype Tx = Tx(symbol: string, action: Action, quantity: int, price: real, orderId: string,
                   timestamp: nat, status: Status, closed: bool, realized: Option<Realized>)

  type OpenTable = map<string, seq<nat>>

  datatype Book = Book(history: seq<Tx>, open: OpenTable)

  /** `open_positions[s]` of a `defaultdict(list)`. */
  function Get(m: OpenTable, s: string): seq<nat> {
    if s in m then m[s] else []
  }

  function OpenOf(b: Book, s: string): seq<nat> {
    Get(b.open, s)
  }

  /** Every open lot points at a record of the history. */
  predicate ValidIndices(b: Book) {
    forall s, k :: s in b.open && 0 <= k < |b.open[s]| ==> b.open[s][k] < |b.history|
  }

  /** The rebuild filter: `action == 'buy' and not closed`. */
  predicate IsOpenBuy(t: Tx) {
    t.action == Buy && !t.closed
  }

  predicate StrictlyIncreasing(s: seq<nat>) {
    forall a, b :: 0 <= a < b < |s| ==> s[a] < s[b]
  }

  /** The rebuild loop of `load_transactions` after it has seen the first `n` records:
      each open buy is appended to its symbol's list. */
  function RebuildPrefix(h: seq<Tx>, n: nat): OpenTable
    requires n <= |h|
  {
    if n == 0 then map[]
    else
      var m := RebuildPrefix(h, n - 1);
      var t := h[n - 1];
      if IsOpenBuy(t) then m[t.symbol := Get(m, t.symbol) + [n - 1]] else m
  }

  /** After `n` records the table lists, per symbol, exactly the open buys among
      them, each once and in history order. */
  lemma {:induction false} RebuildPrefixSpec(h: seq<Tx>, n: nat, s: string)
    requires n <= |h|
    ensures StrictlyIncreasing(Get(RebuildPrefix(h, n), s))
    ensures forall i: nat :: i in Get(RebuildPrefix(h, n), s) <==> i < n && h[i].symbol == s && IsOpenBuy(h[i])
  {
    if n > 0 {
      RebuildPrefixSpec(h, n - 1, s);
      var m := RebuildPrefix(h, n - 1);
      var t := h[n - 1];
      if IsOpenBuy(t) && t.symbol == s {
        var old_ := Get(m, s);
        assert Get(RebuildPrefix(h, n), s) == old_ + [n - 1];
        forall i: nat ensures i in old_ + [n - 1] <==> i in old_ || i == n - 1 { }
        forall a | 0 <= a < |old_| ensures old_[a] < n - 1 {
          assert old_[a] in old_;
        }
      } else {
        assert Get(RebuildPrefix(h, n), s) == Get(m, s);
      }
    }
  }

  /** `l` lists exactly the indices of the open buys of `s` in `h`, each once, oldest
      first. */
  ghost predicate OpenBuysOf(h: seq<Tx>, s: string, l: seq<nat>) {
    StrictlyIncreasing(l) && forall i: nat :: i in l <==> i < |h| && h[i].symbol == s && IsOpenBuy(h[i])
  }

  lemma RebuildPrefixSpecAll(h: seq<Tx>)
    ensures forall s :: OpenBuysOf(h, s, Get(RebuildPrefix(h, |h|), s))
  {
    forall s ensures OpenBuysOf(h, s, Get(RebuildPrefix(h, |h|), s)) {
      RebuildPrefixSpec(h, |h|, s);
    }
  }

  /** `load_transactions`: the open-lot table reconstructed from the whole history.
      Each symbol lists exactly the indices of its open buys, each once, oldest first. */
  function Rebuild(h: seq<Tx>): (t: OpenTable)
    ensures forall s :: OpenBuysOf(h, s, Get(t, s))
  {
    RebuildPrefixSpecAll(h);
    RebuildPrefix(h, |h|)
  }

  /** The reloaded ledger: same history, and a symbol's open lots are exactly its
      open buys in that history, oldest first. */
  function Reload(b: Book): (r: Book)
    ensures r.history == b.history
    ensures forall s :: OpenBuysOf(b.history, s, OpenOf(r, s))
  {
    Book(b.history, Rebuild(b.history))
  }

  /** The in-memory open-lot table is the one a restart would rebuild. */
  ghost predicate Consistent(b: Book) {
    forall s :: OpenOf(b, s) == Get(Rebuild(b.history), s)
  }

  /** Two strictly increasing index lists with the same members are equal, so the
      rebuilt lists are determined by which records are open buys. */
  lemma {:induction false} IncreasingSameMembersEqual(a: seq<nat>, b: seq<nat>)
    requires StrictlyIncreasing(a) && StrictlyIncreasing(b)
    requires forall x :: x in a <==> x in b
    ensures a == b
  {
    if |a| == 0 {
      HeadIsMember(b);
    } else if |b| == 0 {
      HeadIsMember(a);
    } else {
      assert a[0] in b;
      assert b[0] in a;
      assert a[0] == b[0] by {
        var i :| 0 <= i < |b| && b[i] == a[0];
        var j :| 0 <= j < |a| && a[j] == b[0];
        assert b[0] <= b[i];
        assert a[0] <= a[j];
      }
      forall x ensures x in a[1..] <==> x in b[1..] {
        if x in a[1..] {
          var i :| 1 <= i < |a| && a[i] == x;
          assert x in b;
          assert x != b[0];
        }
        if x in b[1..] {
          var i :| 1 <= i < |b| && b[i] == x;
          assert x in a;
          assert x != a[0];
        }
      }
      IncreasingSameMembersEqual(a[1..], b[1..]);
    }
  }

  lemma HeadIsMember(s: seq<nat>)
    ensures |s| > 0 ==> s[0] in s
  {
  }

  /** The rebuild only looks at each record's symbol and whether it is an open buy. */
  lemma RebuildDependsOnOpenFlags(h: seq<Tx>, h': seq<Tx>)
    requires |h| == |h'|
    requires forall k :: 0 <= k < |h| ==> h[k].symbol == h'[k].symbol && IsOpenBuy(h[k]) == IsOpenBuy(h'[k])
    ensures forall s :: Get(Rebuild(h), s) == Get(Rebuild(h'), s)
  {
    forall s ensures Get(Rebuild(h), s) == Get(Rebuild(h'), s) {
      RebuildPrefixSpec(h, |h|, s);
      RebuildPrefixSpec(h', |h'|, s);
      IncreasingSameMembersEqual(Get(Rebuild(h), s), Get(Rebuild(h'), s));
    }
  }

  /** Reloading is idempotent and, on a consistent ledger, changes nothing a reader
      of the open lots can see. */
  lemma ReloadIdempotent(b: Book)
    ensures Consistent(Reload(b))
    ensures Reload(Reload(b)) == Reload(b)
    ensures Consistent(b) ==> forall s :: OpenOf(Reload(b), s) == OpenOf(b, s)
  {
  }

  /** A consistent ledger's lots point into the history, at open buys of their own
      symbol, each at most once, oldest first. */
  lemma ConsistentFacts(b: Book, s: string)
    requires Consistent(b)
    ensures StrictlyIncreasing(OpenOf(b, s))
    ensures forall k :: 0 <= k < |OpenOf(b, s)| ==>
      OpenOf(b, s)[k] < |b.history| && b.history[OpenOf(b, s)[k]].symbol == s && IsOpenBuy(b.history[OpenOf(b, s)[k]])
  {
    assert OpenOf(b, s) == Get(Rebuild(b.history), s);
    RebuildPrefixSpec(b.history, |b.history|, s);
    forall k | 0 <= k < |OpenOf(b, s)|
      ensures OpenOf(b, s)[k] < |b.history| && b.history[OpenOf(b, s)[k]].symbol == s && IsOpenBuy(b.history[OpenOf(b, s)[k]])
    {
      assert OpenOf(b, s)[k] in Get(Rebuild(b.history), s);
    }
  }

  lemma ConsistentValid(b: Book)
    requires Consistent(b)
    ensures ValidIndices(b)
  {
    forall s, k | s in b.open && 0 <= k < |b.open[s]| ensures b.open[s][k] < |b.history| {
      assert b.open[s] == OpenOf(b, s);
      ConsistentFacts(b, s);
    }
  }

  /** `transactions.append(order_info)`, and, when `asLot`, also
      `open_positions[symbol].append(order_info)`: the new lot is the new record. */
  function Record(b: Book, t: Tx, asLot: bool): (r: Book)
    ensures r.history == b.history + [t]
    ensures forall s :: s != t.symbol ==> OpenOf(r, s) == OpenOf(b, s)
    ensures OpenOf(r, t.symbol) == if asLot then OpenOf(b, t.symbol) + [|b.history|] else OpenOf(b, t.symbol)
  {
    Book(b.history + [t], if asLot then b.open[t.symbol := OpenOf(b, t.symbol) + [|b.history|]] else b.open)
  }

  /** The rebuild of a prefix does not look past it. */
  lemma {:induction false} RebuildPrefixExtend(h: seq<Tx>, t: Tx, n: nat)
    requires n <= |h|
    ensures RebuildPrefix(h + [t], n) == RebuildPrefix(h, n)
  {
    if n > 0 {
      RebuildPrefixExtend(h, t, n - 1);
      assert (h + [t])[n - 1] == h[n - 1];
    }
  }

  /** Recording an order keeps the ledger rebuildable exactly when it becomes a lot
      if and only if it is an open buy. */
  lemma RecordKeepsConsistent(b: Book, t: Tx, asLot: bool)
    requires Consistent(b)
    ensures Consistent(Record(b, t, asLot)) <==> asLot == IsOpenBuy(t)
  {
    var h := b.history;
    RebuildPrefixExtend(h, t, |h|);
    assert (h + [t])[|h|] == t;
    var r := Record(b, t, asLot);
    assert Get(Rebuild(r.history), t.symbol) ==
      if IsOpenBuy(t) then Get(Rebuild(h), t.symbol) + [|h|] else Get(Rebuild(h), t.symbol);
    if asLot != IsOpenBuy(t) {
      assert OpenOf(r, t.symbol) != Get(Rebuild(r.history), t.symbol) by {
        assert |OpenOf(r, t.symbol)| != |Get(Rebuild(r.history), t.symbol)|;
      }
    }
  }
}

=== FILE: lot_matching.dfy ===
/** The quantity-level rule shared by every FIFO matcher in the system: a sell of
    `rem` shares walks the open lots oldest-first and takes `min(remaining, lot)` from
    each until nothing remains or the lots run out. */
module LotMatching {

  function Min(a: int, b: int): int { if a <= b then a else b }
  function Max(a: int, b: int): int { if a >= b then a else b }

  function Sum(qs: seq<int>): int {
    if |qs| == 0 then 0 else qs[0] + Sum(qs[1..])
  }

  predicate NonNegative(qs: seq<int>) {
    forall k :: 0 <= k < |qs| ==> qs[k] >= 0
  }

  /** Quantities matched against each lot, oldest first. */
  function Take(qs: seq<int>, rem: int): (ms: seq<int>)
    ensures |ms| <= |qs|
  {
    if |qs| == 0 || rem <= 0 then []
    else
      var m := Min(rem, qs[0]);
      [m] + Take(qs[1..], rem - m)
  }

  /** What is left of the sell once `Take` stops. */
  function Left(qs: seq<int>, rem: int): int {
    if |qs| == 0 || rem <= 0 then rem
    else Left(qs[1..], rem - Min(rem, qs[0]))
  }

  /** The closed form of the rule: lot `k` gives up whatever of the sell the lots
      before it did not cover, but never more than it holds. */
  function Expected(qs: seq<int>, rem: int, k: nat): int
    requires k < |qs|
  {
    Min(qs[k], Max(0, rem - Sum(qs[..k])))
  }

  /** Matched plus left over is the whole sell. */
  lemma {:induction false} TakeConserves(qs: seq<int>, rem: int)
    ensures Sum(Take(qs, rem)) + Left(qs, rem) == rem
  {
    if |qs| > 0 && rem > 0 {
      var m := Min(rem, qs[0]);
      TakeConserves(qs[1..], rem - m);
    }
  }

  /** With non-negative lots, a non-negative sell matches `min(sell, open)` and leaves
      `max(0, sell - open)` unmatched; every lot but the last one touched is emptied
      and no lot gives more than it holds. */
  lemma {:induction false} TakeTotals(qs: seq<int>, rem: int)
    requires NonNegative(qs) && rem >= 0
    ensures Sum(Take(qs, rem)) == Min(rem, Sum(qs))
    ensures Left(qs, rem) == Max(0, rem - Sum(qs))
    ensures forall k :: 0 <= k < |Take(qs, rem)| ==> 0 <= Take(qs, rem)[k] <= qs[k]
    ensures forall k :: 0 <= k < |Take(qs, rem)| - 1 ==> Take(qs, rem)[k] == qs[k]
    ensures |Take(qs, rem)| < |qs| ==> Left(qs, rem) == 0
  {
    TakeSums(qs, rem);
    TakeBounds(qs, rem);
  }

  lemma {:induction false} TakeSums(qs: seq<int>, rem: int)
    requires NonNegative(qs) && rem >= 0
    ensures Sum(Take(qs, rem)) == Min(rem, Sum(qs))
    ensures Left(qs, rem) == Max(0, rem - Sum(qs))
    ensures |Take(qs, rem)| < |qs| ==> Left(qs, rem) == 0
  {
    NonNegativeSum(qs);
    if |qs| > 0 && rem > 0 {
      var m := Min(rem, qs[0]);
      assert NonNegative(qs[1..]);
      TakeSums(qs[1..], rem - m);
      assert Take(qs, rem) == [m] + Take(qs[1..], rem - m);
    }
  }

  lemma {:induction false} TakeBounds(qs: seq<int>, rem: int)
    requires NonNegative(qs) && rem >= 0
    ensures forall k :: 0 <= k < |Take(qs, rem)| ==> 0 <= Take(qs, rem)[k] <= qs[k]
    ensures forall k :: 0 <= k < |Take(qs, rem)| - 1 ==> Take(qs, rem)[k] == qs[k]
  {
    if |qs| > 0 && rem > 0 {
      var m := Min(rem, qs[0]);
      assert NonNegative(qs[1..]);
      TakeBounds(qs[1..], rem - m);
      var t := Take(qs, rem);
      var rest := Take(qs[1..], rem - m);
      assert t == [m] + rest;
      forall k | 0 <= k < |t| ensures 0 <= t[k] <= qs[k] {
        if k > 0 { assert t[k] == rest[k - 1] && qs[k] == qs[1..][k - 1]; }
      }
      forall k | 0 <= k < |t| - 1 ensures t[k] == qs[k] {
        if k > 0 { assert t[k] == rest[k - 1] && qs[k] == qs[1..][k - 1]; }
      }
    }
  }

  lemma {:induction false} NonNegativeSum(qs: seq<int>)
    requires NonNegative(qs)
    ensures Sum(qs) >= 0
  {
    if |qs| > 0 {
      assert NonNegative(qs[1..]);
      NonNegativeSum(qs[1..]);
    }
  }

  /** The recursive rule agrees with the closed form lot by lot; lots past the last
      one touched would have given nothing. */
  lemma {:induction false} TakeMatchesExpected(qs: seq<int>, rem: int, k: nat)
    requires NonNegative(qs) && rem >= 0 && k < |qs|
    ensures k < |Take(qs, rem)| ==> Take(qs, rem)[k] == Expected(qs, rem, k)
    ensures k >= |Take(qs, rem)| ==> Expected(qs, rem, k) == 0
  {
    if rem == 0 {
      NonNegativeSum(qs[..k]);
      assert NonNegative(qs[..k]);
    } else if k == 0 {
      assert qs[..0] == [];
    } else {
      var m := Min(rem, qs[0]);
      var tail := qs[1..];
      assert NonNegative(tail);
      assert qs[..k][1..] == tail[..k - 1];
      assert Sum(qs[..k]) == qs[0] + Sum(tail[..k - 1]);
      if m == qs[0] {
        TakeMatchesExpected(tail, rem - m, k - 1);
        assert Take(qs, rem)[1..] == Take(tail, rem - m);
      } else {
        assert m == rem;
        assert Take(tail, 0) == [];
        assert NonNegative(tail[..k - 1]);
        NonNegativeSum(tail[..k - 1]);
      }
    }
  }
}

=== FILE: monitor_orders.dfy ===
/** `place_order` of stock_monitor.py: apply the buy limits, submit to the broker,
    record the order (matching a sell against the open lots first), update the
    symbol's position value; on any exception fall back to a simulated order that is
    recorded the same way. */
module MonitorOrders {
  import opened Wrappers
  import opened Ledger
  import opened LotMatching
  import opened Fifo
  import opened FifoProperties
  import opened RiskClamps
  import opened OrderBook

  /** Everything `place_order` reads besides the ledger: the configuration, the funds
      the broker positions already use (priced at live quotes), the broker's answer
      and the clock (`now` for the timestamp, `seconds` for `int(time.time())`). */
  datatype Env = Env(fundLimit: real, usedFunds: real, maxPosition: real, fallback: bool,
                     broker: Broker, now: nat, seconds: nat)

  /** The ledger plus `stock_data[symbol]['position']` per symbol. */
  datatype State = State(book: Book, positions: map<string, real>)

  datatype Placed = Placed(state: State, order: Option<Tx>)

  /** `config.get('fund_limit', 0)`: no fund limit unless configured. */
  const DefaultFundLimit: real := 0.0

  /** The buy limits, for a buy; everything else passes as asked. */
  function Limits(s: State, sym: string, action: Action, quantity: int, price: real, env: Env): Clamp
    requires sym in s.positions
  {
    if action == Buy then BuyClamp(quantity, price, env.fundLimit, env.usedFunds, s.positions[sym], env.maxPosition)
    else Proceed(quantity)
  }

  /** Book the order, then move the symbol's position value: a buy adds its amount,
      a sell takes it off but not below zero, anything else leaves it. */
  function Commit(s: State, tx: Tx, mode: SyncMode): (p: Placed)
    requires tx.symbol in s.positions && ValidIndices(s.book)
    ensures p.order.Some? && p.order.value == tx.(realized := p.order.value.realized)
  {
    var r := BookOrder(s.book, tx, mode);
    Placed(State(r.book, s.positions[tx.symbol := Moved(tx.action, s.positions[tx.symbol], tx.quantity, tx.price)]),
           Some(r.record))
  }

  /** Which record `place_order` commits, if any: the broker's order for an accepted
      buy or sell; the simulated one when anything raised and the fallback is on;
      nothing for a refused buy or a failure without fallback. */
  function Route(s: State, sym: string, action: Action, quantity: int, price: real, env: Env): (r: Option<Tx>)
    requires sym in s.positions
    ensures var c := Limits(s, sym, action, quantity, price, env);
      var submitted := c.Proceed? && !action.OtherAction? && env.broker.Accepted?;
      && (r.None? <==> c.Refuse? || (!submitted && !env.fallback))
      && (r.Some? ==> && r.value.symbol == sym && r.value.action == action && r.value.price == price
                      && r.value.quantity == c.quantity && r.value.timestamp == env.now
                      && !r.value.closed && r.value.realized.None?)
      && (r.Some? ==> (r.value.status == Submitted <==> submitted))
      && (r.Some? && submitted ==> r.value.orderId == BrokerId(env.broker.orderId))
      && (r.Some? && !submitted ==> r.value.orderId == MockId(env.seconds))
  {
    var fallback := Tx(sym, action, quantity, price, MockId(env.seconds), env.now, Simulated, false, None);
    match Limits(s, sym, action, quantity, price, env)
    case Refuse => None
    case Raise(q) => if env.fallback then Some(fallback.(quantity := q)) else None
    case Proceed(q) =>
      if action.OtherAction? || env.broker.Rejected? then
        if env.fallback then Some(fallback.(quantity := q)) else None
      else
        Some(Tx(sym, action, q, price, BrokerId(env.broker.orderId), env.now, Submitted, false, None))
  }

  /** `place_order(symbol, action, quantity, price)`. */
  function PlaceOrder(s: State, sym: string, action: Action, quantity: int, price: real, env: Env, mode: SyncMode): (p: Placed)
    requires sym in s.positions && ValidIndices(s.book)
    ensures p.order.None? ==> p.state == s
    ensures p.order.Some? ==> p.order.value.symbol == sym && p.order.value.action == action && p.order.value.price == price
  {
    match Route(s, sym, action, quantity, price, env)
    case None => Placed(s, None)
    case Some(tx) => Commit(s, tx, mode)
  }

  /** When an order comes back and with which status: a refused buy and a failure
      without fallback give nothing; a buy or sell the broker accepted is
      'submitted' under the broker's id (or 'unknown'); every other outcome is
      'simulated' under `mock_order_<seconds>`. A sell is never cut. */
  lemma PlaceOrderOutcome(s: State, sym: string, action: Action, quantity: int, price: real, env: Env, mode: SyncMode)
    requires sym in s.positions && ValidIndices(s.book)
    ensures var p := PlaceOrder(s, sym, action, quantity, price, env, mode);
      var c := Limits(s, sym, action, quantity, price, env);
      var submitted := c.Proceed? && !action.OtherAction? && env.broker.Accepted?;
      && (p.order.None? <==> c.Refuse? || (!submitted && !env.fallback))
      && (p.order.Some? ==> |p.state.book.history| == |s.book.history| + 1
                            && p.state.book.history[|s.book.history|] == p.order.value
                            && p.order.value.quantity == c.quantity)
      && (p.order.Some? && submitted ==> p.order.value.status == Submitted
                                         && p.order.value.orderId == BrokerId(env.broker.orderId))
      && (p.order.Some? && !submitted ==> p.order.value.status == Simulated
                                          && p.order.value.orderId == MockId(env.seconds))
      && (action != Buy ==> c == Proceed(quantity))
  {
  }

  /** The fallback keeps the same books as a real order: the two ledgers and position
      tables agree except for the new record's id and status. */
  lemma SimulatedSameAccounting(s: State, sym: string, action: Action, quantity: int, price: real, env: Env, mode: SyncMode, id: string)
    requires sym in s.positions && ValidIndices(s.book)
    requires action == Buy || action == Sell
    requires env.fallback
    ensures var sim := PlaceOrder(s, sym, action, quantity, price, env.(broker := Rejected), mode);
      var sent := PlaceOrder(s, sym, action, quantity, price, env.(broker := Accepted(Some(id))), mode);
      var n := |s.book.history|;
      && sim.order.Some? == sent.order.Some?
      && sim.state.positions == sent.state.positions
      && sim.state.book.open == sent.state.book.open
      && |sim.state.book.history| == |sent.state.book.history|
      && sim.state.book.history[..n] == sent.state.book.history[..n]
      && (sim.order.Some? ==> sim.order.value == sent.order.value.(orderId := MockId(env.seconds), status := Simulated))
  {
  }

  /** With the intended matcher, a buy or sell of a non-negative quantity keeps the
      ledger rebuildable and free of negative lots, whether it goes to the broker or
      to the fallback. */
  lemma PlaceOrderKeepsLedger(s: State, sym: string, action: Action, quantity: int, price: real, env: Env)
    requires sym in s.positions && Consistent(s.book) && NonNegativeLots(s.book)
    requires action == Buy || action == Sell
    requires quantity >= 0
    ensures ValidIndices(s.book)
    ensures var p := PlaceOrder(s, sym, action, quantity, price, env, NoSync);
      Consistent(p.state.book) && NonNegativeLots(p.state.book)
  {
    ConsistentValid(s.book);
    BuyClampKeepsNonNegative(quantity, price, env.fundLimit, env.usedFunds, s.positions[sym], env.maxPosition);
    var r := Route(s, sym, action, quantity, price, env);
    if r.Some? {
      BookKeepsLedger(s.book, r.value);
    }
  }

  lemma BuyClampKeepsNonNegative(quantity: int, price: real, fundLimit: real, used: real, position: real, maxPosition: real)
    requires quantity >= 0
    ensures var c := BuyClamp(quantity, price, fundLimit, used, position, maxPosition);
      c.Proceed? || c.Raise? ==> c.quantity >= 0
  {
  }

  /** The position value after an order of `action`. */
  function Moved(action: Action, position: real, quantity: int, price: real): real {
    match action
    case Buy => AfterBuy(position, quantity, price)
    case Sell => AfterSell(position, quantity, price)
    case OtherAction(_) => position
  }

  /** Only the ordered symbol's position value moves: up by the amount of a buy, down
      by the amount of a sell but not below zero, not at all for anything else; a
      refused or dropped order moves nothing. */
  lemma PlaceOrderPositions(s: State, sym: string, action: Action, quantity: int, price: real, env: Env, mode: SyncMode)
    requires sym in s.positions && ValidIndices(s.book)
    ensures var p := PlaceOrder(s, sym, action, quantity, price, env, mode);
      && (p.order.Some? ==> p.state.positions == s.positions[sym := Moved(action, s.positions[sym], p.order.value.quantity, price)])
      && (p.order.None? ==> p.state.positions == s.positions)
      && (p.order.Some? && action != Buy ==> p.order.value.quantity == quantity)
  {
  }

  /** A non-buy, non-sell order goes to the fallback, which books it among the open
      lots: the ledger no longer matches what a restart would rebuild. */
  lemma OtherActionFallbackBreaksReload(s: State, sym: string, name: string, quantity: int, price: real, env: Env, mode: SyncMode)
    requires sym in s.positions && Consistent(s.book) && env.fallback
    ensures ValidIndices(s.book)
    ensures var p := PlaceOrder(s, sym, OtherAction(name), quantity, price, env, mode);
      p.order.Some? && p.order.value.status == Simulated && !Consistent(p.state.book)
  {
    ConsistentValid(s.book);
    var r := Route(s, sym, OtherAction(name), quantity, price, env);
    OtherActionBreaksReload(s.book, r.value, mode);
  }

  /** Under the default configuration (no fund limit) no buy is ever refused: with a
      positive price it always reaches the broker with at least one share. */
  lemma DefaultConfigNeverRefuses(s: State, sym: string, quantity: int, price: real, env: Env, mode: SyncMode)
    requires sym in s.positions && ValidIndices(s.book)
    requires env.fundLimit == DefaultFundLimit && env.maxPosition == MonitorMaxPosition && price > 0.0
    requires quantity >= 1 && env.broker.Accepted?
    ensures var p := PlaceOrder(s, sym, Buy, quantity, price, env, mode);
      p.order.Some? && p.order.value.status == Submitted && 1 <= p.order.value.quantity <= quantity
  {
    MaxPositionClampNeverIncreases(quantity, price, s.positions[sym], env.maxPosition);
  }
}

=== FILE: ollama_orders.dfy ===
/** `place_order` and `sell_stock` of stock_monitor_ollama_only.py. The buy limits
    are those of stock_monitor.py, but the funds in use are the sum of the position
    values in `stock_data`; after the limits a non-positive quantity raises; and the
    position kept per symbol is the average-cost aggregate. */
module OllamaOrders {
  import opened Wrappers
  import opened Ledger
  import opened Fifo
  import opened FifoProperties
  import opened RiskClamps
  import opened OrderBook
  import opened PositionAggregate

  datatype Env = Env(fundLimit: real, maxPosition: real, fallback: bool, broker: Broker, now: nat, seconds: nat)

  /** One `stock_data` entry; the list keeps the configuration's order. */
  datatype Entry = Entry(symbol: string, agg: Agg)

  datatype State = State(book: Book, data: seq<Entry>)

  datatype Placed = Placed(state: State, order: Option<Tx>)

  /** `sum(stock_info['position'] for stock_info in stock_data.values())`. */
  function UsedFunds(data: seq<Entry>): real {
    if |data| == 0 then 0.0 else data[0].agg.cost + UsedFunds(data[1..])
  }

  function Lookup(data: seq<Entry>, sym: string): (r: Option<Agg>)
    ensures r.Some? <==> exists k :: 0 <= k < |data| && data[k].symbol == sym
  {
    if |data| == 0 then None
    else if data[0].symbol == sym then Some(data[0].agg)
    else Lookup(data[1..], sym)
  }

  /** Replace the aggregate of `sym`. */
  function Update(data: seq<Entry>, sym: string, a: Agg): (r: seq<Entry>)
    ensures |r| == |data|
    ensures forall k :: 0 <= k < |data| ==> r[k].symbol == data[k].symbol
  {
    if |data| == 0 then []
    else if data[0].symbol == sym then [Entry(sym, a)] + data[1..]
    else [data[0]] + Update(data[1..], sym, a)
  }

  /** Updating one symbol changes the funds in use by exactly its change in value, so
      the next buy's fund check sees this one. */
  lemma {:induction false} UpdateUsedFunds(data: seq<Entry>, sym: string, a: Agg)
    requires Lookup(data, sym).Some?
    ensures UsedFunds(Update(data, sym, a)) == UsedFunds(data) - Lookup(data, sym).value.cost + a.cost
    ensures Lookup(Update(data, sym, a), sym) == Some(a)
    ensures forall s :: s != sym ==> Lookup(Update(data, sym, a), s) == Lookup(data, s)
  {
    if data[0].symbol != sym {
      UpdateUsedFunds(data[1..], sym, a);
      assert Update(data, sym, a)[1..] == Update(data[1..], sym, a);
    } else {
      assert Update(data, sym, a)[1..] == data[1..];
    }
  }

  /** Every aggregate satisfies the bookkeeping identity. */
  predicate AllSound(data: seq<Entry>) {
    forall k :: 0 <= k < |data| ==> Sound(data[k].agg)
  }

  lemma {:induction false} UpdateAllSound(data: seq<Entry>, sym: string, a: Agg)
    requires AllSound(data) && Sound(a)
    ensures AllSound(Update(data, sym, a))
  {
    if |data| > 0 && data[0].symbol != sym {
      UpdateAllSound(data[1..], sym, a);
      assert AllSound(data[1..]);
      var r := Update(data, sym, a);
      forall k | 0 <= k < |r| ensures Sound(r[k].agg) {
        if k > 0 { assert r[k] == Update(data[1..], sym, a)[k - 1]; }
      }
    }
  }

  lemma {:induction false} LookupSound(data: seq<Entry>, sym: string)
    requires AllSound(data) && Lookup(data, sym).Some?
    ensures Sound(Lookup(data, sym).value)
  {
    if data[0].symbol != sym {
      assert AllSound(data[1..]);
      LookupSound(data[1..], sym);
    }
  }

  function Limits(s: State, sym: string, action: Action, quantity: int, price: real, env: Env): Clamp
    requires Lookup(s.data, sym).Some?
  {
    if action == Buy then
      BuyClamp(quantity, price, env.fundLimit, UsedFunds(s.data), Lookup(s.data, sym).value.cost, env.maxPosition)
    else Proceed(quantity)
  }

  /** Which record `place_order` books, if any. After the limits, an action other
      than buy or sell raises, and so does a non-positive quantity; every exception
      leads to the simulated fallback with the quantity at that point. */
  function Route(s: State, sym: string, action: Action, quantity: int, price: real, env: Env): (r: Option<Tx>)
    requires Lookup(s.data, sym).Some?
    ensures r.Some? ==> r.value.symbol == sym && r.value.action == action && r.value.price == price
  {
    var fallback := Tx(sym, action, quantity, price, MockId(env.seconds), env.now, Simulated, false, None);
    match Limits(s, sym, action, quantity, price, env)
    case Refuse => None
    case Raise(q) => if env.fallback then Some(fallback.(quantity := q)) else None
    case Proceed(q) =>
      if action.OtherAction? || q <= 0 || env.broker.Rejected? then
        if env.fallback then Some(fallback.(quantity := q)) else None
      else
        Some(Tx(sym, action, q, price, BrokerId(env.broker.orderId), env.now, Submitted, false, None))
  }

  /** The aggregate after an order of `action`. */
  function AggAfter(a: Agg, action: Action, q: int, price: real): Agg {
    match action
    case Buy => AggBuy(a, q, price)
    case Sell => AggSell(a, q)
    case OtherAction(_) => a
  }

  /** The `stock_data` update after booking `tx`; other actions leave it. */
  function DataAfter(data: seq<Entry>, tx: Tx): seq<Entry>
    requires Lookup(data, tx.symbol).Some?
  {
    if tx.action.OtherAction? then data
    else Update(data, tx.symbol, AggAfter(Lookup(data, tx.symbol).value, tx.action, tx.quantity, tx.price))
  }

  function Commit(s: State, tx: Tx, mode: SyncMode): (p: Placed)
    requires Lookup(s.data, tx.symbol).Some? && ValidIndices(s.book)
    ensures p.order.Some? && p.order.value == tx.(realized := p.order.value.realized)
    ensures p.state.data == DataAfter(s.data, tx)
  {
    var r := BookOrder(s.book, tx, mode);
    Placed(State(r.book, DataAfter(s.data, tx)), Some(r.record))
  }

  /** `place_order(symbol, action, quantity, price)` as written. */
  function PlaceOrder(s: State, sym: string, action: Action, quantity: int, price: real, env: Env): (p: Placed)
    requires Lookup(s.data, sym).Some? && ValidIndices(s.book)
    ensures p.order.None? ==> p.state == s
  {
    match Route(s, sym, action, quantity, price, env)
    case None => Placed(s, None)
    case Some(tx) => Commit(s, tx, OllamaSync)
  }

  /** Only a buy or sell of a positive quantity reaches the broker; a refused buy and a
      failure without fallback book nothing; everything else is booked as simulated,
      a non-positive quantity included. */
  lemma PlaceOrderOutcome(s: State, sym: string, action: Action, quantity: int, price: real, env: Env)
    requires Lookup(s.data, sym).Some? && ValidIndices(s.book)
    ensures var p := PlaceOrder(s, sym, action, quantity, price, env);
      var c := Limits(s, sym, action, quantity, price, env);
      var submitted := c.Proceed? && !action.OtherAction? && c.quantity > 0 && env.broker.Accepted?;
      && (p.order.None? <==> c.Refuse? || (!submitted && !env.fallback))
      && (p.order.Some? ==> p.order.value.quantity == c.quantity && p.order.value.action == action
                            && p.state.book.history == p.state.book.history[..|s.book.history|] + [p.order.value])
      && (p.order.Some? && submitted ==> p.order.value.status == Submitted && p.order.value.quantity > 0
                                         && p.order.value.orderId == BrokerId(env.broker.orderId))
      && (p.order.Some? && !submitted ==> p.order.value.status == Simulated && p.order.value.orderId == MockId(env.seconds))
  {
    var p := PlaceOrder(s, sym, action, quantity, price, env);
    if p.order.Some? {
      assert p.state.book.history == p.state.book.history[..|s.book.history|] + [p.order.value];
    }
  }

  /** The quantity guard does not stop an order: the `ValueError` it raises is caught
      and the order is booked as simulated anyway, and a buy of -5 shares drives the
      aggregate's share count negative. */
  lemma NonPositiveQuantityBooked(s: State, sym: string, quantity: int, price: real, env: Env)
    requires Lookup(s.data, sym).Some? && ValidIndices(s.book)
    requires quantity <= 0 && env.fallback
    ensures var p := PlaceOrder(s, sym, Sell, quantity, price, env);
      p.order.Some? && p.order.value.quantity == quantity && p.order.value.status == Simulated
    ensures var s0 := State(Book([], map[]), [Entry("AAPL", Fresh)]);
      var p := PlaceOrder(s0, "AAPL", Buy, -5, 10.0, Env(0.0, OllamaMaxPosition, true, Accepted(Some("1")), 0, 0));
      p.order.Some? && p.order.value.quantity == -5 && !AllSound(p.state.data)
  {
    var s0 := State(Book([], map[]), [Entry("AAPL", Fresh)]);
    var p := PlaceOrder(s0, "AAPL", Buy, -5, 10.0, Env(0.0, OllamaMaxPosition, true, Accepted(Some("1")), 0, 0));
    NegativeBuyBreaksSound();
    assert p.state.data[0].agg == AggBuy(Fresh, -5, 10.0);
  }

  /** The evidently intended guard: an order whose quantity is not positive is not
      booked on any path. */
  function RouteGuarded(s: State, sym: string, action: Action, quantity: int, price: real, env: Env): (r: Option<Tx>)
    requires Lookup(s.data, sym).Some?
    ensures r.Some? ==> r.value.quantity > 0 && r == Route(s, sym, action, quantity, price, env)
  {
    var r := Route(s, sym, action, quantity, price, env);
    if r.Some? && r.value.quantity <= 0 then None else r
  }

  /** `place_order` with the guard in force and the intended matcher: it books only
      orders of a positive quantity, and only orders the code as written books too. */
  function PlaceOrderGuarded(s: State, sym: string, action: Action, quantity: int, price: real, env: Env): (p: Placed)
    requires Lookup(s.data, sym).Some? && ValidIndices(s.book)
    ensures p.order.None? ==> p.state == s
    ensures p.order.Some? ==> && p.order.value.quantity > 0 && p.order.value.symbol == sym
                              && p.order.value.action == action && p.order.value.price == price
    ensures p.order.Some? ==> p.state.data == DataAfter(s.data, p.order.value)
    ensures p.order.Some? ==> var w := PlaceOrder(s, sym, action, quantity, price, env);
      w.order.Some? && w.order.value.quantity == p.order.value.quantity
      && w.order.value.status == p.order.value.status && w.order.value.orderId == p.order.value.orderId
  {
    match RouteGuarded(s, sym, action, quantity, price, env)
    case None => Placed(s, None)
    case Some(tx) => Commit(s, tx, NoSync)
  }

  lemma AggAfterSound(a: Agg, action: Action, q: int, price: real)
    requires Sound(a) && q >= 0
    ensures Sound(AggAfter(a, action, q, price))
    ensures action == Buy ==> AggAfter(a, action, q, price).cost == a.cost + q as real * price
  {
    match action
    case Buy => BuyKeepsSound(a, q, price);
    case Sell => SellKeepsSound(a, q);
    case OtherAction(_) =>
  }

  lemma DataAfterKeepsSound(data: seq<Entry>, tx: Tx)
    requires Lookup(data, tx.symbol).Some? && AllSound(data) && tx.quantity > 0
    ensures AllSound(DataAfter(data, tx))
  {
    if !tx.action.OtherAction? {
      var a := Lookup(data, tx.symbol).value;
      LookupSound(data, tx.symbol);
      StepSound(data, tx.symbol, a, tx.action, tx.quantity, tx.price);
    }
  }

  lemma DataAfterFunds(data: seq<Entry>, tx: Tx)
    requires Lookup(data, tx.symbol).Some? && AllSound(data) && tx.quantity > 0 && tx.action == Buy
    ensures UsedFunds(DataAfter(data, tx)) == UsedFunds(data) + tx.quantity as real * tx.price
  {
    var a := Lookup(data, tx.symbol).value;
    LookupSound(data, tx.symbol);
    StepFunds(data, tx.symbol, a, tx.action, tx.quantity, tx.price);
  }

  lemma StepSound(data: seq<Entry>, sym: string, a: Agg, action: Action, q: int, price: real)
    requires AllSound(data) && Sound(a) && q >= 0
    ensures AllSound(Update(data, sym, AggAfter(a, action, q, price)))
  {
    AggAfterSound(a, action, q, price);
    UpdateAllSound(data, sym, AggAfter(a, action, q, price));
  }

  lemma StepFunds(data: seq<Entry>, sym: string, a: Agg, action: Action, q: int, price: real)
    requires Lookup(data, sym) == Some(a) && Sound(a) && q >= 0
    ensures action == Buy ==> UsedFunds(Update(data, sym, AggAfter(a, action, q, price))) == UsedFunds(data) + q as real * price
  {
    AggAfterSound(a, action, q, price);
    UpdateUsedFunds(data, sym, AggAfter(a, action, q, price));
  }

  /** With the guard, every order keeps each aggregate's bookkeeping identity, and the
      funds in use move by exactly the amount of a buy. */
  lemma GuardedKeepsAggregates(s: State, sym: string, action: Action, quantity: int, price: real, env: Env)
    requires Lookup(s.data, sym).Some? && ValidIndices(s.book) && AllSound(s.data)
    ensures var p := PlaceOrderGuarded(s, sym, action, quantity, price, env);
      && AllSound(p.state.data)
      && (p.order.Some? && action == Buy ==> UsedFunds(p.state.data) == UsedFunds(s.data) + p.order.value.quantity as real * price)
  {
    var p := PlaceOrderGuarded(s, sym, action, quantity, price, env);
    if p.order.Some? {
      var tx := p.order.value;
      DataAfterKeepsSound(s.data, tx);
      if action == Buy {
        DataAfterFunds(s.data, tx);
      }
    }
  }

  /** With the guard and the intended matcher, a buy or sell keeps the ledger
      rebuildable and free of negative lots. */
  lemma GuardedKeepsLedger(s: State, sym: string, action: Action, quantity: int, price: real, env: Env)
    requires Lookup(s.data, sym).Some? && Consistent(s.book) && NonNegativeLots(s.book)
    requires action == Buy || action == Sell
    ensures ValidIndices(s.book)
    ensures Consistent(PlaceOrderGuarded(s, sym, action, quantity, price, env).state.book)
    ensures NonNegativeLots(PlaceOrderGuarded(s, sym, action, quantity, price, env).state.book)
  {
    ConsistentValid(s.book);
    var r := RouteGuarded(s, sym, action, quantity, price, env);
    if r.Some? {
      BookKeepsLedger(s.book, r.value);
    }
  }

  /** A broker holding: `available_quantity`, when the broker reports it. */
  datatype Holding = Holding(available: Option<int>)

  datatype SellReply =
    | NoPosition
    | OverAvailable(requested: int, available: int)
    | NoQuote
    | Sold(order: Tx)
    | Unknown

  /** `sell_stock(symbol, quantity)`: refuse without a broker position or above the
      available quantity, then sell at the live price through `place_order`. Both of
      `place_order`'s successes (broker and simulated) come back as a sale. */
  function SellStock(s: State, sym: string, quantity: int, holdings: map<string, Holding>,
                     quote: Option<real>, env: Env): (r: (SellReply, State))
    requires Lookup(s.data, sym).Some? && ValidIndices(s.book)
    ensures !r.0.Sold? && !r.0.Unknown? ==> r.1 == s
  {
    if sym !in holdings then (NoPosition, s)
    else if quantity > holdings[sym].available.GetOr(0) then
      (OverAvailable(quantity, holdings[sym].available.GetOr(0)), s)
    else if quote.None? then (NoQuote, s)
    else
      var p := PlaceOrder(s, sym, Sell, quantity, quote.value, env);
      if p.order.Some? then (Sold(p.order.value), p.state) else (Unknown, s)
  }

  /** A sale goes through only for a symbol the broker holds and a quantity within
      what is available; it is booked at the quoted price for exactly the requested
      quantity. */
  lemma SellStockGuard(s: State, sym: string, quantity: int, holdings: map<string, Holding>, quote: Option<real>, env: Env)
    requires Lookup(s.data, sym).Some? && ValidIndices(s.book)
    ensures var r := SellStock(s, sym, quantity, holdings, quote, env);
      && (r.0 == NoPosition <==> sym !in holdings)
      && (r.0.OverAvailable? <==> sym in holdings && quantity > holdings[sym].available.GetOr(0))
      && (r.0.Sold? ==> sym in holdings && quantity <= holdings[sym].available.GetOr(0) && quote.Some?
                        && r.0.order.action == Sell && r.0.order.quantity == quantity && r.0.order.price == quote.value)
      && (r.0.Sold? && quantity <= 0 ==> r.0.order.status == Simulated)
  {
    if sym in holdings && quantity <= holdings[sym].available.GetOr(0) && quote.Some? {
      PlaceOrderOutcome(s, sym, Sell, quantity, quote.value, env);
    }
  }
}

=== FILE: order_book.dfy ===
/** The ledger write both monitor scripts' `place_order` make once an order is
    decided, on the broker path and on the simulated fallback alike. */
module OrderBook {
  import opened Wrappers
  import opened Ledger
  import opened Fifo
  import opened FifoProperties
  import opened Text

  /** What the broker call did: returned an order (with or without an `order_id`
      attribute) or raised. */
  datatype Broker = Accepted(orderId: Option<string>) | Rejected

  const MockPrefix: string := "mock_order_"

  /** The id of a simulated order placed at `int(time.time()) == seconds`: the prefix,
      then the seconds in decimal, which read back as `seconds`. */
  function MockId(seconds: nat): (id: string)
    ensures |id| > |MockPrefix| && id[..|MockPrefix|] == MockPrefix
    ensures forall k :: |MockPrefix| <= k < |id| ==> IsDigit(id[k])
    ensures DigitsValue(id[|MockPrefix|..]) == seconds
  {
    DigitsRoundTrip(seconds);
    var id := MockPrefix + NatToDigits(seconds);
    assert id[|MockPrefix|..] == NatToDigits(seconds);
    id
  }

  /** Two simulated orders share an id exactly when they were placed in the same
      second. */
  lemma MockIdInjective(a: nat, b: nat)
    ensures MockId(a) == MockId(b) <==> a == b
  {
    var p := |MockPrefix|;
    if MockId(a) == MockId(b) {
      assert MockId(a)[p..] == MockId(b)[p..];
    }
  }

  /** The id of an accepted broker order. */
  function BrokerId(orderId: Option<string>): string {
    orderId.GetOr("unknown")
  }

  datatype Booked = Booked(book: Book, record: Tx)

  /** Record the order `tx`: a sell is matched against the open lots first and carries
      the profit, percent and matched buys; anything else is also appended to its
      symbol's open lots (the `else` branch does not check for 'buy'). */
  function BookOrder(b: Book, tx: Tx, mode: SyncMode): (r: Booked)
    requires ValidIndices(b)
    ensures r.record == tx.(realized := r.record.realized)
    ensures |r.book.history| == |b.history| + 1 && r.book.history[|b.history|] == r.record
    ensures tx.action != Sell ==> r.book == Record(b, tx, true) && r.record == tx
  {
    if tx.action == Sell then
      var outcome := CalculateProfit(b, tx.symbol, tx.quantity, tx.price, mode);
      var d := outcome.details;
      var sold := tx.(realized := Some(Realized(d.totalProfit, d.totalProfitPercent, d.matchedBuys)));
      Booked(Record(outcome.book, sold, false), sold)
    else Booked(Record(b, tx, true), tx)
  }

  /** With the intended matcher, booking a buy or a sell of a non-negative quantity
      keeps the ledger rebuildable and free of negative lots. */
  lemma BookKeepsLedger(b: Book, tx: Tx)
    requires Consistent(b) && NonNegativeLots(b)
    requires (tx.action == Buy || tx.action == Sell) && !tx.closed && tx.quantity >= 0
    ensures ValidIndices(b)
    ensures Consistent(BookOrder(b, tx, NoSync).book) && NonNegativeLots(BookOrder(b, tx, NoSync).book)
  {
    ConsistentValid(b);
    var r := BookOrder(b, tx, NoSync);
    if tx.action == Sell {
      MatchKeepsLedger(b, tx.symbol, tx.quantity, tx.price);
      var outcome := CalculateProfit(b, tx.symbol, tx.quantity, tx.price, NoSync);
      RecordKeepsConsistent(outcome.book, r.record, false);
      RecordKeepsNonNegative(outcome.book, r.record, false);
    } else {
      RecordKeepsConsistent(b, tx, true);
      RecordKeepsNonNegative(b, tx, true);
    }
  }

  /** A record whose action is neither buy nor sell also joins the open lots, where the
      rebuild on reload does not put it: the in-memory lots then differ from the ones a
      restart would see. */
  lemma OtherActionBreaksReload(b: Book, tx: Tx, mode: SyncMode)
    requires Consistent(b) && tx.action.OtherAction?
    ensures ValidIndices(b)
    ensures !Consistent(BookOrder(b, tx, mode).book)
  {
    ConsistentValid(b);
    RecordKeepsConsistent(b, tx, true);
  }
}

=== FILE: order_format.dfy ===
/** The string classifiers of order.py's `OrderFormatter`: `format_side`,
    `format_order_type` and `format_status` turn a broker value, already rendered with
    `str(...)`, into a Chinese label. Each strips surrounding white space, tries an exact
    key of its table, then the key with surrounding brackets stripped, then fuzzy and
    keyword rules, and finally gives the stripped input back. */
module OrderFormat {
  import opened Wrappers
  import opened Text

  /** A Python dict literal: its (key, label) pairs in insertion order. */
  type Table = seq<(string, string)>

  const Unknown: string := "未知"

  /** Status names as plain words, order.py:417-440. */
  const StatusNames: Table := [
    ("New", "新建"),
    ("Filled", "已成交"),
    ("PartiallyFilled", "部分成交"),
    ("Cancelled", "已取消"),
    ("Rejected", "已拒绝"),
    ("PendingCancel", "取消中"),
    ("PendingReplace", "修改中"),
    ("Replaced", "已修改"),
    ("Expired", "已过期"),
    ("PendingNew", "待新建"),
    ("Suspended", "已暂停"),
    ("Calculated", "已计算"),
    ("DoneForDay", "当日完成"),
    ("Restated", "已重申"),
    ("PendingCancelReplace", "取消修改中"),
    ("NotReported", "未报"),
    ("PendingSubmit", "未报"),
    ("Submitted", "已报"),
    ("PreSubmitted", "预报"),
    ("Stopped", "已停止"),
    ("PartiallyFilledCancelPending", "部分成交已报取消"),
    ("CancelPending", "已报取消"),
    ("PartiallyFilledDoneForDay", "部分成交当日有效")
  ]

  /** Status names qualified by their enum class, order.py:442-469. */
  const StatusQualified: Table := [
    ("OrderStatus.New", "新建"),
    ("OrderStatus.Filled", "已成交"),
    ("OrderStatus.PartiallyFilled", "部分成交"),
    ("OrderStatus.Cancelled", "已取消"),
    ("OrderStatus.Rejected", "已拒绝"),
    ("OrderStatus.PendingCancel", "取消中"),
    ("OrderStatus.PendingReplace", "修改中"),
    ("OrderStatus.Replaced", "已修改"),
    ("OrderStatus.Expired", "已过期"),
    ("OrderStatus.PendingNew", "待新建"),
    ("OrderStatus.Suspended", "已暂停"),
    ("OrderStatus.Calculated", "已计算"),
    ("OrderStatus.DoneForDay", "当日完成"),
    ("OrderStatus.Restated", "已重申"),
    ("OrderStatus.PendingCancelReplace", "取消修改中"),
    ("OrderStatus.NotReported", "未报"),
    ("OrderStatus.PendingSubmit", "未报"),
    ("OrderStatus.Submitted", "已报"),
    ("OrderStatus.PreSubmitted", "预报"),
    ("OrderStatus.Stopped", "已停止"),
    ("OrderStatus.PartiallyFilledCancelPending", "部分成交已报取消"),
    ("OrderStatus.CancelPending", "已报取消"),
    ("OrderStatus.PartiallyFilledDoneForDay", "部分成交当日有效"),
    ("<OrderStatus.New>", "新建"),
    ("<OrderStatus.Filled>", "已成交"),
    ("<OrderStatus.PartiallyFilled>", "部分成交")
  ]

  /** Numeric status codes, order.py:471-476. */
  const StatusCodes: Table := [
    ("0", "新建"),
    ("1", "已成交"),
    ("2", "部分成交"),
    ("3", "已取消"),
    ("4", "已拒绝"),
    ("5", "取消中")
  ]

  /** STATUS_MAP, in insertion order. */
  const StatusMap: Table := StatusNames + StatusQualified + StatusCodes

  /** ORDER_TYPE_MAP, order.py:480-519. */
  const OrderTypeMap: Table := [
    ("LO", "限价单"),
    ("MO", "市价单"),
    ("STP", "止损单"),
    ("STP_LIMIT", "止损限价单"),
    ("TRAIL", "跟踪止损单"),
    ("TRAIL_LIMIT", "跟踪止损限价单"),
    ("Limit", "限价单"),
    ("Market", "市价单"),
    ("Stop", "止损单"),
    ("StopLimit", "止损限价单"),
    ("MarketOnClose", "收盘市价单"),
    ("MarketOnOpen", "开盘市价单"),
    ("TrailingStop", "跟踪止损单"),
    ("TrailingStopLimit", "跟踪止损限价单"),
    ("LimitIfTouched", "限价触价单"),
    ("OrderType.LIMIT", "限价单"),
    ("OrderType.LO", "限价单"),
    ("OrderType.MARKET", "市价单"),
    ("OrderType.MO", "市价单"),
    ("OrderType.STOP", "止损单"),
    ("OrderType.STP", "止损单"),
    ("OrderType.STOP_LIMIT", "止损限价单"),
    ("OrderType.STP_LIMIT", "止损限价单"),
    ("OrderType.MARKET_ON_CLOSE", "收盘市价单"),
    ("OrderType.MARKET_ON_OPEN", "开盘市价单"),
    ("OrderType.TRAIL", "跟踪止损单"),
    ("OrderType.TRAIL_LIMIT", "跟踪止损限价单"),
    ("<OrderType.LIMIT>", "限价单"),
    ("<OrderType.MARKET>", "市价单"),
    ("1", "限价单"),
    ("2", "市价单"),
    ("3", "止损单"),
    ("4", "止损限价单")
  ]

  /** SIDE_MAP, order.py:522-543. */
  const SideMap: Table := [
    ("Buy", "买入"),
    ("Sell", "卖出"),
    ("BUY", "买入"),
    ("SELL", "卖出"),
    ("B", "买入"),
    ("S", "卖出"),
    ("OrderSide.BUY", "买入"),
    ("OrderSide.Buy", "买入"),
    ("OrderSide.SELL", "卖出"),
    ("OrderSide.Sell", "卖出"),
    ("Side.BUY", "买入"),
    ("Side.Sell", "卖出"),
    ("<OrderSide.BUY>", "买入"),
    ("<OrderSide.SELL>", "卖出"),
    ("1", "买入"),
    ("2", "卖出")
  ]

  function Keys(t: Table): (ks: seq<string>)
    ensures |ks| == |t| && forall i :: 0 <= i < |t| ==> ks[i] == t[i].0
  {
    seq(|t|, i requires 0 <= i < |t| => t[i].0)
  }

  function Labels(t: Table): (ls: seq<string>)
    ensures |ls| == |t| && forall i :: 0 <= i < |t| ==> ls[i] == t[i].1
  {
    seq(|t|, i requires 0 <= i < |t| => t[i].1)
  }

  /** Index of the first entry with key `k` at or after `from`. */
  function KeyIndex(t: Table, k: string, from: nat): (r: Option<nat>)
    ensures r.Some? ==> from <= r.value < |t| && t[r.value].0 == k
    ensures r.Some? ==> forall j :: from <= j < r.value ==> t[j].0 != k
    ensures r.None? ==> forall j :: from <= j < |t| ==> t[j].0 != k
    decreases |t| - from
  {
    if from >= |t| then None
    else if t[from].0 == k then Some(from)
    else KeyIndex(t, k, from + 1)
  }

  /** `k in table` and `table[k]`; the keys of each table are distinct, so the first
      entry with the key is the only one. */
  function Lookup(t: Table, k: string): (r: Option<string>)
    ensures r.None? <==> k !in Keys(t)
    ensures r.Some? ==> r.value in Labels(t)
  {
    match KeyIndex(t, k, 0)
    case None => None
    case Some(i) => Some(t[i].1)
  }

  /** A key's lookup gives the label stored with its entry. */
  lemma LookupFinds(t: Table, k: string, i: nat)
    requires i < |t| && t[i].0 == k
    requires forall j :: 0 <= j < i ==> t[j].0 != k
    ensures Lookup(t, k) == Some(t[i].1)
  {
  }

  /** The two exact lookups every formatter starts with: the value itself, then the
      value with `<>[](){}` stripped from both ends. */
  function TableHit(t: Table, s: string): (r: Option<string>)
    ensures r.Some? <==> s in Keys(t) || StripBrackets(s) in Keys(t)
    ensures s in Keys(t) ==> r == Lookup(t, s)
    ensures r.Some? ==> r.value in Labels(t)
  {
    match Lookup(t, s)
    case Some(v) => Some(v)
    case None => Lookup(t, StripBrackets(s))
  }

  /** `for k, v in table.items(): if k in s`: the first key, in table order, that is a
      substring of `s`. */
  function FirstKeyIn(t: Table, s: string, from: nat): (r: Option<nat>)
    ensures r.Some? ==> from <= r.value < |t| && Contains(s, t[r.value].0)
    ensures r.Some? ==> forall j :: from <= j < r.value ==> !Contains(s, t[j].0)
    ensures r.None? ==> forall j :: from <= j < |t| ==> !Contains(s, t[j].0)
    decreases |t| - from
  {
    if from >= |t| then None
    else if Find(s, t[from].0) then Some(from)
    else FirstKeyIn(t, s, from + 1)
  }

  /** The longest key among the first `n` entries that is a substring of `s`, the
      earliest of equally long ones. */
  function LongestKeyIn(t: Table, s: string, n: nat): (r: Option<nat>)
    requires n <= |t|
    ensures r.Some? ==> r.value < n && Contains(s, t[r.value].0)
    ensures r.Some? ==> forall j :: 0 <= j < n && Contains(s, t[j].0) ==> |t[j].0| <= |t[r.value].0|
    ensures r.None? <==> forall j :: 0 <= j < n ==> !Contains(s, t[j].0)
  {
    if n == 0 then None
    else
      var best := LongestKeyIn(t, s, n - 1);
      if Find(s, t[n - 1].0) && (best.None? || |t[best.value].0| < |t[n - 1].0|) then Some(n - 1)
      else best
  }

  // ---------------------------------------------------------------- format_side

  /** `format_side` after `str(side).strip()`. */
  function SideOf(s: string): (r: string)
    ensures TableHit(SideMap, s).Some? ==> r == TableHit(SideMap, s).value
    ensures TableHit(SideMap, s).None? && (Contains(Lower(s), "buy") || s == "B") ==> r == "买入"
    ensures TableHit(SideMap, s).None? && !(Contains(Lower(s), "buy") || s == "B") ==>
      r == (if Contains(Lower(s), "sell") || s == "S" then "卖出" else s)
    ensures r in Labels(SideMap) || r == s
  {
    match TableHit(SideMap, s)
    case Some(v) => v
    case None =>
      var lower := Lower(s);
      SideLabels();
      if Find(lower, "buy") || s == "B" then "买入"
      else if Find(lower, "sell") || s == "S" then "卖出"
      else s
  }

  /** Every label of the side table is one of the two side names. */
  lemma SideMapLabels()
    ensures forall l :: l in Labels(SideMap) ==> l == "买入" || l == "卖出"
  {
    forall i | 0 <= i < |SideMap| ensures SideMap[i].1 == "买入" || SideMap[i].1 == "卖出" { }
  }

  /** What each possible answer of `format_side` means, for every value: "买入" comes
      from a buy entry of the table, a "buy" in the value, the letter "B" or the value
      "买入" itself, and likewise for "卖出"; any other answer is the value unchanged,
      which then matched no rule at all. */
  lemma SideOfMeaning(s: string)
    ensures SideOf(s) == "买入" ==>
      TableHit(SideMap, s) == Some("买入") || Contains(Lower(s), "buy") || s == "B" || s == "买入"
    ensures SideOf(s) == "卖出" ==>
      TableHit(SideMap, s) == Some("卖出") || Contains(Lower(s), "sell") || s == "S" || s == "卖出"
    ensures SideOf(s) != "买入" && SideOf(s) != "卖出" ==>
      && SideOf(s) == s && TableHit(SideMap, s).None?
      && !Contains(Lower(s), "buy") && !Contains(Lower(s), "sell") && s != "B" && s != "S"
  {
    SideMapLabels();
  }

  /** The single letters are table keys, so the `== "B"` and `== "S"` tests of the
      fallback never decide anything. */
  lemma SideLetterCodes()
    ensures TableHit(SideMap, "B") == Some("买入") && SideOf("B") == "买入"
    ensures TableHit(SideMap, "S") == Some("卖出") && SideOf("S") == "卖出"
  {
    SideLetterB();
    SideLetterS();
  }

  lemma SideLetterB()
    ensures TableHit(SideMap, "B") == Some("买入")
  {
    assert "B" in Keys(SideMap) by {
      assert Keys(SideMap)[4] == "B";
    }
    LookupFinds(SideMap, "B", 4);
  }

  lemma SideLetterS()
    ensures TableHit(SideMap, "S") == Some("卖出")
  {
    assert "S" in Keys(SideMap) by {
      assert Keys(SideMap)[5] == "S";
    }
    LookupFinds(SideMap, "S", 5);
  }

  /** Both fallback labels are labels of the table. */
  lemma SideLabels()
    ensures "买入" in Labels(SideMap) && "卖出" in Labels(SideMap)
  {
    assert Labels(SideMap)[0] == "买入" && Labels(SideMap)[1] == "卖出";
  }

  function FormatSide(side: Option<string>): (r: string)
    ensures side.None? ==> r == Unknown
    ensures side.Some? ==> r in Labels(SideMap) || r == Strip(side.value)
  {
    match side
    case None => Unknown
    case Some(raw) => SideOf(Strip(raw))
  }

  // ---------------------------------------------------------- format_order_type

  const StopLimitOrder: string := "止损限价单"
  const TrailingStopLimitOrder: string := "跟踪止损限价单"
  const LimitOrder: string := "限价单"
  const MarketOnCloseOrder: string := "收盘市价单"
  const MarketOnOpenOrder: string := "开盘市价单"
  const MarketOrder: string := "市价单"
  const StopOrder: string := "止损单"
  const TrailingStopOrder: string := "跟踪止损单"
  const LimitIfTouchedOrder: string := "限价触价单"

  /** Every label the keyword rules can give. */
  const TypeWords: set<string> := {StopLimitOrder, TrailingStopLimitOrder, LimitOrder, MarketOnCloseOrder,
    MarketOnOpenOrder, MarketOrder, StopOrder, TrailingStopOrder, LimitIfTouchedOrder}

  /** Some word the order-type keyword rules react to occurs. */
  predicate HasTypeWord(lower: string) {
    Contains(lower, "stop") || Contains(lower, "stp") || Contains(lower, "limit") || Contains(lower, "lo")
    || Contains(lower, "trail") || Contains(lower, "market") || Contains(lower, "mo") || Contains(lower, "touch")
  }

  /** The keyword rules of `format_order_type` on the lower-cased value, first rule
      first; `None` when none applies. */
  function TypeKeyword(lower: string): (r: Option<string>)
    ensures r.Some? <==> HasTypeWord(lower)
    ensures Contains(lower, "limit") ==> r.Some? && r.value in {StopLimitOrder, TrailingStopLimitOrder, LimitOrder}
    ensures r.Some? ==> r.value in TypeWords
  {
    if Find(lower, "stop") && Find(lower, "limit") then Some(StopLimitOrder)
    else if Find(lower, "trail") && Find(lower, "limit") then Some(TrailingStopLimitOrder)
    else if Find(lower, "limit") || Find(lower, "lo") then Some(LimitOrder)
    else if Find(lower, "market") || Find(lower, "mo") then
      if Find(lower, "close") then Some(MarketOnCloseOrder)
      else if Find(lower, "open") then Some(MarketOnOpenOrder)
      else Some(MarketOrder)
    else if Find(lower, "stop") || Find(lower, "stp") then Some(StopOrder)
    else if Find(lower, "trail") then Some(TrailingStopOrder)
    else if Find(lower, "touch") then Some(LimitIfTouchedOrder)
    else None
  }

  /** `format_order_type` after `str(order_type).strip()`. */
  function OrderTypeOf(s: string): (r: string)
    ensures TableHit(OrderTypeMap, s).Some? ==> r == TableHit(OrderTypeMap, s).value
    ensures TableHit(OrderTypeMap, s).None? && !HasTypeWord(Lower(s)) ==> r == s
    ensures r in Labels(OrderTypeMap) || r in TypeWords || r == s
  {
    match TableHit(OrderTypeMap, s)
    case Some(v) => v
    case None => TypeKeyword(Lower(s)).GetOr(s)
  }

  function FormatOrderType(orderType: Option<string>): (r: string)
    ensures orderType.None? ==> r == Unknown
    ensures orderType.Some? ==> r in Labels(OrderTypeMap) || r in TypeWords || r == Strip(orderType.value)
  {
    match orderType
    case None => Unknown
    case Some(raw) => OrderTypeOf(Strip(raw))
  }

  /** "close" contains "lo", so every value mentioning "close" is taken by the limit
      rule first: the keyword rules never answer "market on close". */
  lemma CloseRuleUnreachable(lower: string)
    ensures TypeKeyword(lower) != Some(MarketOnCloseOrder)
  {
    assert OccursAt("close", "lo", 1);
    ContainsVia(lower, "close", "lo");
  }

  /** A market-on-close value spelled outside the table is labelled a limit order. */
  lemma MarketOnCloseReadAsLimit()
    ensures OrderTypeOf("MARKET_ON_CLOSE") == LimitOrder
  {
    MarketOnCloseMisses();
    LowerMarketOnClose();
    MarketOnCloseKeyword();
  }

  lemma MarketOnCloseKeyword()
    ensures TypeKeyword("market_on_close") == Some(LimitOrder)
    ensures TypeKeywordIntended("market_on_close") == Some(MarketOnCloseOrder)
  {
    var lower := "market_on_close";
    ContainsChars(lower, "limit");
    assert "limit"[1] !in lower;
    ContainsChars(lower, "stop");
    assert "stop"[3] !in lower;
    assert OccursAt(lower, "lo", 11);
    assert OccursAt(lower, "market", 0);
    assert OccursAt(lower, "close", 10);
  }

  /** "MARKET_ON_CLOSE" is not a key of the order-type table, bracketed or not. */
  lemma MarketOnCloseMisses()
    ensures TableHit(OrderTypeMap, "MARKET_ON_CLOSE").None?
  {
    assert "MARKET_ON_CLOSE" !in Keys(OrderTypeMap);
    assert StripBrackets("MARKET_ON_CLOSE") == "MARKET_ON_CLOSE";
  }

  // Literal facts the solver does not unfold on its own: the lower-cased form of one
  // table name, each proved on its own so that every proof stays small.

  lemma LowerMarketOnClose()
    ensures Lower("MARKET_ON_CLOSE") == "market_on_close"
  {
    LowerMarket();
    LowerOnClose();
    JoinMarketOnClose();
    LowerAppend("MARKET_", "ON_CLOSE");
  }

  lemma JoinMarketOnClose()
    ensures "MARKET_" + "ON_CLOSE" == "MARKET_ON_CLOSE"
    ensures "market_" + "on_close" == "market_on_close"
  {
  }

  lemma LowerMarket()
    ensures Lower("MARKET_") == "market_"
  {
  }

  lemma LowerOnClose()
    ensures Lower("ON_CLOSE") == "on_close"
  {
  }

  /** The rules as meant: the broker abbreviations "lo" and "mo" name an order type
      only as the whole value, not as any two letters inside a word. */
  function TypeKeywordIntended(lower: string): (r: Option<string>)
    ensures Contains(lower, "market") && Contains(lower, "close") && !Contains(lower, "limit") ==>
      r == Some(MarketOnCloseOrder)
    ensures !Contains(lower, "lo") && !Contains(lower, "mo") ==> r == TypeKeyword(lower)
  {
    if Find(lower, "stop") && Find(lower, "limit") then Some(StopLimitOrder)
    else if Find(lower, "trail") && Find(lower, "limit") then Some(TrailingStopLimitOrder)
    else if Find(lower, "limit") || lower == "lo" then Some(LimitOrder)
    else if Find(lower, "market") || lower == "mo" then
      if Find(lower, "close") then Some(MarketOnCloseOrder)
      else if Find(lower, "open") then Some(MarketOnOpenOrder)
      else Some(MarketOrder)
    else if Find(lower, "stop") || Find(lower, "stp") then Some(StopOrder)
    else if Find(lower, "trail") then Some(TrailingStopOrder)
    else if Find(lower, "touch") then Some(LimitIfTouchedOrder)
    else None
  }

  function OrderTypeOfIntended(s: string): (r: string)
    ensures TableHit(OrderTypeMap, s).Some? ==> r == OrderTypeOf(s)
  {
    match TableHit(OrderTypeMap, s)
    case Some(v) => v
    case None => TypeKeywordIntended(Lower(s)).GetOr(s)
  }

  lemma MarketOnCloseIntended()
    ensures OrderTypeOfIntended("MARKET_ON_CLOSE") == MarketOnCloseOrder
  {
    MarketOnCloseMisses();
    LowerMarketOnClose();
    MarketOnCloseKeyword();
  }

  // -------------------------------------------------------------- format_status

  const PartFilled: string := "部分成交"
  const Filled: string := "已成交"

  /** Every label the status keyword rules can give. */
  const StatusWords: set<string> := {PartFilled, Filled, "未报", "已报取消", "修改中", "待处理", "已取消",
    "已拒绝", "已过期", "已暂停", "当日完成", "已修改", "已重申", "已计算", "预报", "已报", "已停止", "新建"}

  /** Some word the status keyword rules react to occurs. */
  predicate HasStatusWord(lower: string) {
    Contains(lower, "fill") || Contains(lower, "pend") || Contains(lower, "cancel") || Contains(lower, "reject")
    || Contains(lower, "expir") || Contains(lower, "suspend") || (Contains(lower, "done") && Contains(lower, "day"))
    || Contains(lower, "replace") || Contains(lower, "restat") || Contains(lower, "calcul")
    || Contains(lower, "submitt") || Contains(lower, "pre") || Contains(lower, "stop")
    || Contains(lower, "notreported") || Contains(lower, "not_report") || Contains(lower, "not report")
    || Contains(lower, "new")
  }

  /** The keyword rules of `format_status` on the lower-cased value, first rule first;
      `None` when none applies. */
  function StatusKeyword(lower: string): (r: Option<string>)
    ensures r.Some? <==> HasStatusWord(lower)
    ensures r.Some? ==> r.value in StatusWords
    ensures Contains(lower, "fill") ==> r == Some(if Contains(lower, "part") then PartFilled else Filled)
  {
    if Find(lower, "part") && Find(lower, "fill") then Some(PartFilled)
    else if Find(lower, "fill") then Some(Filled)
    else if Find(lower, "pend") then
      if Find(lower, "submit") then Some("未报")
      else if Find(lower, "cancel") then Some("已报取消")
      else if Find(lower, "replace") then Some("修改中")
      else Some("待处理")
    else if Find(lower, "cancel") then Some("已取消")
    else if Find(lower, "reject") then Some("已拒绝")
    else if Find(lower, "expir") then Some("已过期")
    else if Find(lower, "suspend") then Some("已暂停")
    else if Find(lower, "done") && Find(lower, "day") then Some("当日完成")
    else if Find(lower, "replace") then Some("已修改")
    else if Find(lower, "restat") then Some("已重申")
    else if Find(lower, "calcul") then Some("已计算")
    else if Find(lower, "submitt") then
      if Find(lower, "pre") then Some("预报") else Some("已报")
    else if Find(lower, "pre") then Some("预报")
    else if Find(lower, "stop") then Some("已停止")
    else if Find(lower, "notreported") || Find(lower, "not_report") || Find(lower, "not report") then Some("未报")
    else if Find(lower, "new") then Some("新建")
    else None
  }

  /** The last resort of `format_status`: basic status names, lower-cased. */
  const LoopKeywords: seq<string> := ["New", "Filled", "PartiallyFilled", "Cancelled", "Rejected",
    "PendingCancel", "PendingReplace", "Expired", "NotReported"]

  /** The first basic name whose lower-cased form occurs, looked up in the status table
      with the value itself as default. */
  function KeywordLoop(lower: string, s: string, from: nat): (r: Option<string>)
    requires from <= |LoopKeywords|
    ensures r.None? <==> forall j :: from <= j < |LoopKeywords| ==> !Contains(lower, Lower(LoopKeywords[j]))
    ensures r.Some? ==> r.value in Labels(StatusMap) || r.value == s
    decreases |LoopKeywords| - from
  {
    if from == |LoopKeywords| then None
    else if Find(lower, Lower(LoopKeywords[from])) then Some(Lookup(StatusMap, LoopKeywords[from]).GetOr(s))
    else KeywordLoop(lower, s, from + 1)
  }

  /** `format_status` after `str(status).strip()`. */
  function StatusOf(s: string): (r: string)
    ensures TableHit(StatusMap, s).Some? ==> r == TableHit(StatusMap, s).value
    ensures r in Labels(StatusMap) || r in StatusWords || r == s
  {
    match TableHit(StatusMap, s)
    case Some(v) => v
    case None =>
      match FirstKeyIn(StatusMap, s, 0)
      case Some(i) =>
        assert Labels(StatusMap)[i] == StatusMap[i].1;
        StatusMap[i].1
      case None =>
        var lower := Lower(s);
        match StatusKeyword(lower)
        case Some(v) => v
        case None => KeywordLoop(lower, s, 0).GetOr(s)
  }

  function FormatStatus(status: Option<string>): (r: string)
    ensures status.None? ==> r == Unknown
    ensures status.Some? ==> r in Labels(StatusMap) || r in StatusWords || r == Strip(status.value)
  {
    match status
    case None => Unknown
    case Some(raw) => StatusOf(Strip(raw))
  }

  /** Without an exact hit, the label is that of the first key in table order that
      occurs anywhere in the value, before any keyword rule is tried. */
  lemma StatusFuzzyFirst(s: string, i: nat)
    requires TableHit(StatusMap, s).None?
    requires i < |StatusMap| && Contains(s, StatusMap[i].0)
    requires forall j :: 0 <= j < i ==> !Contains(s, StatusMap[j].0)
    ensures StatusOf(s) == StatusMap[i].1
  {
    var r := FirstKeyIn(StatusMap, s, 0);
    assert r.Some? && r.value == i;
  }

  /** Each basic name of the last-resort loop contains a word of an earlier keyword
      rule, so the loop never runs to a match. */
  lemma KeywordLoopUnreachable(lower: string, s: string)
    ensures StatusKeyword(lower).None? ==> KeywordLoop(lower, s, 0).None?
  {
    forall j | 0 <= j < |LoopKeywords|
      ensures Contains(lower, Lower(LoopKeywords[j])) ==> HasStatusWord(lower)
    {
      LoopKeywordCovered(lower, j);
      TriggerIsStatusWord(lower, j);
    }
  }

  /** The keyword-rule word found inside each basic name. */
  const LoopTriggers: seq<string> := ["new", "fill", "fill", "cancel", "reject", "pend", "pend", "expir", "notreported"]

  lemma TriggerIsStatusWord(lower: string, j: nat)
    requires j < |LoopTriggers|
    ensures Contains(lower, LoopTriggers[j]) ==> HasStatusWord(lower)
  {
  }

  lemma LoopKeywordCovered(lower: string, j: nat)
    requires j < |LoopKeywords|
    ensures Contains(lower, Lower(LoopKeywords[j])) ==> Contains(lower, LoopTriggers[j])
  {
    var name, word := LoopKeywords[j], LoopTriggers[j];
    var at := if j == 2 then 9 else 0;
    TriggerInside(j);
    assert OccursAt(Lower(name), word, at);
    ContainsVia(lower, Lower(name), word);
  }

  /** Where the rule word sits inside each lower-cased basic name. */
  lemma TriggerInside(j: nat)
    requires j < |LoopKeywords|
    ensures OccursAt(Lower(LoopKeywords[j]), LoopTriggers[j], if j == 2 then 9 else 0)
  {
    if j == 0 {
      InsideNew();
    } else if j == 1 {
      InsideFilled();
    } else if j == 2 {
      InsidePartiallyFilled();
    } else if j == 3 {
      InsideCancelled();
    } else if j == 4 {
      InsideRejected();
    } else if j == 5 {
      InsidePendingCancel();
    } else if j == 6 {
      InsidePendingReplace();
    } else if j == 7 {
      InsideExpired();
    } else {
      InsideNotReported();
    }
  }

  // One literal fact per basic status name for `TriggerInside`: where its rule word
  // sits in the lower-cased name.

  lemma InsideNew()
    ensures OccursAt(Lower(LoopKeywords[0]), LoopTriggers[0], 0)
  {
    assert LoopKeywords[0] == "New" && LoopTriggers[0] == "new";
    NameHasWord("New", "new", 0);
  }

  lemma InsideFilled()
    ensures OccursAt(Lower(LoopKeywords[1]), LoopTriggers[1], 0)
  {
    assert LoopKeywords[1] == "Filled" && LoopTriggers[1] == "fill";
    NameHasWord("Filled", "fill", 0);
  }

  lemma InsidePartiallyFilled()
    ensures OccursAt(Lower(LoopKeywords[2]), LoopTriggers[2], 9)
  {
    assert LoopKeywords[2] == "PartiallyFilled" && LoopTriggers[2] == "fill";
    NameHasWord("PartiallyFilled", "fill", 9);
  }

  lemma InsideCancelled()
    ensures OccursAt(Lower(LoopKeywords[3]), LoopTriggers[3], 0)
  {
    assert LoopKeywords[3] == "Cancelled" && LoopTriggers[3] == "cancel";
    NameHasWord("Cancelled", "cancel", 0);
  }

  lemma InsideRejected()
    ensures OccursAt(Lower(LoopKeywords[4]), LoopTriggers[4], 0)
  {
    assert LoopKeywords[4] == "Rejected" && LoopTriggers[4] == "reject";
    NameHasWord("Rejected", "reject", 0);
  }

  lemma InsidePendingCancel()
    ensures OccursAt(Lower(LoopKeywords[5]), LoopTriggers[5], 0)
  {
    assert LoopKeywords[5] == "PendingCancel" && LoopTriggers[5] == "pend";
    NameHasWord("PendingCancel", "pend", 0);
  }

  lemma InsidePendingReplace()
    ensures OccursAt(Lower(LoopKeywords[6]), LoopTriggers[6], 0)
  {
    assert LoopKeywords[6] == "PendingReplace" && LoopTriggers[6] == "pend";
    NameHasWord("PendingReplace", "pend", 0);
  }

  lemma InsideExpired()
    ensures OccursAt(Lower(LoopKeywords[7]), LoopTriggers[7], 0)
  {
    assert LoopKeywords[7] == "Expired" && LoopTriggers[7] == "expir";
    NameHasWord("Expired", "expir", 0);
  }

  lemma InsideNotReported()
    ensures OccursAt(Lower(LoopKeywords[8]), LoopTriggers[8], 0)
  {
    assert LoopKeywords[8] == "NotReported" && LoopTriggers[8] == "notreported";
    LowerNotReported();
  }

  lemma LowerNotReported()
    ensures Lower("NotReported") == "notreported"
  {
    LowerNot();
    LowerReported();
    JoinNotReported();
    LowerAppend("Not", "Reported");
  }

  lemma JoinNotReported()
    ensures "Not" + "Reported" == "NotReported" && "not" + "reported" == "notreported"
  {
  }

  lemma LowerNot()
    ensures Lower("Not") == "not"
  {
  }

  lemma LowerReported()
    ensures Lower("Reported") == "reported"
  {
  }

  /** A lower-cased name contains the lower-cased form of each of its slices. */
  lemma NameHasWord(name: string, word: string, at: nat)
    requires at + |word| <= |name| && Lower(name[at..at + |word|]) == word
    ensures OccursAt(Lower(name), word, at)
  {
    assert Lower(name)[at..at + |word|] == Lower(name[at..at + |word|]);
  }

  /** The fuzzy scan reaches "Filled" before "PartiallyFilled": a partially filled
      status that is not spelled exactly as a key is labelled filled. */
  lemma PartiallyFilledReadAsFilled(s: string)
    requires TableHit(StatusMap, s).None?
    requires Contains(s, "PartiallyFilled") && !Contains(s, "New")
    ensures StatusOf(s) == Filled
  {
    assert OccursAt("PartiallyFilled", "Filled", 9);
    ContainsVia(s, "PartiallyFilled", "Filled");
    assert StatusMap[0].0 == "New" && StatusMap[1] == ("Filled", Filled);
    StatusFuzzyFirst(s, 1);
  }

  lemma PartiallyFilledExample()
    ensures StatusOf("Status.PartiallyFilled") == Filled
  {
    var s := "Status.PartiallyFilled";
    ExampleMissesTable();
    ExampleHasKey();
    ContainsChars(s, "New");
    assert "New"[0] !in s;
    PartiallyFilledReadAsFilled(s);
  }

  lemma ExampleMissesTable()
    ensures TableHit(StatusMap, "Status.PartiallyFilled").None?
  {
    var s := "Status.PartiallyFilled";
    assert s !in Keys(StatusMap);
    assert StripBrackets(s) == s;
  }

  lemma ExampleHasKey()
    ensures Contains("Status.PartiallyFilled", "PartiallyFilled")
  {
    var p := "PartiallyFilled";
    var s := "Status." + p;
    assert s == "Status.PartiallyFilled";
    assert s[7..7 + |p|] == p;
    assert OccursAt(s, p, 7);
  }

  /** The fuzzy scan as meant: the longest key that occurs wins, so a key is never
      chosen over a longer key that contains it. */
  function StatusOfIntended(s: string): (r: string)
    ensures TableHit(StatusMap, s).Some? ==> r == StatusOf(s)
  {
    match TableHit(StatusMap, s)
    case Some(v) => v
    case None =>
      match LongestKeyIn(StatusMap, s, |StatusMap|)
      case Some(i) => StatusMap[i].1
      case None =>
        var lower := Lower(s);
        match StatusKeyword(lower)
        case Some(v) => v
        case None => KeywordLoop(lower, s, 0).GetOr(s)
  }

  /** With the longest-key scan, a value containing "PartiallyFilled" is labelled by a
      key at least that long, never by the bare "Filled". */
  lemma PartiallyFilledIntended(s: string)
    requires TableHit(StatusMap, s).None?
    requires Contains(s, "PartiallyFilled")
    ensures LongestKeyIn(StatusMap, s, |StatusMap|).Some?
    ensures var i := LongestKeyIn(StatusMap, s, |StatusMap|).value;
      StatusOfIntended(s) == StatusMap[i].1 && |StatusMap[i].0| >= |"PartiallyFilled"| && i != 1
  {
    assert StatusMap[2].0 == "PartiallyFilled" && |StatusMap[1].0| == 6;
  }
}


=== FILE: position_aggregate.dfy ===
/** The simulated position kept per symbol in `stock_data` by
    stock_monitor_ollama_only.py: position value (`position`), share count
    (`position_quantity`) and `average_cost`. */
module PositionAggregate {

  datatype Agg = Agg(cost: real, quantity: int, avg: real)

  /** `initialize_stock_data`. */
  const Fresh: Agg := Agg(0.0, 0, 0.0)

  /** The bookkeeping identity the updates are meant to keep: a non-negative share
      count valued at the average cost, and no stale average once flat. */
  predicate Sound(a: Agg) {
    a.quantity >= 0 && a.cost == a.avg * a.quantity as real && (a.quantity == 0 ==> a.avg == 0.0)
  }

  /** The buy update: the shares and their cost add up, and the average is whatever
      values the new share count at the new total cost (zero when nothing is held). */
  function AggBuy(a: Agg, q: int, price: real): (r: Agg)
    ensures r.quantity == a.quantity + q && r.cost == a.cost + q as real * price
    ensures r.quantity > 0 ==> r.avg * r.quantity as real == r.cost
    ensures r.quantity <= 0 ==> r.avg == 0.0
  {
    var nq := a.quantity + q;
    var nc := a.cost + q as real * price;
    Agg(nc, nq, if nq > 0 then nc / nq as real else 0.0)
  }

  /** The sell update: the share count drops (not below zero), the value drops in
      proportion, the average is kept unless the position is closed out. */
  function AggSell(a: Agg, q: int): (r: Agg)
    ensures r.quantity >= 0
    ensures r.quantity == if a.quantity >= q then a.quantity - q else 0
    ensures q >= 0 && a.quantity >= 0 ==> r.quantity <= a.quantity
    ensures a.quantity > 0 ==> r.cost * a.quantity as real == r.quantity as real * a.cost
    ensures r.quantity == 0 ==> r.avg == 0.0 && r.cost == 0.0
    ensures r.quantity > 0 ==> r.avg == a.avg
  {
    var nq := if a.quantity - q < 0 then 0 else a.quantity - q;
    var nc := if a.quantity > 0 then (nq as real / a.quantity as real) * a.cost else 0.0;
    Agg(nc, nq, if nq == 0 then 0.0 else a.avg)
  }

  /** A buy of a non-negative quantity keeps the identity; the new average is the
      quantity-weighted mean of the old average and the price. */
  lemma BuyKeepsSound(a: Agg, q: int, price: real)
    requires Sound(a) && q >= 0
    ensures Sound(AggBuy(a, q, price))
    ensures AggBuy(a, q, price).quantity == a.quantity + q
    ensures AggBuy(a, q, price).cost == a.cost + q as real * price
    ensures a.quantity + q > 0 ==>
      AggBuy(a, q, price).avg == (a.avg * a.quantity as real + price * q as real) / (a.quantity + q) as real
  {
    var r := AggBuy(a, q, price);
    if r.quantity > 0 {
      assert r.avg * r.quantity as real == r.cost;
    }
  }

  /** A sell of a non-negative quantity keeps the identity and the average (until the
      position is closed out); the remaining value is the remaining shares at that
      average. */
  lemma SellKeepsSound(a: Agg, q: int)
    requires Sound(a) && q >= 0
    ensures Sound(AggSell(a, q))
    ensures AggSell(a, q).quantity == (if a.quantity >= q then a.quantity - q else 0)
    ensures AggSell(a, q).quantity > 0 ==> AggSell(a, q).avg == a.avg
    ensures AggSell(a, q).cost == a.avg * AggSell(a, q).quantity as real
  {
    var r := AggSell(a, q);
    if a.quantity > 0 {
      var f := r.quantity as real / a.quantity as real;
      assert r.cost == f * (a.avg * a.quantity as real);
      assert f * a.quantity as real == r.quantity as real;
      assert r.cost == a.avg * (f * a.quantity as real);
    }
  }

  /** Selling what was just bought restores the share count; from a flat position it
      restores the fresh aggregate. */
  lemma BuyThenSell(a: Agg, q: int, price: real)
    requires Sound(a) && q >= 0
    ensures AggSell(AggBuy(a, q, price), q).quantity == a.quantity
    ensures a == Fresh ==> AggSell(AggBuy(a, q, price), q) == Fresh
  {
  }

  /** The identity does not survive a negative buy: 5 shares sold short through a
      buy of -5 leave a negative share count. */
  lemma NegativeBuyBreaksSound()
    ensures Sound(Fresh) && !Sound(AggBuy(Fresh, -5, 10.0))
  {
  }
}

=== FILE: profit_report.dfy ===
/** `generate_profit_report` of stock_monitor.py: one pass over the history that counts
    the records, adds up the realized profit of the records carrying one, in total and
    per symbol, and lists every record with its profit (0.0 when it has none). */
module ProfitReport {
  import opened Wrappers
  import opened Ledger

  datatype Detail = Detail(symbol: string, action: Action, quantity: int, price: real,
                           timestamp: nat, profit: real)

  /** The report; unrealized profit is always 0.0. */
  datatype Report = Report(totalTransactions: nat, realizedProfit: real, unrealizedProfit: real,
                           profitBySymbol: map<string, real>, details: seq<Detail>)

  /** `'profit' in tx and tx['profit'] is not None`: the record is a sell with its
      matching result attached. */
  predicate HasProfit(t: Tx) { t.realized.Some? }

  function ProfitOrZero(t: Tx): real {
    if HasProfit(t) then t.realized.value.profit else 0.0
  }

  function DetailOf(t: Tx): Detail {
    Detail(t.symbol, t.action, t.quantity, t.price, t.timestamp, ProfitOrZero(t))
  }

  /** Reference sums: over the whole history, and over one symbol's records. */
  function RealizedSum(h: seq<Tx>): real {
    if |h| == 0 then 0.0 else RealizedSum(h[..|h| - 1]) + ProfitOrZero(h[|h| - 1])
  }

  function SymbolSum(h: seq<Tx>, s: string): real {
    if |h| == 0 then 0.0
    else SymbolSum(h[..|h| - 1], s) + (if h[|h| - 1].symbol == s then ProfitOrZero(h[|h| - 1]) else 0.0)
  }

  /** The report loop, record by record. */
  function Generate(h: seq<Tx>): (r: Report)
    ensures r.totalTransactions == |h| && r.unrealizedProfit == 0.0 && |r.details| == |h|
  {
    if |h| == 0 then Report(0, 0.0, 0.0, map[], [])
    else
      var init := h[..|h| - 1];
      var t := h[|h| - 1];
      var r := Generate(init);
      var bySymbol :=
        if HasProfit(t) then
          r.profitBySymbol[t.symbol := (if t.symbol in r.profitBySymbol then r.profitBySymbol[t.symbol] else 0.0) + t.realized.value.profit]
        else r.profitBySymbol;
      Report(|h|, r.realizedProfit + ProfitOrZero(t), 0.0, bySymbol, r.details + [DetailOf(t)])
  }

  /** The report lists every record, in history order, and has a per-symbol entry
      exactly for the symbols of the records carrying a profit. */
  lemma {:induction false} GenerateShape(h: seq<Tx>)
    ensures forall k :: 0 <= k < |h| ==> Generate(h).details[k] == DetailOf(h[k])
    ensures forall s :: s in Generate(h).profitBySymbol <==>
      exists k :: 0 <= k < |h| && h[k].symbol == s && HasProfit(h[k])
  {
    if |h| > 0 {
      var init := h[..|h| - 1];
      var t := h[|h| - 1];
      GenerateShape(init);
      var r := Generate(init);
      var g := Generate(h);
      assert forall k :: 0 <= k < |init| ==> init[k] == h[k];
      assert g.details == r.details + [DetailOf(t)];
      forall s ensures s in g.profitBySymbol <==> exists k :: 0 <= k < |h| && h[k].symbol == s && HasProfit(h[k]) {
        assert s in g.profitBySymbol <==> s in r.profitBySymbol || (HasProfit(t) && s == t.symbol);
        if s in g.profitBySymbol && !(HasProfit(t) && s == t.symbol) {
          var k :| 0 <= k < |init| && init[k].symbol == s && HasProfit(init[k]);
          assert h[k] == init[k];
        }
      }
    }
  }

  /** The totals are the reference sums: the realized profit adds up every record's
      profit, and each symbol's entry adds up that symbol's. */
  lemma {:induction false} GenerateSums(h: seq<Tx>, s: string)
    ensures Generate(h).realizedProfit == RealizedSum(h)
    ensures s in Generate(h).profitBySymbol ==> Generate(h).profitBySymbol[s] == SymbolSum(h, s)
    ensures s !in Generate(h).profitBySymbol ==> SymbolSum(h, s) == 0.0
  {
    if |h| > 0 {
      GenerateSums(h[..|h| - 1], s);
    }
  }

  function SumOver(syms: seq<string>, h: seq<Tx>): real {
    if |syms| == 0 then 0.0 else SymbolSum(h, syms[0]) + SumOver(syms[1..], h)
  }

  predicate Distinct(syms: seq<string>) {
    forall i, j :: 0 <= i < j < |syms| ==> syms[i] != syms[j]
  }

  /** Appending a record moves the per-symbol sums by its profit, once, at its symbol. */
  lemma {:induction false} SumOverStep(syms: seq<string>, h: seq<Tx>)
    requires |h| > 0 && Distinct(syms)
    ensures SumOver(syms, h) ==
      SumOver(syms, h[..|h| - 1]) + (if h[|h| - 1].symbol in syms then ProfitOrZero(h[|h| - 1]) else 0.0)
    decreases |syms|
  {
    if |syms| > 0 {
      SumOverStep(syms[1..], h);
      assert h[|h| - 1].symbol in syms[1..] ==> h[|h| - 1].symbol != syms[0] by {
        if h[|h| - 1].symbol in syms[1..] {
          var j :| 0 <= j < |syms[1..]| && syms[1..][j] == h[|h| - 1].symbol;
          assert syms[0] != syms[j + 1];
        }
      }
      assert h[|h| - 1].symbol in syms <==> h[|h| - 1].symbol == syms[0] || h[|h| - 1].symbol in syms[1..];
    }
  }

  /** The per-symbol profits partition the realized total: summed over any list of
      distinct symbols that covers every record with a profit, they give the total. */
  lemma {:induction false} SymbolsPartitionTotal(h: seq<Tx>, syms: seq<string>)
    requires Distinct(syms)
    requires forall k :: 0 <= k < |h| && HasProfit(h[k]) ==> h[k].symbol in syms
    ensures SumOver(syms, h) == RealizedSum(h)
    decreases |h|
  {
    if |h| == 0 {
      SumOverEmpty(syms, h);
    } else {
      var init := h[..|h| - 1];
      assert forall k :: 0 <= k < |init| ==> init[k] == h[k];
      SymbolsPartitionTotal(init, syms);
      SumOverStep(syms, h);
    }
  }

  lemma {:induction false} SumOverEmpty(syms: seq<string>, h: seq<Tx>)
    requires |h| == 0
    ensures SumOver(syms, h) == 0.0
    decreases |syms|
  {
    if |syms| > 0 {
      SumOverEmpty(syms[1..], h);
    }
  }
}

=== FILE: recency.dfy ===
/** "The most recent record of a kind": both ledgers filter their history, sort it by
    timestamp with `reverse=True` and take the first element. Python's sort is stable
    even when reversed, so among records sharing the newest timestamp the one earliest
    in the history wins. */
module Recency {
  import opened Wrappers

  /** Index of the record `sorted(filter(ok, s), key=ts, reverse=True)[0]`. */
  function Latest<T>(s: seq<T>, ok: T -> bool, ts: T -> nat): (r: Option<nat>)
    ensures r.None? <==> forall k :: 0 <= k < |s| ==> !ok(s[k])
    ensures r.Some? ==> r.value < |s| && ok(s[r.value])
    ensures r.Some? ==> forall k :: 0 <= k < |s| && ok(s[k]) ==> ts(s[k]) <= ts(s[r.value])
    ensures r.Some? ==> forall k :: 0 <= k < r.value && ok(s[k]) ==> ts(s[k]) < ts(s[r.value])
  {
    LatestIn(s, ok, ts, |s|)
  }

  /** `Latest` over the first `n` records. */
  function LatestIn<T>(s: seq<T>, ok: T -> bool, ts: T -> nat, n: nat): (r: Option<nat>)
    requires n <= |s|
    ensures r.None? <==> forall k :: 0 <= k < n ==> !ok(s[k])
    ensures r.Some? ==> r.value < n && ok(s[r.value])
    ensures r.Some? ==> forall k :: 0 <= k < n && ok(s[k]) ==> ts(s[k]) <= ts(s[r.value])
    ensures r.Some? ==> forall k :: 0 <= k < r.value && ok(s[k]) ==> ts(s[k]) < ts(s[r.value])
  {
    if n == 0 then None
    else
      var p := LatestIn(s, ok, ts, n - 1);
      // a later record only wins on a strictly newer timestamp
      if ok(s[n - 1]) && (p.None? || ts(s[n - 1]) > ts(s[p.value])) then Some(n - 1) else p
  }

  /** The contract of `Latest` pins the index down: no other record is both the newest
      and the earliest of the newest. */
  lemma LatestUnique<T>(s: seq<T>, ok: T -> bool, ts: T -> nat, j: nat)
    requires j < |s| && ok(s[j])
    requires forall k :: 0 <= k < |s| && ok(s[k]) ==> ts(s[k]) <= ts(s[j])
    requires forall k :: 0 <= k < j && ok(s[k]) ==> ts(s[k]) < ts(s[j])
    ensures Latest(s, ok, ts) == Some(j)
  {
  }

  /** `LatestIn` only looks at the first `n` records. */
  lemma {:induction false} LatestInPrefix<T>(s: seq<T>, ok: T -> bool, ts: T -> nat, n: nat)
    requires n <= |s|
    ensures LatestIn(s, ok, ts, n) == Latest(s[..n], ok, ts)
    decreases n
  {
    if n > 0 {
      LatestInPrefix(s, ok, ts, n - 1);
      LatestInPrefix(s[..n], ok, ts, n - 1);
      assert s[..n][..n - 1] == s[..n - 1];
    }
  }

  /** Appending a record the filter rejects does not change the answer. */
  lemma LatestIgnoresRejected<T>(s: seq<T>, x: T, ok: T -> bool, ts: T -> nat)
    requires !ok(x)
    ensures Latest(s + [x], ok, ts) == Latest(s, ok, ts)
  {
    LatestInPrefix(s + [x], ok, ts, |s|);
    assert (s + [x])[..|s|] == s;
  }
}

=== FILE: risk_clamps.dfy ===
/** The two buy-size limits `place_order` applies before submitting a buy, and the
    per-symbol position value it keeps afterwards. Both scripts use the same rules;
    they differ in where "funds already used" comes from and in the default
    `max_position` (10000 in stock_monitor.py, 100000 in
    stock_monitor_ollama_only.py). */
module RiskClamps {

  /** Python's `int(x)` on a float: truncation toward zero. */
  function Trunc(x: real): (n: int)
    ensures x >= 0.0 ==> n as real <= x < n as real + 1.0
    ensures x < 0.0 ==> n as real - 1.0 < x <= n as real
  {
    if x >= 0.0 then x.Floor else -((-x).Floor)
  }

  /** What a limit does to the requested quantity: keep or replace it, refuse the
      buy (`return None`), or raise `ZeroDivisionError` at a zero price, which the
      caller's `except` turns into the simulated fallback with the quantity it had. */
  datatype Clamp = Proceed(quantity: int) | Refuse | Raise(quantity: int)

  const MonitorMaxPosition: real := 10000.0
  const OllamaMaxPosition: real := 100000.0

  /** The fund limit: with `fund_limit > 0`, a buy that would take the funds in use
      past the limit is cut to `int((fund_limit - used) / price)` shares, or refused
      when that is not positive. */
  function FundClamp(quantity: int, price: real, fundLimit: real, used: real): (c: Clamp)
    ensures c.Raise? ==> c.quantity == quantity
  {
    if fundLimit > 0.0 && used + quantity as real * price > fundLimit then
      if price == 0.0 then Raise(quantity)
      else
        var adjusted := Trunc((fundLimit - used) / price);
        if adjusted > 0 then Proceed(adjusted) else Refuse
    else Proceed(quantity)
  }

  /** The position limit: a buy that would take the symbol's position value past
      `max_position` is cut to `max(1, int((max_position - position) / price))`
      shares. It never refuses: at least one share is always bought. */
  function MaxPositionClamp(quantity: int, price: real, position: real, maxPosition: real): (c: Clamp)
    ensures !c.Refuse?
    ensures c.Raise? ==> c.quantity == quantity
  {
    if position + quantity as real * price > maxPosition then
      if price == 0.0 then Raise(quantity)
      else
        var t := Trunc((maxPosition - position) / price);
        Proceed(if t >= 1 then t else 1)
    else Proceed(quantity)
  }

  /** Both limits in the order `place_order` applies them. */
  function BuyClamp(quantity: int, price: real, fundLimit: real, used: real,
                    position: real, maxPosition: real): (c: Clamp)
    ensures !FundClamp(quantity, price, fundLimit, used).Proceed? ==> c == FundClamp(quantity, price, fundLimit, used)
  {
    match FundClamp(quantity, price, fundLimit, used)
    case Proceed(q) => MaxPositionClamp(q, price, position, maxPosition)
    case other => other
  }

  /** The position value after an order: a buy adds its amount, a sell takes its
      amount off but never below zero. */
  function AfterBuy(position: real, quantity: int, price: real): real {
    position + quantity as real * price
  }

  function AfterSell(position: real, quantity: int, price: real): (r: real)
    ensures r >= 0.0
  {
    var v := position - quantity as real * price;
    if v < 0.0 then 0.0 else v
  }

  lemma TruncMonotone(x: real, y: real)
    requires x <= y
    ensures Trunc(x) <= Trunc(y)
  {
  }

  lemma MulFloorBound(a: real, p: real, n: int)
    requires p > 0.0 && n as real <= a / p
    ensures n as real * p <= a
  {
    assert n as real * p <= (a / p) * p;
  }

  lemma MulFloorMaximal(a: real, p: real, n: int)
    requires p > 0.0 && a / p < n as real + 1.0
    ensures a < (n + 1) as real * p
  {
    var x := a / p;
    assert x * p == a;
    var y := (n + 1) as real;
    assert x < y;
    assert y * p - x * p == (y - x) * p;
    assert (y - x) * p > 0.0;
  }

  /** With a positive price the fund limit holds after the cut, and the cut is the
      largest whole quantity that fits; the buy is refused exactly when not even one
      share fits; a buy that fits passes unchanged. */
  lemma FundClampSound(quantity: int, price: real, fundLimit: real, used: real)
    requires price > 0.0 && fundLimit > 0.0
    ensures var c := FundClamp(quantity, price, fundLimit, used);
      && (used + quantity as real * price <= fundLimit ==> c == Proceed(quantity))
      && (used + quantity as real * price > fundLimit ==>
            (c.Refuse? <==> used + price > fundLimit) &&
            (c.Proceed? ==> c.quantity >= 1 && used + c.quantity as real * price <= fundLimit
                            && used + (c.quantity + 1) as real * price > fundLimit))
  {
    var a := fundLimit - used;
    if used + quantity as real * price > fundLimit {
      var t := Trunc(a / price);
      if a / price >= 0.0 {
        MulFloorBound(a, price, t);
        MulFloorMaximal(a, price, t);
        if t <= 0 {
          assert a < price;
        } else {
          assert 1.0 <= a / price;
          assert price <= a by { MulFloorBound(a, price, 1); }
        }
      }
    }
  }

  /** With a positive price the position limit holds after the cut whenever at least
      one share fits; otherwise one share is bought anyway and the limit is passed. */
  lemma MaxPositionClampSound(quantity: int, price: real, position: real, maxPosition: real)
    requires price > 0.0
    ensures var c := MaxPositionClamp(quantity, price, position, maxPosition);
      && c.Proceed?
      && (position + quantity as real * price <= maxPosition ==> c.quantity == quantity)
      && (position + quantity as real * price > maxPosition ==>
            c.quantity >= 1 &&
            (position + price <= maxPosition ==> position + c.quantity as real * price <= maxPosition
                                                 && position + (c.quantity + 1) as real * price > maxPosition) &&
            (position + price > maxPosition ==> c.quantity == 1))
  {
    var a := maxPosition - position;
    if position + quantity as real * price > maxPosition {
      var t := Trunc(a / price);
      if a / price >= 0.0 {
        MulFloorBound(a, price, t);
        MulFloorMaximal(a, price, t);
        if position + price <= maxPosition {
          assert 1.0 <= a / price by {
            assert price / price == 1.0;
          }
        } else if t >= 1 {
          MulFloorBound(a, price, 1);
        }
      }
    }
  }

  /** The concrete case of the always-one-share rule: 9990 of 10000 already used, a
      share at 50 still goes through and ends at 10040. */
  lemma MaxPositionOverrunExample()
    ensures MaxPositionClamp(10, 50.0, 9990.0, MonitorMaxPosition) == Proceed(1)
    ensures AfterBuy(9990.0, 1, 50.0) > MonitorMaxPosition
  {
    assert (MonitorMaxPosition - 9990.0) / 50.0 == 0.2;
  }

  /** A position value never goes negative through orders of non-negative amounts. */
  lemma PositionStaysNonNegative(position: real, quantity: int, price: real)
    requires position >= 0.0 && quantity >= 0 && price >= 0.0
    ensures AfterBuy(position, quantity, price) >= position
    ensures 0.0 <= AfterSell(position, quantity, price) <= position
    ensures AfterSell(AfterBuy(position, quantity, price), quantity, price) == position
  {
  }

  lemma ScaleMonotone(x: int, y: int, p: real)
    requires p > 0.0
    ensures x <= y <==> x as real * p <= y as real * p
  {
    var d := (y - x) as real;
    assert y as real * p - x as real * p == d * p;
    if x > y {
      assert d * p < 0.0;
    }
  }

  /** A cut by the fund limit never raises the quantity. */
  lemma FundClampNeverIncreases(quantity: int, price: real, fundLimit: real, used: real)
    requires price > 0.0 && fundLimit > 0.0
    ensures var c := FundClamp(quantity, price, fundLimit, used);
      c.Proceed? ==> c.quantity <= quantity
  {
    FundClampSound(quantity, price, fundLimit, used);
    var c := FundClamp(quantity, price, fundLimit, used);
    if c.Proceed? && used + quantity as real * price > fundLimit {
      assert c.quantity as real * price < quantity as real * price;
      ScaleMonotone(c.quantity, quantity, price);
    }
  }

  /** A cut by the position limit never raises a quantity of at least one share. */
  lemma MaxPositionClampNeverIncreases(quantity: int, price: real, position: real, maxPosition: real)
    requires price > 0.0 && quantity >= 1
    ensures var c := MaxPositionClamp(quantity, price, position, maxPosition);
      c.Proceed? && 1 <= c.quantity <= quantity
  {
    var a := maxPosition - position;
    if position + quantity as real * price > maxPosition {
      var t := Trunc(a / price);
      if t > quantity {
        MulFloorBound(a, price, t);
        assert quantity as real * price < t as real * price;
      }
    }
  }

  /** With a positive price and a fund limit set, a buy of at least one share that
      gets through both limits stays within the fund limit and is never larger than
      asked; it is refused exactly when it does not fit and not even one share does. */
  lemma BuyClampRespectsFundLimit(quantity: int, price: real, fundLimit: real, used: real,
                                  position: real, maxPosition: real)
    requires price > 0.0 && fundLimit > 0.0 && quantity >= 1
    ensures var c := BuyClamp(quantity, price, fundLimit, used, position, maxPosition);
      && !c.Raise?
      && (c.Refuse? <==> used + quantity as real * price > fundLimit && used + price > fundLimit)
      && (c.Proceed? ==> 1 <= c.quantity <= quantity && used + c.quantity as real * price <= fundLimit)
  {
    var f := FundClamp(quantity, price, fundLimit, used);
    if f.Proceed? {
      BuyClampWithinFunds(quantity, price, fundLimit, used, position, maxPosition);
      FundClampSound(quantity, price, fundLimit, used);
    } else {
      FundClampSound(quantity, price, fundLimit, used);
      assert BuyClamp(quantity, price, fundLimit, used, position, maxPosition) == f;
    }
  }

  /** A request of zero shares passes the fund limit untouched, and the position
      limit's `max(1, ...)` then turns it into one share that the fund limit would
      have refused. */
  lemma ZeroShareBuyOverrunsFundLimit()
    ensures var c := BuyClamp(0, 10.0, 100.0, 95.0, 20000.0, 10000.0);
      c == Proceed(1) && 95.0 + c.quantity as real * 10.0 > 100.0
  {
    assert FundClamp(0, 10.0, 100.0, 95.0) == Proceed(0);
    assert Trunc((10000.0 - 20000.0) / 10.0) == -1000;
  }

  /** When the fund limit lets a buy through, the position limit keeps it at one share
      or more and within what the fund limit allowed. */
  lemma BuyClampWithinFunds(quantity: int, price: real, fundLimit: real, used: real,
                            position: real, maxPosition: real)
    requires price > 0.0 && fundLimit > 0.0 && quantity >= 1
    requires FundClamp(quantity, price, fundLimit, used).Proceed?
    ensures var c := BuyClamp(quantity, price, fundLimit, used, position, maxPosition);
      c.Proceed? && 1 <= c.quantity <= quantity && used + c.quantity as real * price <= fundLimit
  {
    var f := FundClamp(quantity, price, fundLimit, used);
    FundClampFits(quantity, price, fundLimit, used);
    FundClampNeverIncreases(quantity, price, fundLimit, used);
    var m := MaxPositionClamp(f.quantity, price, position, maxPosition);
    assert BuyClamp(quantity, price, fundLimit, used, position, maxPosition) == m;
    MaxPositionClampNeverIncreases(f.quantity, price, position, maxPosition);
    ScaleMonotone(m.quantity, f.quantity, price);
  }

  /** What the fund limit lets through fits within it. */
  lemma FundClampFits(quantity: int, price: real, fundLimit: real, used: real)
    requires price > 0.0 && fundLimit > 0.0 && quantity >= 1
    ensures var c := FundClamp(quantity, price, fundLimit, used);
      c.Proceed? ==> c.quantity >= 1 && used + c.quantity as real * price <= fundLimit
  {
    FundClampSound(quantity, price, fundLimit, used);
  }
}

=== FILE: sync_modes.dfy ===
/** How the two scripts' extra write through the history list compares with the
    intended matcher. The write looks a lot up by `order_id`; since an open lot is its
    own history record, the lookup finds the lot itself whenever order ids are
    distinct. */
module SyncModes {
  import opened Wrappers
  import opened Ledger
  import opened LotMatching
  import opened Fifo
  import opened FifoProperties

  /** When the lookup lands on the lot itself. */
  lemma FirstWithIdUnique(h: seq<Tx>, i: nat)
    requires UniqueIds(h) && i < |h|
    ensures FirstWithId(h, h[i].orderId, i) == i
  {
  }

  lemma OverlaySelf(t: Tx)
    ensures Overlay(t, t) == t
  {
  }

  /** `t.update(lot)` with distinct order ids copies the lot onto itself. */
  lemma OllamaSyncIsNoOp(h: seq<Tx>, i: nat, m: int, full: bool)
    requires UniqueIds(h) && i < |h|
    ensures Sync(h, i, m, full, OllamaSync) == h
  {
    FirstWithIdUnique(h, i);
    OverlaySelf(h[i]);
  }

  /** A change of quantity or closed flag keeps order ids distinct. */
  lemma UniqueIdsKept(h: seq<Tx>, i: nat, t: Tx)
    requires UniqueIds(h) && i < |h| && t.orderId == h[i].orderId
    ensures UniqueIds(h[i := t])
  {
  }

  lemma {:induction false} OllamaLoopIsIntended(b: Book, sym: string, lots: seq<nat>, rem: int, price: real)
    requires OpenOf(b, sym) == lots
    requires forall k :: 0 <= k < |lots| ==> lots[k] < |b.history|
    requires UniqueIds(b.history)
    ensures MatchLoop(b, sym, lots, rem, price, OllamaSync) == MatchLoop(b, sym, lots, rem, price, NoSync)
    decreases |lots|
  {
    if |lots| > 0 && rem > 0 {
      var lot := b.history[lots[0]];
      var m := Min(rem, lot.quantity);
      OllamaStep(b, sym, lots, rem, price);
      NoSyncStep(b, sym, lots, rem, price);
      if m == lot.quantity {
        assert UniqueIds(CloseStep(b, sym, lots).history) by {
          UniqueIdsKept(b.history, lots[0], lot.(closed := true));
        }
        OllamaLoopIsIntended(CloseStep(b, sym, lots), sym, lots[1..], rem - m, price);
      }
    }
  }

  /** One step of stock_monitor_ollama_only.py's matcher on distinct order ids: the
      same step the intended matcher takes. */
  lemma OllamaStep(b: Book, sym: string, lots: seq<nat>, rem: int, price: real)
    requires OpenOf(b, sym) == lots && |lots| > 0 && rem > 0
    requires forall k :: 0 <= k < |lots| ==> lots[k] < |b.history|
    requires UniqueIds(b.history)
    ensures var lot := b.history[lots[0]];
      var m := Min(rem, lot.quantity);
      var r := MatchLoop(b, sym, lots, rem, price, OllamaSync);
      if m == lot.quantity then
        var rest := MatchLoop(CloseStep(b, sym, lots), sym, lots[1..], rem - m, price, OllamaSync);
        r == LoopState(rest.book, [MatchOf(lot.orderId, lot.price, m, price)] + rest.matched, rest.remaining)
      else
        r == LoopState(Book(b.history[lots[0] := lot.(quantity := lot.quantity - m)], b.open),
                       [MatchOf(lot.orderId, lot.price, m, price)], rem - m)
  {
    var i := lots[0];
    var lot := b.history[i];
    var m := Min(rem, lot.quantity);
    if m == lot.quantity {
      var h1 := b.history[i := lot.(closed := true)];
      UniqueIdsKept(b.history, i, lot.(closed := true));
      OllamaSyncIsNoOp(h1, i, m, true);
    } else {
      var h1 := b.history[i := lot.(quantity := lot.quantity - m)];
      UniqueIdsKept(b.history, i, lot.(quantity := lot.quantity - m));
      OllamaSyncIsNoOp(h1, i, m, false);
    }
  }

  /** With distinct order ids, stock_monitor_ollama_only.py's `calculate_profit`
      behaves exactly like the intended matcher, down to the percent. */
  lemma OllamaIsIntended(b: Book, sym: string, sellQty: int, price: real)
    requires ValidIndices(b) && UniqueIds(b.history)
    ensures CalculateProfit(b, sym, sellQty, price, OllamaSync) == CalculateProfit(b, sym, sellQty, price, NoSync)
  {
    var lots := OpenOf(b, sym);
    if |lots| > 0 {
      OllamaLoopIsIntended(b, sym, lots, sellQty, price);
      var loop := MatchLoop(b, sym, lots, sellQty, price, NoSync);
      PercentRulesAgree(SumProfit(loop.matched), SumBuyCost(loop.matched));
    }
  }

  /** stock_monitor_ollama_only.py's `total_profit_percent`, with distinct order ids:
      its `cost > 0` rule gives the intended percent, the profit over the closed-form
      matched cost. */
  lemma OllamaPercentIsIntended(b: Book, sym: string, sellQty: int, price: real)
    requires Consistent(b) && NonNegativeLots(b) && sellQty >= 0 && UniqueIds(b.history)
    ensures ValidIndices(b)
    ensures var r := CalculateProfit(b, sym, sellQty, price, OllamaSync);
      var lots := OpenOf(b, sym);
      var cost := CostFrom(PricesOf(b.history, lots), QtysOf(b.history, lots), sellQty, 0);
      r.details.totalProfitPercent ==
        (if r.details.totalProfit != 0.0 && cost > 0.0 then r.details.totalProfit / cost * 100.0 else 0.0)
  {
    ConsistentValid(b);
    OllamaIsIntended(b, sym, sellQty, price);
    MatchPercent(b, sym, sellQty, price);
  }

  /** stock_monitor.py's write closes an emptied lot a second time, which is harmless,
      but takes the matched quantity off a partly consumed lot a second time: a sell of
      `n` shares that dips into the oldest lot of `q > n` shares leaves it holding
      `q - 2n` instead of `q - n`, with the same reported profit. */
  lemma MonitorDecrementsTwice(b: Book, sym: string, sellQty: int, price: real)
    requires ValidIndices(b) && UniqueIds(b.history) && |OpenOf(b, sym)| > 0
    requires 0 < sellQty < b.history[OpenOf(b, sym)[0]].quantity
    ensures var i := OpenOf(b, sym)[0];
      var q := b.history[i].quantity;
      var mon := CalculateProfit(b, sym, sellQty, price, MonitorSync);
      var fixed := CalculateProfit(b, sym, sellQty, price, NoSync);
      && mon.book.history[i].quantity == q - 2 * sellQty
      && fixed.book.history[i].quantity == q - sellQty
      && mon.book.open == fixed.book.open == b.open
      && mon.details == fixed.details
      && mon.details.unmatchedQuantity == 0
  {
    var lots := OpenOf(b, sym);
    var i := lots[0];
    var lot := b.history[i];
    var h1 := b.history[i := lot.(quantity := lot.quantity - sellQty)];
    UniqueIdsKept(b.history, i, lot.(quantity := lot.quantity - sellQty));
    FirstWithIdUnique(h1, i);
  }

  /** The concrete case: one open lot of 100 shares, a sell of 60. stock_monitor.py
      leaves the lot open with -20 shares, where 40 remain; the next sell of 40 then
      "matches" -20 shares, books a negative cost and reports 60 shares unmatched. */
  lemma MonitorDoubleDecrementExample()
    ensures var buy := Tx("AAPL", Buy, 100, 10.0, "order-1", 0, Submitted, false, None);
      var b := Book([buy], map["AAPL" := [0]]);
      var mon := CalculateProfit(b, "AAPL", 60, 15.0, MonitorSync);
      var fixed := CalculateProfit(b, "AAPL", 60, 15.0, NoSync);
      && mon.book.history[0].quantity == -20
      && fixed.book.history[0].quantity == 40
      && OpenOf(mon.book, "AAPL") == [0]
      && CalculateProfit(mon.book, "AAPL", 40, 15.0, MonitorSync).details.unmatchedQuantity == 60
      && CalculateProfit(fixed.book, "AAPL", 40, 15.0, NoSync).details.unmatchedQuantity == 0
  {
    var buy := Tx("AAPL", Buy, 100, 10.0, "order-1", 0, Submitted, false, None);
    var b := Book([buy], map["AAPL" := [0]]);
    assert UniqueIds(b.history);
    MonitorDecrementsTwice(b, "AAPL", 60, 15.0);
    var mon := CalculateProfit(b, "AAPL", 60, 15.0, MonitorSync);
    var fixed := CalculateProfit(b, "AAPL", 60, 15.0, NoSync);
    assert OpenOf(mon.book, "AAPL") == [0];
    assert UniqueIds(mon.book.history);
  }

  /** Two simulated buys placed in the same second, both still open. */
  const SharedAapl: Tx := Tx("AAPL", Buy, 10, 100.0, "mock_order_1700000000", 0, Simulated, false, None)
  const SharedMsft: Tx := Tx("MSFT", Buy, 5, 300.0, "mock_order_1700000000", 0, Simulated, false, None)
  const SharedBook: Book := Book([SharedAapl, SharedMsft], map["AAPL" := [0], "MSFT" := [1]])

  /** Order ids are not always distinct: every fallback order placed within the same
      second gets the same `mock_order_<seconds>` id, and a broker order without an id
      is recorded as 'unknown'. Then stock_monitor_ollama_only.py's `t.update(lot)`
      lands on the older record: closing a MSFT lot overwrites the AAPL buy that shares
      its id, so a reload loses the AAPL position that the intended matcher keeps. */
  lemma OllamaSharedIdExample()
    ensures var ollama := CalculateProfit(SharedBook, "MSFT", 5, 310.0, OllamaSync);
      var fixed := CalculateProfit(SharedBook, "MSFT", 5, 310.0, NoSync);
      && Reload(SharedBook) == SharedBook
      && ollama.book.history[0].symbol == "MSFT"
      && OpenOf(ollama.book, "AAPL") == [0]
      && OpenOf(Reload(ollama.book), "AAPL") == []
      && OpenOf(Reload(fixed.book), "AAPL") == [0]
  {
    var closed := SharedMsft.(closed := true);
    RebuildTwoOpen(SharedAapl, SharedMsft);
    RebuildOneOpen(SharedAapl, closed);
    RebuildNoneOpen(closed);
    SharedIdOllamaRun();
    SharedIdFixedRun();
  }

  /** The ollama script's sell closes the MSFT lot and writes it over the AAPL record. */
  lemma SharedIdOllamaRun()
    ensures var ollama := CalculateProfit(SharedBook, "MSFT", 5, 310.0, OllamaSync);
      && ollama.book.history == [SharedMsft.(closed := true), SharedMsft.(closed := true)]
      && OpenOf(ollama.book, "AAPL") == [0]
  {
    var closed := SharedMsft.(closed := true);
    assert FirstWithId([SharedAapl, closed], closed.orderId, 1) == 0;
  }

  /** The intended matcher closes the MSFT record only. */
  lemma SharedIdFixedRun()
    ensures CalculateProfit(SharedBook, "MSFT", 5, 310.0, NoSync).book.history == [SharedAapl, SharedMsft.(closed := true)]
  {
  }

  lemma RebuildTwoOpen(a: Tx, m: Tx)
    requires a.symbol == "AAPL" && m.symbol == "MSFT" && IsOpenBuy(a) && IsOpenBuy(m)
    ensures Rebuild([a, m]) == map["AAPL" := [0], "MSFT" := [1]]
  {
    assert RebuildPrefix([a, m], 0) == map[];
    assert Get(map[], "AAPL") + [0] == [0];
    assert RebuildPrefix([a, m], 1) == map["AAPL" := [0]];
    assert Get(map["AAPL" := [0]], "MSFT") + [1] == [1];
  }

  lemma RebuildOneOpen(a: Tx, c: Tx)
    requires a.symbol == "AAPL" && IsOpenBuy(a) && !IsOpenBuy(c)
    ensures Rebuild([a, c]) == map["AAPL" := [0]]
  {
    assert RebuildPrefix([a, c], 0) == map[];
    assert Get(map[], "AAPL") + [0] == [0];
    assert RebuildPrefix([a, c], 1) == map["AAPL" := [0]];
  }

  lemma RebuildNoneOpen(c: Tx)
    requires !IsOpenBuy(c)
    ensures Rebuild([c, c]) == map[]
  {
    assert RebuildPrefix([c, c], 1) == map[];
  }
}

=== FILE: text.dfy ===
/** String helpers with Python's meaning: `in` on strings, `str.strip`, `str.lower`
    and character runs. Strings are sequences of characters. */
module Text {
  import opened Wrappers

  /** `needle` occurs in `hay` starting at index `i`. */
  predicate OccursAt(hay: string, needle: string, i: int) {
    0 <= i && i + |needle| <= |hay| && hay[i..i + |needle|] == needle
  }

  /** `needle in hay` for Python strings. */
  predicate Contains(hay: string, needle: string) {
    exists i :: 0 <= i <= |hay| && OccursAt(hay, needle, i)
  }

  /** `hay.startswith(prefix)` */
  predicate StartsWith(hay: string, prefix: string) {
    |prefix| <= |hay| && hay[..|prefix|] == prefix
  }

  /** Leftmost index at or after `from` at which `needle` occurs in `hay`. */
  function IndexFrom(hay: string, needle: string, from: nat): (r: Option<nat>)
    requires from <= |hay|
    ensures r.Some? ==> from <= r.value && OccursAt(hay, needle, r.value)
    ensures r.Some? ==> forall j :: from <= j < r.value ==> !OccursAt(hay, needle, j)
    ensures r.None? ==> forall j :: from <= j ==> !OccursAt(hay, needle, j)
    decreases |hay| - from
  {
    if from + |needle| > |hay| then None
    else if hay[from..from + |needle|] == needle then Some(from)
    else IndexFrom(hay, needle, from + 1)
  }

  /** Substring test computed by search; agrees with `Contains`. */
  function Find(hay: string, needle: string): (r: bool)
    ensures r <==> Contains(hay, needle)
  {
    IndexFrom(hay, needle, 0).Some?
  }

  /** Characters Python's argument-less `str.strip()` removes (ASCII whitespace and
      the four ASCII separator controls that `str.isspace` accepts). */
  predicate IsSpace(c: char) {
    c == ' ' || c == '\t' || c == '\n' || c == '\r' || c == '\U{B}' || c == '\U{C}'
    || c == '\U{1C}' || c == '\U{1D}' || c == '\U{1E}' || c == '\U{1F}'
  }

  /** Characters removed by `str.strip('<>[](){}')`. */
  predicate IsBracket(c: char) {
    c == '<' || c == '>' || c == '[' || c == ']' || c == '(' || c == ')' || c == '{' || c == '}'
  }

  /** Drop leading characters satisfying `drop`. */
  function TrimLeft(s: string, drop: char -> bool): (r: string)
    ensures |r| <= |s|
  {
    if |s| > 0 && drop(s[0]) then TrimLeft(s[1..], drop) else s
  }

  /** Drop trailing characters satisfying `drop`. */
  function TrimRight(s: string, drop: char -> bool): (r: string)
    ensures |r| <= |s|
  {
    if |s| > 0 && drop(s[|s| - 1]) then TrimRight(s[..|s| - 1], drop) else s
  }

  /** `s.strip()` */
  function Strip(s: string): string {
    TrimRight(TrimLeft(s, IsSpace), IsSpace)
  }

  /** `s.strip('<>[](){}')` */
  function StripBrackets(s: string): string {
    TrimRight(TrimLeft(s, IsBracket), IsBracket)
  }

  /** `str.lower` on one character, for the ASCII letters. */
  function LowerChar(c: char): char {
    if 'A' <= c <= 'Z' then (c as int - 'A' as int + 'a' as int) as char else c
  }

  /** `s.lower()` */
  function Lower(s: string): (r: string)
    ensures |r| == |s|
    ensures forall k :: 0 <= k < |s| ==> r[k] == LowerChar(s[k])
  {
    if |s| == 0 then "" else [LowerChar(s[0])] + Lower(s[1..])
  }

  predicate IsDigit(c: char) { '0' <= c <= '9' }

  /** Length of the longest run of characters satisfying `ok` that starts at `from`
      (a greedy `X+` or `X*` of a regular expression). */
  function Run(s: string, from: nat, ok: char -> bool): (n: nat)
    requires from <= |s|
    ensures from + n <= |s|
    ensures forall k :: from <= k < from + n ==> ok(s[k])
    ensures from + n < |s| ==> !ok(s[from + n])
    decreases |s| - from
  {
    if from < |s| && ok(s[from]) then 1 + Run(s, from + 1, ok) else 0
  }

  /** `int(digits)` for a run of decimal digits (leading zeros allowed). */
  function DigitsValue(d: string): (v: nat)
    requires forall k :: 0 <= k < |d| ==> IsDigit(d[k])
  {
    if |d| == 0 then 0
    else
      assert IsDigit(d[|d| - 1]);
      10 * DigitsValue(d[..|d| - 1]) + (d[|d| - 1] as int - '0' as int)
  }

  /** Decimal rendering of a natural number (`str(n)`). */
  function NatToDigits(n: nat): (d: string)
    ensures |d| > 0
    ensures forall k :: 0 <= k < |d| ==> IsDigit(d[k])
  {
    if n < 10 then [('0' as int + n) as char] else NatToDigits(n / 10) + [('0' as int + n % 10) as char]
  }

  /** `int(str(n)) == n` */
  lemma {:induction false} DigitsRoundTrip(n: nat)
    ensures DigitsValue(NatToDigits(n)) == n
  {
    if n >= 10 {
      var d := NatToDigits(n);
      assert d[..|d| - 1] == NatToDigits(n / 10);
      DigitsRoundTrip(n / 10);
    }
  }

  /** Substring containment is transitive. */
  lemma ContainsVia(hay: string, mid: string, needle: string)
    requires Contains(mid, needle)
    ensures Contains(hay, mid) ==> Contains(hay, needle)
  {
    if Contains(hay, mid) {
      var i :| 0 <= i <= |hay| && OccursAt(hay, mid, i);
      var j :| 0 <= j <= |mid| && OccursAt(mid, needle, j);
      assert hay[i..i + |mid|] == mid;
      forall m | 0 <= m < |needle| ensures hay[i + j + m] == needle[m] {
        assert hay[i + j + m] == hay[i..i + |mid|][j + m];
        assert mid[j..j + |needle|][m] == needle[m];
      }
      assert hay[i + j..i + j + |needle|] == needle;
      assert OccursAt(hay, needle, i + j);
    }
  }

  /** Every character of a contained string is a character of the text. */
  lemma ContainsChars(hay: string, needle: string)
    ensures Contains(hay, needle) ==> forall m :: 0 <= m < |needle| ==> needle[m] in hay
  {
    if Contains(hay, needle) {
      var i :| 0 <= i <= |hay| && OccursAt(hay, needle, i);
      forall m | 0 <= m < |needle| ensures needle[m] in hay {
        assert hay[i..i + |needle|][m] == hay[i + m];
      }
    }
  }

  /** Lower-casing works piece by piece. */
  lemma {:induction false} LowerAppend(a: string, b: string)
    ensures Lower(a + b) == Lower(a) + Lower(b)
    decreases |a|
  {
    if |a| > 0 {
      assert (a + b)[1..] == a[1..] + b;
      LowerAppend(a[1..], b);
    }
  }
}

=== FILE: trade_orders.dfy ===
/** The order-side operations of trade.py's `TradeManager`: the last-buy lookup and
    `place_order` with its validation and rollback. The positions manager is outside
    the model: its answers (available funds, the held position, whether the position
    update succeeded) are parameters. */
module TradeOrders {
  import opened Wrappers
  import opened Recency
  import opened TradeProfit

  /** The part of a `positions_manager.get_position` answer that is read. */
  datatype Holding = Holding(quantity: int, currentPrice: real)

  /** `get_last_buy_price_info` result. */
  datatype BuyInfo = BuyInfo(hasPosition: bool, currentPrice: real, lastBuyPrice: real,
                             priceDiff: real, priceDiffPercent: real)

  predicate IsBuyOf(sym: string, t: TradeRecord) {
    t.symbol == sym && t.direction == Buy
  }

  function BuyOf(sym: string): TradeRecord -> bool {
    (t: TradeRecord) => IsBuyOf(sym, t)
  }

  function TradeTime(t: TradeRecord): nat { t.timestamp }

  /** The newest buy's price against the held position's current price. Without a buy
      everything is zero; without a positive holding only the buy price is reported. */
  function LastBuyInfo(h: seq<TradeRecord>, sym: string, position: Option<Holding>): (r: BuyInfo)
    ensures r.hasPosition <==>
      (exists k :: 0 <= k < |h| && IsBuyOf(sym, h[k])) && position.Some? && position.value.quantity > 0
    ensures (forall k :: 0 <= k < |h| ==> !IsBuyOf(sym, h[k])) ==> r == BuyInfo(false, 0.0, 0.0, 0.0, 0.0)
    ensures r.hasPosition ==> r.currentPrice == position.value.currentPrice && r.priceDiff == r.currentPrice - r.lastBuyPrice
    ensures r.hasPosition && r.lastBuyPrice > 0.0 ==> r.priceDiffPercent * r.lastBuyPrice == r.priceDiff * 100.0
    ensures !r.hasPosition ==> r.currentPrice == 0.0 && r.priceDiff == 0.0 && r.priceDiffPercent == 0.0
  {
    match Latest(h, BuyOf(sym), TradeTime)
    case None => BuyInfo(false, 0.0, 0.0, 0.0, 0.0)
    case Some(j) =>
      var last := h[j].price;
      if position.None? || position.value.quantity <= 0 then BuyInfo(false, 0.0, last, 0.0, 0.0)
      else
        var current := position.value.currentPrice;
        var diff := current - last;
        BuyInfo(true, current, last, diff, if last > 0.0 then diff / last * 100.0 else 0.0)
  }

  /** The reported buy price is that of the newest buy, the earliest recorded among
      buys sharing that timestamp. */
  lemma LastBuyIsNewestFirst(h: seq<TradeRecord>, sym: string, position: Option<Holding>, j: nat)
    requires j < |h| && IsBuyOf(sym, h[j])
    requires forall k :: 0 <= k < |h| && IsBuyOf(sym, h[k]) ==> h[k].timestamp <= h[j].timestamp
    requires forall k :: 0 <= k < j && IsBuyOf(sym, h[k]) ==> h[k].timestamp < h[j].timestamp
    ensures LastBuyInfo(h, sym, position).lastBuyPrice == h[j].price
  {
    LatestUnique(h, BuyOf(sym), TradeTime, j);
  }

  datatype Reply = Placed(order: TradeRecord) | Failed(message: string)

  datatype Placement = Placement(history: seq<TradeRecord>, reply: Reply)

  const InsufficientFunds: string := "资金不足"
  const InsufficientPosition: string := "持仓不足"
  const UpdateFailed: string := "更新持仓失败"

  /** `list.remove(x)`: drop the first element equal to `x`. */
  function RemoveFirstEqual(s: seq<TradeRecord>, x: TradeRecord): (r: seq<TradeRecord>)
    requires x in s
    ensures multiset(r) == multiset(s) - multiset{x}
  {
    assert s == [s[0]] + s[1..];
    if s[0] == x then s[1..]
    else [s[0]] + RemoveFirstEqual(s[1..], x)
  }

  /** The refusal checks: a real buy must fit the available funds (a simulated one
      need not), and anything that is not a buy must be covered by the held position. */
  function Refusal(dir: Direction, quantity: int, price: real, simulated: bool, available: real,
                   position: Option<Holding>): (m: Option<string>)
    ensures dir == Buy ==> (m.Some? <==> quantity as real * price > available && !simulated)
    ensures dir != Buy ==> (m.Some? <==> position.None? || position.value.quantity < quantity)
    ensures m.Some? ==> m == Some(if dir == Buy then InsufficientFunds else InsufficientPosition)
  {
    if dir == Buy then
      if quantity as real * price > available && !simulated then Some(InsufficientFunds) else None
    else if position.None? || position.value.quantity < quantity then Some(InsufficientPosition)
    else None
  }

  /** How `positions_manager.update_position` answers: a truthy value, a falsy one, or
      an exception, whose text becomes the reply's message. */
  datatype UpdateOutcome = Updated | NotUpdated | UpdateRaised(msg: string)

  /** `place_order`: refuse, or record the order and apply it to the positions. When
      the update answers falsy the order is taken back out of the history; when it
      raises, the `except` at the end replies with the exception's text and the record
      stays. */
  function PlaceOrder(h: seq<TradeRecord>, sym: string, dir: Direction, quantity: int, price: real,
                      simulated: bool, now: nat, available: real, position: Option<Holding>,
                      update: UpdateOutcome): (r: Placement)
    ensures Refusal(dir, quantity, price, simulated, available, position).Some? ==> r.history == h
    ensures r.reply.Placed? ==> r.history == h + [r.reply.order]
    ensures r.reply.Placed? ==> r.reply.order == TradeRecord(sym, dir, quantity, price, now, simulated)
    ensures r.reply.Placed? <==> Refusal(dir, quantity, price, simulated, available, position).None? && update == Updated
    ensures r.reply.Failed? && !update.UpdateRaised? ==> multiset(r.history) == multiset(h)
    ensures Refusal(dir, quantity, price, simulated, available, position).None? && update.UpdateRaised? ==>
      r == Placement(h + [TradeRecord(sym, dir, quantity, price, now, simulated)], Failed(update.msg))
  {
    match Refusal(dir, quantity, price, simulated, available, position)
    case Some(m) => Placement(h, Failed(m))
    case None =>
      var order := TradeRecord(sym, dir, quantity, price, now, simulated);
      var appended := h + [order];
      match update
      case Updated => Placement(appended, Placed(order))
      case NotUpdated =>
        assert appended[|h|] == order;
        Placement(RemoveFirstEqual(appended, order), Failed(UpdateFailed))
      case UpdateRaised(msg) => Placement(appended, Failed(msg))
  }

  /** An update that raises leaves a failed order in the history: a simulated buy on an
      empty history is reported as failed and still recorded. */
  lemma UpdateRaisedKeepsRecord()
    ensures var order := TradeRecord("AAPL", Buy, 10, 100.0, 7, true);
      var r := PlaceOrder([], "AAPL", Buy, 10, 100.0, true, 7, 0.0, None, UpdateRaised("boom"));
      r.reply == Failed("boom") && r.history == [order]
  {
    var order := TradeRecord("AAPL", Buy, 10, 100.0, 7, true);
    assert Refusal(Buy, 10, 100.0, true, 0.0, None).None?;
    assert [] + [order] == [order];
  }

  /** The kind of `transaction_lock`: `threading.Lock` blocks a second acquire even by
      the thread that holds it; `threading.RLock` lets its holder enter again. */
  datatype LockKind = PlainLock | ReentrantLock

  /** `place_order` under the lock it runs with; `None` when the call never returns.
      Refusals return before the lock is taken. Every other order appends to the
      history while holding the lock and then calls `save_transactions`, which takes
      the lock again: under a plain lock the thread waits for itself forever. */
  function PlaceOrderLocked(h: seq<TradeRecord>, sym: string, dir: Direction, quantity: int, price: real,
                            simulated: bool, now: nat, available: real, position: Option<Holding>,
                            update: UpdateOutcome, lock: LockKind): (r: Option<Placement>)
    ensures r.None? <==> lock == PlainLock && Refusal(dir, quantity, price, simulated, available, position).None?
    ensures r.Some? ==> r.value == PlaceOrder(h, sym, dir, quantity, price, simulated, now, available, position, update)
  {
    match (Refusal(dir, quantity, price, simulated, available, position), lock)
    case (None, PlainLock) => None
    case _ => Some(PlaceOrder(h, sym, dir, quantity, price, simulated, now, available, position, update))
  }

  /** With the plain lock the code creates, a simulated buy on an empty history never
      returns; with a reentrant lock the same call places the order. */
  lemma PlainLockHangsExample()
    ensures PlaceOrderLocked([], "AAPL", Buy, 10, 100.0, true, 7, 0.0, None, Updated, PlainLock).None?
    ensures var order := TradeRecord("AAPL", Buy, 10, 100.0, 7, true);
      PlaceOrderLocked([], "AAPL", Buy, 10, 100.0, true, 7, 0.0, None, Updated, ReentrantLock)
        == Some(Placement([order], Placed(order)))
  {
    var order := TradeRecord("AAPL", Buy, 10, 100.0, 7, true);
    assert Refusal(Buy, 10, 100.0, true, 0.0, None).None?;
    assert [] + [order] == [order];
  }

  /** A refused order leaves the history untouched; a rolled-back order restores it
      exactly when no earlier record equals the new one. */
  lemma RollbackRestores(h: seq<TradeRecord>, sym: string, dir: Direction, quantity: int, price: real,
                         simulated: bool, now: nat, available: real, position: Option<Holding>)
    requires TradeRecord(sym, dir, quantity, price, now, simulated) !in h
    ensures PlaceOrder(h, sym, dir, quantity, price, simulated, now, available, position, NotUpdated).history == h
  {
    var order := TradeRecord(sym, dir, quantity, price, now, simulated);
    if Refusal(dir, quantity, price, simulated, available, position).None? {
      RemoveAbsentPrefix(h, order);
    }
  }

  lemma {:induction false} RemoveAbsentPrefix(h: seq<TradeRecord>, x: TradeRecord)
    requires x !in h
    ensures RemoveFirstEqual(h + [x], x) == h
    decreases |h|
  {
    if |h| > 0 {
      assert (h + [x])[0] == h[0];
      assert (h + [x])[1..] == h[1..] + [x];
      RemoveAbsentPrefix(h[1..], x);
    }
  }

  /** `list.remove` compares dictionaries by value, so when an identical order was
      already recorded in the same second the rollback removes that earlier record and
      keeps the new one at the end. Here a buy and the sell it covers share a second;
      after the rollback the sell sorts first, finds no lot, and the profit it booked
      disappears from the report. */
  lemma RollbackMayReorder()
    ensures var a := TradeRecord("AAPL", Buy, 10, 100.0, 7, true);
      var c := TradeRecord("AAPL", Sell, 10, 110.0, 7, true);
      var r := PlaceOrder([a, c], "AAPL", Buy, 10, 100.0, true, 7, 0.0, None, NotUpdated);
      r.history == [c, a]
      && CalculateProfit([a, c]).totalProfit == 100.0
      && CalculateProfit(r.history).totalProfit == 0.0
  {
    var a := TradeRecord("AAPL", Buy, 10, 100.0, 7, true);
    var c := TradeRecord("AAPL", Sell, 10, 110.0, 7, true);
    assert [a, c] + [a] == [a, c, a];
    BuyThenSellProfit(a, c);
    SellThenBuyProfit(a, c);
  }

  /** One AAPL symbol, one buy and one sell of the same second in history order. */
  lemma OneSymbolPair(a: TradeRecord, c: TradeRecord)
    requires a.symbol == "AAPL" && c.symbol == "AAPL" && a.timestamp == c.timestamp
    ensures CalculateProfit([a, c]).details == Replay("AAPL", [a, c], [])
  {
    assert [a, c][..1] == [a];
    assert Symbols([a]) == ["AAPL"];
    assert [a, c][1..] == [c];
    assert Filter([c], "AAPL") == [c] + Filter([], "AAPL");
    assert Filter([a, c], "AAPL") == [a, c];
    assert SortByTime([a]) == [a];
    assert SortByTime([a, c]) == [a, c];
    assert Symbols([a, c]) == ["AAPL"];
    assert SymbolEntries([a, c], "AAPL") == Replay("AAPL", [a, c], []);
    assert ["AAPL"][1..] == [];
    assert AllEntries(["AAPL"], [a, c]) == SymbolEntries([a, c], "AAPL") + AllEntries([], [a, c]);
  }

  lemma BuyThenSellProfit(a: TradeRecord, c: TradeRecord)
    requires a == TradeRecord("AAPL", Buy, 10, 100.0, 7, true)
    requires c == TradeRecord("AAPL", Sell, 10, 110.0, 7, true)
    ensures CalculateProfit([a, c]).totalProfit == 100.0
  {
    OneSymbolPair(a, c);
    assert Consume([Lot(10, 100.0)], 10).cost == 1000.0;
    assert Replay("AAPL", [a, c], []) == Replay("AAPL", [c], [Lot(10, 100.0)]);
    assert [c][1..] == [];
    var e := SellEntry("AAPL", c, 1000.0).value;
    assert e.profit == 100.0;
    assert Replay("AAPL", [c], [Lot(10, 100.0)]) == [e] + Replay("AAPL", [], Consume([Lot(10, 100.0)], 10).lots);
    assert SumProfits([e]) == e.profit + SumProfits([]);
  }

  lemma SellThenBuyProfit(a: TradeRecord, c: TradeRecord)
    requires a == TradeRecord("AAPL", Buy, 10, 100.0, 7, true)
    requires c == TradeRecord("AAPL", Sell, 10, 110.0, 7, true)
    ensures CalculateProfit([c, a]).totalProfit == 0.0
  {
    OneSymbolPair(c, a);
    assert Consume([], 10).cost == 0.0;
    assert Replay("AAPL", [c, a], []) == Replay("AAPL", [a], []);
    assert [a][1..] == [];
  }

  /** The rollback that was meant: drop the record just appended, whether the update
      answered falsy or raised. Every failed order then leaves the history exactly as
      it was. */
  function PlaceOrderIntended(h: seq<TradeRecord>, sym: string, dir: Direction, quantity: int, price: real,
                              simulated: bool, now: nat, available: real, position: Option<Holding>,
                              update: UpdateOutcome): (r: Placement)
    ensures r.reply.Failed? ==> r.history == h
    ensures r.reply == PlaceOrder(h, sym, dir, quantity, price, simulated, now, available, position, update).reply
    ensures r.reply.Placed? ==> r.history == h + [r.reply.order]
  {
    var appended := PlaceOrder(h, sym, dir, quantity, price, simulated, now, available, position, Updated);
    if appended.reply.Placed? && update == Updated then appended
    else if appended.reply.Placed? then
      Placement(appended.history[..|appended.history| - 1],
                Failed(if update.UpdateRaised? then update.msg else UpdateFailed))
    else appended
  }
}

=== FILE: trade_profit.dfy ===
/** `TradeManager.calculate_profit` of trade.py: profit recomputed from the whole trade
    history. Trades are grouped by symbol (groups in order of first appearance), each
    group is replayed in timestamp order, buys queue up as lots, and a sell consumes
    lots from the front.

    Lot amounts are always `quantity * price` (set when the lot is queued and
    recomputed when a sell dips into it), so a lot is modelled by those two fields.
    `Decimal` arithmetic is modelled by exact reals. */
module TradeProfit {
  import opened Wrappers
  import opened LotMatching

  datatype Direction = Buy | Sell | OtherDirection(name: string)

  /** One `order_info` of `transaction_history`. */
  datatype TradeRecord = TradeRecord(symbol: string, direction: Direction, quantity: int, price: real,
                                     timestamp: nat, simulated: bool)

  datatype Lot = Lot(quantity: int, price: real)

  /** One `profit_details` entry. */
  datatype Entry = Entry(symbol: string, sellTimestamp: nat, sellPrice: real, quantity: int,
                         cost: real, profit: real, profitPercent: real)

  datatype Report = Report(totalProfit: real, totalTrades: nat, details: seq<Entry>)

  datatype Consumed = Consumed(cost: real, lots: seq<Lot>, remaining: int)

  function Amount(l: Lot): real { l.quantity as real * l.price }

  function Qtys(lots: seq<Lot>): (qs: seq<int>)
    ensures |qs| == |lots|
    ensures forall k :: 0 <= k < |lots| ==> qs[k] == lots[k].quantity
  {
    if |lots| == 0 then [] else [lots[0].quantity] + Qtys(lots[1..])
  }

  /** `sum(lots[k].price * ms[k])`: what the matched shares cost. */
  function PricedSum(lots: seq<Lot>, ms: seq<int>): real
    requires |ms| <= |lots|
  {
    if |ms| == 0 then 0.0 else lots[0].price * ms[0] as real + PricedSum(lots[1..], ms[1..])
  }

  /** The `while remaining_quantity > 0 and buy_positions` loop of a sell. */
  function Consume(lots: seq<Lot>, rem: int): (r: Consumed)
    ensures |r.lots| <= |lots|
    ensures rem >= 0 ==> r.remaining >= 0
    ensures r.remaining > 0 ==> r.lots == []
    decreases |lots|
  {
    if rem <= 0 || |lots| == 0 then Consumed(0.0, lots, rem)
    else if lots[0].quantity <= rem then
      var rest := Consume(lots[1..], rem - lots[0].quantity);
      Consumed(Amount(lots[0]) + rest.cost, rest.lots, rest.remaining)
    else
      Consumed(lots[0].price * rem as real, [lots[0].(quantity := lots[0].quantity - rem)] + lots[1..], 0)
  }

  /** The sell loop follows the shared FIFO rule: it matches `min(remaining, lot)` lot
      by lot and stops with what `Left` leaves unmatched. */
  lemma {:induction false} ConsumeRemaining(lots: seq<Lot>, rem: int)
    ensures Consume(lots, rem).remaining == Left(Qtys(lots), rem)
    decreases |lots|
  {
    if rem > 0 && |lots| > 0 {
      assert Qtys(lots[1..]) == Qtys(lots)[1..];
      if lots[0].quantity <= rem {
        ConsumeRemaining(lots[1..], rem - lots[0].quantity);
      }
    }
  }

  /** A sell's cost is what the matched shares of each lot cost at that lot's price. */
  lemma {:induction false} ConsumeCost(lots: seq<Lot>, rem: int)
    ensures Consume(lots, rem).cost == PricedSum(lots, Take(Qtys(lots), rem))
    decreases |lots|
  {
    var qs := Qtys(lots);
    if rem > 0 && |lots| > 0 {
      assert Qtys(lots[1..]) == qs[1..];
      if lots[0].quantity <= rem {
        ConsumeCost(lots[1..], rem - lots[0].quantity);
        assert Take(qs, rem) == [lots[0].quantity] + Take(qs[1..], rem - lots[0].quantity);
      } else {
        assert Take(qs, rem) == [rem];
      }
    }
  }

  /** The queue loses exactly the matched shares. */
  lemma {:induction false} ConsumeOpenQty(lots: seq<Lot>, rem: int)
    ensures Sum(Qtys(Consume(lots, rem).lots)) == Sum(Qtys(lots)) - Sum(Take(Qtys(lots), rem))
    decreases |lots|
  {
    var qs := Qtys(lots);
    if rem > 0 && |lots| > 0 {
      var q0 := lots[0].quantity;
      assert Qtys(lots[1..]) == qs[1..];
      assert Sum(qs) == q0 + Sum(qs[1..]);
      if q0 <= rem {
        ConsumeOpenQty(lots[1..], rem - q0);
        assert Consume(lots, rem).lots == Consume(lots[1..], rem - q0).lots;
        var t := Take(qs[1..], rem - q0);
        assert Take(qs, rem) == [q0] + t;
        assert ([q0] + t)[1..] == t;
        assert Sum([q0] + t) == q0 + Sum(t);
      } else {
        var rest := [lots[0].(quantity := q0 - rem)] + lots[1..];
        assert Consume(lots, rem).lots == rest;
        assert Take(qs, rem) == [rem] + Take(qs[1..], 0);
        assert Sum(Take(qs, rem)) == rem;
        assert Qtys(rest) == [q0 - rem] + qs[1..];
        assert ([q0 - rem] + qs[1..])[1..] == qs[1..];
      }
    }
  }

  /** What is left is the back of the queue, its first lot possibly reduced. */
  lemma {:induction false} ConsumeSuffix(lots: seq<Lot>, rem: int)
    ensures var rest := Consume(lots, rem).lots;
      (forall k :: 0 < k < |rest| ==> rest[k] == lots[|lots| - |rest| + k])
      && (|rest| > 0 ==> rest[0].price == lots[|lots| - |rest|].price)
    decreases |lots|
  {
    var rest := Consume(lots, rem).lots;
    if rem <= 0 || |lots| == 0 {
      assert rest == lots;
    } else if lots[0].quantity <= rem {
      var tail := lots[1..];
      ConsumeSuffix(tail, rem - lots[0].quantity);
      assert rest == Consume(tail, rem - lots[0].quantity).lots;
      assert |tail| - |rest| + 1 == |lots| - |rest|;
    } else {
      assert rest == [lots[0].(quantity := lots[0].quantity - rem)] + lots[1..];
      assert |rest| == |lots|;
    }
  }

  /** The entry a sell produces: only when the matched lots cost something, and with
      the whole sell's revenue set against that cost. */
  function SellEntry(sym: string, t: TradeRecord, cost: real): (e: Option<Entry>)
    ensures e.Some? <==> cost > 0.0
    ensures e.Some? ==> e.value.symbol == sym && e.value.cost == cost && e.value.quantity == t.quantity
    ensures e.Some? ==> e.value.profit == t.price * t.quantity as real - cost
    ensures e.Some? ==> e.value.profitPercent * cost == e.value.profit * 100.0
  {
    if cost > 0.0 then
      var profit := t.quantity as real * t.price - cost;
      Some(Entry(sym, t.timestamp, t.price, t.quantity, cost, profit, profit / cost * 100.0))
    else None
  }

  predicate WellFormed(es: seq<Entry>, sym: string) {
    forall k :: 0 <= k < |es| ==>
      es[k].symbol == sym && es[k].cost > 0.0 && es[k].profit == es[k].sellPrice * es[k].quantity as real - es[k].cost
  }

  function CountSells(ts: seq<TradeRecord>): nat {
    if |ts| == 0 then 0 else (if ts[0].direction == Sell then 1 else 0) + CountSells(ts[1..])
  }

  /** One symbol's trades replayed in order against its lot queue. */
  function Replay(sym: string, ts: seq<TradeRecord>, lots: seq<Lot>): (es: seq<Entry>)
    ensures WellFormed(es, sym)
    ensures |es| <= CountSells(ts)
    decreases |ts|
  {
    if |ts| == 0 then []
    else
      var t := ts[0];
      match t.direction
      case Buy => Replay(sym, ts[1..], lots + [Lot(t.quantity, t.price)])
      case Sell =>
        var c := Consume(lots, t.quantity);
        var e := SellEntry(sym, t, c.cost);
        var head := if e.Some? then [e.value] else [];
        var rest := Replay(sym, ts[1..], c.lots);
        assert WellFormed(head, sym);
        WellFormedAppend(head, rest, sym);
        head + rest
      case OtherDirection(_) => Replay(sym, ts[1..], lots)
  }

  lemma WellFormedAppend(a: seq<Entry>, b: seq<Entry>, sym: string)
    requires WellFormed(a, sym) && WellFormed(b, sym)
    ensures WellFormed(a + b, sym)
  {
    forall k | 0 <= k < |a + b|
      ensures (a + b)[k].symbol == sym && (a + b)[k].cost > 0.0
      ensures (a + b)[k].profit == (a + b)[k].sellPrice * (a + b)[k].quantity as real - (a + b)[k].cost
    {
      if k < |a| {
        assert (a + b)[k] == a[k];
      } else {
        assert (a + b)[k] == b[k - |a|];
      }
    }
  }

  predicate SortedByTime(s: seq<TradeRecord>) {
    forall i, j :: 0 <= i < j < |s| ==> s[i].timestamp <= s[j].timestamp
  }

  /** Insert `x` after every element not newer than it. */
  function InsertByTime(s: seq<TradeRecord>, x: TradeRecord): seq<TradeRecord> {
    if |s| == 0 || s[|s| - 1].timestamp <= x.timestamp then s + [x]
    else InsertByTime(s[..|s| - 1], x) + [s[|s| - 1]]
  }

  lemma {:induction false} InsertKeepsElements(s: seq<TradeRecord>, x: TradeRecord)
    ensures multiset(InsertByTime(s, x)) == multiset(s) + multiset{x}
  {
    if |s| > 0 && s[|s| - 1].timestamp > x.timestamp {
      InsertKeepsElements(s[..|s| - 1], x);
      assert s == s[..|s| - 1] + [s[|s| - 1]];
    }
  }

  lemma {:induction false} InsertKeepsSorted(s: seq<TradeRecord>, x: TradeRecord)
    requires SortedByTime(s)
    ensures SortedByTime(InsertByTime(s, x))
  {
    if |s| > 0 && s[|s| - 1].timestamp > x.timestamp {
      var init := s[..|s| - 1];
      var last := s[|s| - 1];
      var r' := InsertByTime(init, x);
      InsertKeepsSorted(init, x);
      InsertKeepsElements(init, x);
      forall k | 0 <= k < |r'| ensures r'[k].timestamp <= last.timestamp {
        assert r'[k] in multiset(r');
        if r'[k] != x {
          assert r'[k] in multiset(init);
          var i :| 0 <= i < |init| && init[i] == r'[k];
          assert s[i] == init[i];
        }
      }
    }
  }

  /** `sorted(trades, key=lambda x: x.get("timestamp"))`, by stable insertion. */
  function SortByTime(s: seq<TradeRecord>): (r: seq<TradeRecord>)
    ensures SortedByTime(r)
    ensures multiset(r) == multiset(s)
  {
    if |s| == 0 then []
    else
      var init := SortByTime(s[..|s| - 1]);
      InsertKeepsSorted(init, s[|s| - 1]);
      InsertKeepsElements(init, s[|s| - 1]);
      assert s == s[..|s| - 1] + [s[|s| - 1]];
      InsertByTime(init, s[|s| - 1])
  }

  /** The trades of one symbol, in history order. */
  function Filter(h: seq<TradeRecord>, sym: string): (r: seq<TradeRecord>)
    ensures forall k :: 0 <= k < |r| ==> r[k].symbol == sym
  {
    if |h| == 0 then []
    else (if h[0].symbol == sym then [h[0]] else []) + Filter(h[1..], sym)
  }

  /** The symbols of the history, each once, in order of first appearance (the key
      order of the `stock_trades` dictionary). */
  function Symbols(h: seq<TradeRecord>): (syms: seq<string>)
    ensures forall i, j :: 0 <= i < j < |syms| ==> syms[i] != syms[j]
    ensures forall s :: s in syms <==> exists k :: 0 <= k < |h| && h[k].symbol == s
  {
    if |h| == 0 then []
    else
      var init := h[..|h| - 1];
      var s := h[|h| - 1].symbol;
      var p := Symbols(init);
      assert forall k :: 0 <= k < |init| ==> init[k] == h[k];
      if s in p then p else p + [s]
  }

  function SymbolEntries(h: seq<TradeRecord>, sym: string): (es: seq<Entry>)
    ensures WellFormed(es, sym)
  {
    Replay(sym, SortByTime(Filter(h, sym)), [])
  }

  function AllEntries(syms: seq<string>, h: seq<TradeRecord>): seq<Entry> {
    if |syms| == 0 then [] else SymbolEntries(h, syms[0]) + AllEntries(syms[1..], h)
  }

  function SumProfits(es: seq<Entry>): real {
    if |es| == 0 then 0.0 else es[0].profit + SumProfits(es[1..])
  }

  /** `calculate_profit()` */
  function CalculateProfit(h: seq<TradeRecord>): (r: Report)
    ensures |h| == 0 ==> r == Report(0.0, 0, [])
    ensures r.totalTrades == |r.details| && r.totalProfit == SumProfits(r.details)
  {
    if |h| == 0 then Report(0.0, 0, [])
    else
      var details := AllEntries(Symbols(h), h);
      Report(SumProfits(details), |details|, details)
  }

  /** The entries of one symbol. */
  function EntriesOf(es: seq<Entry>, sym: string): seq<Entry> {
    if |es| == 0 then [] else (if es[0].symbol == sym then [es[0]] else []) + EntriesOf(es[1..], sym)
  }

  lemma {:induction false} EntriesOfConcat(a: seq<Entry>, b: seq<Entry>, sym: string)
    ensures EntriesOf(a + b, sym) == EntriesOf(a, sym) + EntriesOf(b, sym)
    decreases |a|
  {
    if |a| == 0 {
      assert a + b == b;
    } else {
      EntriesOfConcat(a[1..], b, sym);
      var head := if a[0].symbol == sym then [a[0]] else [];
      assert (a + b)[0] == a[0];
      assert (a + b)[1..] == a[1..] + b;
      assert EntriesOf(a + b, sym) == head + EntriesOf(a[1..] + b, sym);
      assert EntriesOf(a, sym) == head + EntriesOf(a[1..], sym);
      assert head + (EntriesOf(a[1..], sym) + EntriesOf(b, sym)) == (head + EntriesOf(a[1..], sym)) + EntriesOf(b, sym);
    }
  }

  lemma {:induction false} EntriesOfWellFormed(es: seq<Entry>, s: string, sym: string)
    requires WellFormed(es, s)
    ensures EntriesOf(es, sym) == if s == sym then es else []
    decreases |es|
  {
    if |es| > 0 {
      assert WellFormed(es[1..], s);
      EntriesOfWellFormed(es[1..], s, sym);
    }
  }

  lemma {:induction false} AllEntriesOf(syms: seq<string>, h: seq<TradeRecord>, sym: string)
    requires forall i, j :: 0 <= i < j < |syms| ==> syms[i] != syms[j]
    ensures EntriesOf(AllEntries(syms, h), sym) == if sym in syms then SymbolEntries(h, sym) else []
    decreases |syms|
  {
    if |syms| > 0 {
      EntriesOfConcat(SymbolEntries(h, syms[0]), AllEntries(syms[1..], h), sym);
      EntriesOfWellFormed(SymbolEntries(h, syms[0]), syms[0], sym);
      AllEntriesOf(syms[1..], h, sym);
      if sym == syms[0] {
        assert sym !in syms[1..] by {
          forall j | 1 <= j < |syms| ensures syms[j] != sym {
            assert syms[0] != syms[j];
          }
        }
      }
    }
  }

  /** Every symbol is settled on its own: the report's entries for a symbol are exactly
      the replay of that symbol's trades in time order, whatever the other symbols do. */
  lemma SymbolsIndependent(h: seq<TradeRecord>, sym: string)
    ensures EntriesOf(CalculateProfit(h).details, sym) == if |h| == 0 then [] else SymbolEntries(h, sym)
  {
    if |h| > 0 {
      AllEntriesOf(Symbols(h), h, sym);
      if sym !in Symbols(h) {
        FilterAbsent(h, sym);
        assert SortByTime([]) == [];
      }
    }
  }

  lemma {:induction false} FilterAbsent(h: seq<TradeRecord>, sym: string)
    requires forall k :: 0 <= k < |h| ==> h[k].symbol != sym
    ensures Filter(h, sym) == []
    decreases |h|
  {
    if |h| > 0 {
      FilterAbsent(h[1..], sym);
    }
  }

  lemma {:induction false} FilterAppendOther(h: seq<TradeRecord>, t: TradeRecord, sym: string)
    requires t.symbol != sym
    ensures Filter(h + [t], sym) == Filter(h, sym)
    decreases |h|
  {
    if |h| == 0 {
      assert Filter([t], sym) == [] + Filter([], sym);
    } else {
      FilterAppendOther(h[1..], t, sym);
      assert (h + [t])[1..] == h[1..] + [t];
    }
  }

  /** Recording a trade of another symbol leaves a symbol's profit entries unchanged. */
  lemma OtherSymbolTradeIrrelevant(h: seq<TradeRecord>, t: TradeRecord, sym: string)
    requires t.symbol != sym && |h| > 0
    ensures EntriesOf(CalculateProfit(h + [t]).details, sym) == EntriesOf(CalculateProfit(h).details, sym)
  {
    SymbolsIndependent(h, sym);
    SymbolsIndependent(h + [t], sym);
    FilterAppendOther(h, t, sym);
  }

  /** The profit a sell books exceeds the profit on the shares it actually matched by
      the revenue of the shares it could not match. */
  lemma SellProfitGap(sym: string, lots: seq<Lot>, t: TradeRecord)
    requires SellEntry(sym, t, Consume(lots, t.quantity).cost).Some?
    ensures var e := SellEntry(sym, t, Consume(lots, t.quantity).cost).value;
      var qs := Qtys(lots);
      e.profit == (t.price * Sum(Take(qs, t.quantity)) as real - e.cost) + t.price * Left(qs, t.quantity) as real
  {
    TakeConserves(Qtys(lots), t.quantity);
  }
}

=== FILE: trading_window.dfy ===
/** `time_control` of stock_monitor_ollama_only.py: whether the current minute of the
    day lies in the configured trading window. Times are `HH:MM` values parsed with
    `strptime`, so they compare as minutes since midnight. */
module TradingWindow {

  const MinutesPerDay: int := 1440

  /** A `HH:MM` time of day, as minutes since midnight. */
  type Minute = m: int | 0 <= m < MinutesPerDay

  /** The configuration defaults `"22:00"` and `"05:00"`. */
  const DefaultStart: Minute := 22 * 60
  const DefaultEnd: Minute := 5 * 60

  /** A window whose start is later than its end wraps past midnight; otherwise it is
      the half-open interval from start to end. */
  function InWindow(start: Minute, end: Minute, now: Minute): (open: bool)
    ensures start > end ==> (open <==> !(end <= now < start))
    ensures start <= end ==> (open ==> start <= now)
  {
    if start > end then now >= start || now < end
    else start <= now < end
  }

  /** Minutes from `a` forward to `b` on the 24-hour clock. */
  function Forward(a: Minute, b: Minute): (d: nat)
    ensures d < MinutesPerDay
    ensures (a + d) % MinutesPerDay == b
  {
    (b - a) % MinutesPerDay
  }

  /** Both branches of the check are one rule: `now` is open exactly when it is
      reached from `start` before `end` is, walking forward around the clock. */
  lemma InWindowIsForwardDistance(start: Minute, end: Minute, now: Minute)
    ensures InWindow(start, end, now) <==> Forward(start, now) < Forward(start, end)
  {
    if now >= start {
      assert Forward(start, now) == now - start;
    } else {
      assert Forward(start, now) == now - start + MinutesPerDay;
    }
    if end >= start {
      assert Forward(start, end) == end - start;
    } else {
      assert Forward(start, end) == end - start + MinutesPerDay;
    }
  }

  /** A window whose start equals its end is never open. */
  lemma EmptyWindowNeverOpen(t: Minute, now: Minute)
    ensures !InWindow(t, t, now)
  {
  }

  /** Swapping the ends of a window gives exactly the complementary window. */
  lemma SwappedWindowIsComplement(start: Minute, end: Minute, now: Minute)
    requires start != end
    ensures InWindow(end, start, now) <==> !InWindow(start, end, now)
  {
  }

  /** The default window is the overnight session from 22:00 up to 05:00: it holds
      seven hours of the day. */
  lemma DefaultWindow(now: Minute)
    ensures InWindow(DefaultStart, DefaultEnd, now) <==> now >= 1320 || now < 300
    ensures Forward(DefaultStart, DefaultEnd) == 7 * 60
  {
  }
}

=== FILE: wrappers.dfy ===
/** Option and Result, the two failure-carrying datatypes the rest of the model uses
    for Python's `None` returns and caught exceptions. */
module Wrappers {

  datatype Option<+T> = None | Some(value: T) {
    /** The value, or `default` for None (Python's `x if x is not None else default`). */
    function GetOr(default: T): T {
      match this
      case Some(v) => v
      case None => default
    }
  }

  datatype Result<+R, +E> = Ok(value: R) | Err(error: E)
}
